=== FILE: README.md ===
# Spiritual dashboard network layer, modelled in Dafny

This project models the client-side network-resilience layer of the spiritual dashboard, and
the notification list that reports its results. It also proves properties of that model.

- **`ErrorHandler`** (`error_handler.dfy`) covers the spiritual error handler:
  - it classifies a caught failure by its `name` and `message` into a typed, graded `SpiritualError`;
  - it derives `retryable` from the type and draws a spiritual message;
  - it looks up an offline fallback payload by operation name;
  - it computes a capped exponential backoff;
  - it runs the bounded retry loop of `withSpiritualRetry`.
- **`NetworkConfig`** (`network_config.dfy`) covers the network configuration:
  - the service endpoint table and the retry delay;
  - timeouts by operation, cache lifetimes by data type, and header merging;
  - the `NetworkStatus` monitor (online flag, per-service status and check time, broadcast events);
  - single and aggregate health checks;
  - `URLBuilder`.
- **`ApiClient`** (`api_client.dfy`) covers the unified fetch-based client:
  - the service table and URL building;
  - request and response interceptor pipelines;
  - the five-minute URL-keyed cache;
  - the `request` flow (cache lookup, fetch, body read, status check, caching, interceptors, error classification);
  - the aggregate health check and the service-specific calls.
- **`Api`** (`axios_api.dfy`) covers the axios-based clients:
  - hostname-aware base URLs and the configured timeout;
  - the token-attaching request interceptor;
  - the response-error interceptor that maps a status and body to a user-facing message;
  - `handleApiError`, `createFormData` and the four-client health check.
- **`Notifications`** (`notifications.dfy`) covers the notification provider:
  - adding, with a generated id and an auto-dismiss timer;
  - removing and clearing;
  - the typed `notify*` helpers;
  - the progress-bar countdown.
- **Shared helpers** live in `Wrappers` (`Option`, `Result`), `Strings` (substring search, decimal rendering and parsing, joining) and `Numeric` (powers of two, jitter, capped jitter).

Effects are parameters:
- the clock (`now`);
- the random jitter (a real in [0, 0.3)) and the random message index (0, 1 or 2);
- the generated notification id;
- the outcome of each `fetch` or probe;
- the environment variables, the page's hostname and the stored token.

Every client, monitor and list is an immutable value, and each operation returns the updated one.

## Model

| member | source | states |
|---|---|---|
| ErrorHandler.IsRetryable | src/services/spiritualErrorHandler.js:43-51 | An error is retryable exactly when its type is network, service unavailable, timeout or rate limit. |
| ErrorHandler.GenerateSpiritualMessage | src/services/spiritualErrorHandler.js:53-94 | The message is one of the three messages of the error's type. The unknown type uses the generic list. |
| ErrorHandler.NewSpiritualError | src/services/spiritualErrorHandler.js:32-41 | The new error keeps message, type, severity and context. It is retryable iff its type is one of the four retryable types, and its spiritual message comes from its type's list. |
| ErrorHandler.Classify | src/services/spiritualErrorHandler.js:155-180 | Severity follows the type. A 60-second retry-after is suggested exactly for rate limiting. The type is network iff the error is a TypeError whose message mentions "fetch". |
| ErrorHandler.ClassifyIsFirstMatch | src/services/spiritualErrorHandler.js:161-180 | The classification equals the first matching rule of an independent ordered table (fetch TypeError, timeout/AbortError, 401/403, 400/422, 429, 503/502), else unknown/medium. |
| ErrorHandler.ClassifyByRules | src/services/spiritualErrorHandler.js:160-180 | The reference classification: severity follows the type, and the type is unknown exactly when no rule of the table matches. |
| ErrorHandler.UnmatchedIsUnknown | src/services/spiritualErrorHandler.js:155-158 | An error no rule matches is unknown, medium severity, with no retry-after. |
| ErrorHandler.ClassificationIsDeterministic | src/services/spiritualErrorHandler.js:160-180 | Two handlings of the same failure agree on type, severity and retryability, whatever their contexts and random draws. |
| ErrorHandler.OfflineIdsArePrefixed | src/services/spiritualErrorHandler.js:122-143 | Every identifier in the fallback catalogue starts with `offline_`. |
| ErrorHandler.FallbackFor | src/services/spiritualErrorHandler.js:98-149 | Each catalogue key gets the payload of its own kind, and each kind belongs to exactly one key. |
| ErrorHandler.LookupFallback | src/services/spiritualErrorHandler.js:197-218 | A fallback exists iff the operation is a catalogue key or one of the four aliases. A catalogue key gets its own payload. |
| ErrorHandler.AliasesReachTheirPayloads | src/services/spiritualErrorHandler.js:203-214 | fetchModels, fetchTarotReading, generateChart and queryBooks reach the models, tarot-reading, chart and book-query payloads. |
| ErrorHandler.AttemptOf | src/services/spiritualErrorHandler.js:221 | The attempt is the context's attempt when that is at least 1, and 1 when it is missing or 0. |
| ErrorHandler.BaseDelay | src/services/spiritualErrorHandler.js:222 | The base is the server's retry-after when that is at least 1, and 1000 when it is missing or 0. |
| ErrorHandler.Exponential | src/services/spiritualErrorHandler.js:225 | The unjittered backoff is at least the base, and exactly the base on the first attempt. |
| ErrorHandler.ExponentialDoubles | src/services/spiritualErrorHandler.js:225 | Each further attempt doubles the unjittered backoff. |
| ErrorHandler.HandlerDelay | src/services/spiritualErrorHandler.js:221-225 | The delay never exceeds 30000. It lies between min(base·2^(attempt−1), 30000) and less than 1.3·base·2^(attempt−1), which is the 30% jitter. A base of 30000 or more (the rate-limit 60000) always gives exactly 30000. |
| ErrorHandler.HandlerDelayMonotonic | src/services/spiritualErrorHandler.js:221-225 | For one jitter draw, a later attempt never gets a shorter delay. |
| ErrorHandler.FirstAttemptWaitsAboutASecond | src/services/spiritualErrorHandler.js:221-225 | A first attempt without a retry-after hint waits at least 1000 and less than 1300. |
| ErrorHandler.HandleSpiritualError | src/services/spiritualErrorHandler.js:152-249 | The response carries the classified type and its severity, and retryable iff that type is retryable. The message defaults when the raw one is empty. Context and original error are kept. The fallback data is the operation's fallback, present iff one exists. The suggested delay is the backoff for the classified retry-after and the context's attempt: at most 30000, and exactly 30000 for rate limiting. |
| ErrorHandler.RetryCallsBounded | src/services/spiritualErrorHandler.js:252-278 | The loop makes at most maxRetries calls and at least one when maxRetries ≥ 1. It sleeps once between consecutive calls, always for the delay the handler suggested for the failed attempt. With maxRetries < 1 it throws `undefined` without calling. |
| ErrorHandler.RetryFrom | src/services/spiritualErrorHandler.js:252-278 | The recursive run throws `undefined` exactly when no attempt is allowed. A resolution carries the value of the last call, and a rejection follows a throwing last call. |
| ErrorHandler.RejectionReason | src/services/spiritualErrorHandler.js:264-269 | A rejection carries the handler's error for the last call's failure, and happens only on the last allowed attempt or for a non-retryable failure. |
| ErrorHandler.RetrySucceedsOnFirstSuccess | src/services/spiritualErrorHandler.js:255-258 | If call k is the first success and every earlier call failed retryably, the loop resolves with that value after exactly k calls and k−1 sleeps. |
| ErrorHandler.RetryStopsOnNonRetryable | src/services/spiritualErrorHandler.js:259-269 | A non-retryable failure on call k, after only retryable failures, throws that failure's classified error after exactly k calls. |
| ErrorHandler.RetryExhausts | src/services/spiritualErrorHandler.js:255-269 | When every call fails retryably, the loop throws the last classified error after exactly maxRetries calls. |
| ErrorHandler.NonRetryableFirstFailureThrowsOnce | src/services/spiritualErrorHandler.js:259-269 | With the spiritual handler, a first failure of a non-retryable type throws after one call, carrying that type. |
| ErrorHandler.RetryLoop | src/services/spiritualErrorHandler.js:252-278 | The imperative loop computes exactly the recursive run. A resolution carries the value of the last call, and a rejection the handler's error for the last call's failure. |
| ErrorHandler.SpiritualSleepsCapped | src/services/spiritualErrorHandler.js:252-278 | With the spiritual handler there are at most maxRetries calls and one sleep fewer than calls, and each sleep is at most 30000. |
| ErrorHandler.SpiritualRejection | src/services/spiritualErrorHandler.js:259-269 | With the spiritual handler, a rejection carries the classification of the last failure, and happens on the last attempt or for a non-retryable error. |
| ErrorHandler.WithSpiritualRetry | src/services/spiritualErrorHandler.js:252-278 | `withSpiritualRetry` follows the recursive run with maxRetries defaulting to 3: at most that many calls, capped sleeps between calls, and a rejection carrying the last failure's classification. |
| Platform.EnvOr | src/services/networkConfig.js:20 | A set, non-empty variable wins. Otherwise the default is used (shared by the service table and API_CONFIG). |
| NetworkConfig.ServiceEndpoints | src/services/networkConfig.js:16-75 | There are eight endpoints, in declaration order, keyed by the service names. |
| NetworkConfig.LookupEndpoint | src/services/networkConfig.js:252-253 | A service's endpoint is found iff the service is one of the eight keys, and it is that service's entry. |
| NetworkConfig.CalculateDelay | src/services/networkConfig.js:84-95 | The delay is positive and at most 10000. It is at least min(1000·2^(a−1), 10000) and below 1.3·1000·2^(a−1). |
| NetworkConfig.CalculateDelayCapped | src/services/networkConfig.js:78-95 | From attempt 5 on, the delay is exactly 10000. |
| NetworkConfig.CalculateDelayMonotonic | src/services/networkConfig.js:91-95 | For a fixed jitter, a later attempt never waits less. |
| NetworkConfig.GetTimeout | src/services/networkConfig.js:98-119 | A listed operation gets its table value, anything else 15000. The result is always one of the four timeout classes. |
| NetworkConfig.GetTTL | src/services/networkConfig.js:122-141 | As written: a listed type with a non-zero lifetime gets it, an unlisted type gets the default. The result is never 0. |
| NetworkConfig.ReadingsGetDefaultTTL | src/services/networkConfig.js:131-140 | Readings are marked 0 ("do not cache") but get the five-minute default. |
| NetworkConfig.GetTTLIntended | src/services/networkConfig.js:122-141 | Corrected lookup: every listed type gets its own lifetime and only unlisted ones get the default. The lifetime is 0 exactly for readings. |
| NetworkConfig.GetTTLDiffersOnlyOnReadings | src/services/networkConfig.js:139-140 | The as-written and corrected lookups disagree exactly on readings. |
| NetworkConfig.BuildHeaders | src/services/networkConfig.js:178-186 | The merged keys are the union of all three sources. Additional headers win over service headers, which win over the defaults. |
| NetworkConfig.ServiceHeaders | src/services/networkConfig.js:144-176 | Exactly the five configured services have their own headers, always X-Service and X-Context. The key DEFAULT gives the default headers. Any other name gets none. |
| NetworkConfig.UnknownServiceHeaders | src/services/networkConfig.js:180-185 | A service without its own headers gets the defaults merged with the additional ones only. |
| NetworkConfig.NewMonitor | src/services/networkConfig.js:191-194 | A new monitor has the browser's online flag, no statuses, no check times and no events. |
| NetworkConfig.GoOnline | src/services/networkConfig.js:197-200 | The online event sets the flag and broadcasts "online"; statuses are untouched. |
| NetworkConfig.GoOffline | src/services/networkConfig.js:202-205 | The offline event clears the flag and broadcasts "offline"; statuses are untouched. |
| NetworkConfig.GetServiceStatus | src/services/networkConfig.js:214-216 | A service never set reads as unknown. |
| NetworkConfig.SetServiceStatus | src/services/networkConfig.js:219-223 | Only that service's status and check time change. The check time becomes now, and one service event is broadcast. |
| NetworkConfig.SetServiceStatusConsistent | src/services/networkConfig.js:219-223 | Setting a status keeps the status map and the check-time map on the same keys. |
| NetworkConfig.LastCheckedMonotonic | src/services/networkConfig.js:219-223 | With a clock that never runs backwards, no check time decreases and none lies in the future. |
| NetworkConfig.AllServiceStatuses | src/services/networkConfig.js:226-235 | There is one entry per service with a status, carrying that status and its check time when there is one. |
| NetworkConfig.AllStatusesHaveTimes | src/services/networkConfig.js:226-235 | In a consistent monitor every listed service carries its check time. |
| NetworkConfig.Broadcast | src/services/networkConfig.js:238-244 | Broadcasting appends the event and changes nothing else. |
| NetworkConfig.CheckServiceHealth | src/services/networkConfig.js:246-278 | Offline gives status offline, false and no request. An unknown service gives unknown and false. A known service gets a 5-second request. It is healthy iff online, known and answered 2xx. Non-2xx gives unhealthy and a thrown probe gives error. The recorded status is CheckedStatus. Only that service's status changes. |
| NetworkConfig.CheckedStatus | src/services/networkConfig.js:246-278 | The status a check records is healthy exactly when the service is reachable. |
| NetworkConfig.CheckRecordsEvent | src/services/networkConfig.js:219-223 | A single check broadcasts exactly one service event carrying the recorded status. |
| NetworkConfig.CheckEach | src/services/networkConfig.js:282-286 | There is one result per service, each true iff that service is reachable. The online flag is unchanged. |
| NetworkConfig.CheckEachStatuses | src/services/networkConfig.js:219-223 | After the checks, each listed service holds the status its probe gives, and every other service keeps its status. |
| NetworkConfig.CheckEachTimes | src/services/networkConfig.js:219-223 | After the checks, each listed service was checked at the current time, and every other service keeps its check time. |
| NetworkConfig.Changes | src/services/networkConfig.js:219-223 | There is one service event per check, in list order, each carrying the status that check records. |
| NetworkConfig.CheckEachEvents | src/services/networkConfig.js:282-286 | The checks append exactly their service events to those already broadcast, in the order of the list. |
| NetworkConfig.CheckAllServices | src/services/networkConfig.js:281-297 | The total is the eight endpoints. Healthy counts the services whose probe answered 2xx while online, unhealthy is the rest, and errors are 0 because no check rejects. The summary is broadcast after all checks. |
| NetworkConfig.AllAnsweringFindsAllHealthy | src/services/networkConfig.js:281-297 | Online, with every probe answering 2xx, all eight services count as healthy and none as unhealthy. |
| NetworkConfig.OfflineChecksFail | src/services/networkConfig.js:247-250 | While offline, no check of any list of services succeeds. |
| NetworkConfig.OfflineFindsNothingHealthy | src/services/networkConfig.js:281-297 | While offline, the summary counts no healthy service. |
| NetworkConfig.OfflineShortCircuit | src/services/networkConfig.js:247-250 | While offline, a check issues no request and marks the service offline. |
| NetworkConfig.KeptParams | src/services/networkConfig.js:314-319 | Every present parameter is kept as its key and text, and every kept pair comes from a present parameter, so null and undefined ones are dropped. None are kept iff no parameter has a value. |
| NetworkConfig.KeptParamsAppend | src/services/networkConfig.js:314-319 | Keeping distributes over concatenation, and one parameter is kept as (key, text) exactly when it is present: the kept list is the present parameters in order. |
| NetworkConfig.QueryString | src/services/networkConfig.js:321 | The query string is empty iff no parameter was kept. |
| NetworkConfig.Build | src/services/networkConfig.js:305-326 | An unknown service fails with "Unknown service: …". Otherwise the result is base URL + path, with "?" and the query appended iff some parameter has a value. |
| NetworkConfig.WebSocketBase | src/services/networkConfig.js:336 | Only a leading "http" is replaced by "ws". |
| NetworkConfig.SecureWebSocketScheme | src/services/networkConfig.js:336 | An https base becomes wss with the rest of the URL kept. |
| NetworkConfig.PlainWebSocketScheme | src/services/networkConfig.js:336 | An http base becomes ws with the rest of the URL kept. |
| NetworkConfig.BuildWebSocket | src/services/networkConfig.js:330-337 | An unknown service fails with "Unknown service for WebSocket: …". Otherwise the result is the WebSocket base plus the path, by default "/ws". |
| ApiClient.SpiritualServices | src/services/spiritualAPIClient.js:20-72 | There are five services, in declaration order, each with a health endpoint. |
| ApiClient.IsSuccess | src/services/spiritualAPIClient.js:98-100 | A response is a success iff its status is 2xx. |
| ApiClient.IsError | src/services/spiritualAPIClient.js:102-104 | A response is an error exactly when it is not a success. |
| ApiClient.ServiceName | src/services/spiritualAPIClient.js:106-108 | The name is the configured service, or "unknown" when none is configured. |
| ApiClient.StripTrailingSlash | src/services/spiritualAPIClient.js:137 | At most one trailing slash is removed, and nothing else changes. |
| ApiClient.EndpointPath | src/services/spiritualAPIClient.js:138 | A named endpoint maps to its path. Any other endpoint is used as the path itself. |
| ApiClient.BuildUrl | src/services/spiritualAPIClient.js:131-141 | An unknown service fails with "Unknown service: …". Otherwise the result is the stripped base URL plus the endpoint path. |
| ApiClient.DefaultTarotService | src/services/spiritualAPIClient.js:131-141 | With no overrides, the tarot reader's entry is http://localhost:7870 with /reading. |
| ApiClient.DefaultTarotReadingUrl | src/services/spiritualAPIClient.js:131-141 | With no overrides, a tarot reading goes to http://localhost:7870/reading. |
| ApiClient.MergeConfig | src/services/spiritualAPIClient.js:169-176 | Each option given overrides its default: GET, the standard headers, 30000. Service and endpoint are recorded. |
| ApiClient.PipelineAppend | src/services/spiritualAPIClient.js:144-163 | Running two interceptor lists in turn equals running their concatenation, so interceptors fold left in insertion order and the first throw stops the rest. |
| ApiClient.Pipeline | src/services/spiritualAPIClient.js:144-163 | No interceptors pass the value through unchanged. With PipelineAppend, interceptors fold left in insertion order. |
| ApiClient.PipelineSingle | src/services/spiritualAPIClient.js:144-152 | A one-interceptor pipeline is that interceptor. |
| ApiClient.AddRequestInterceptor | src/services/spiritualAPIClient.js:121-123 | The new request interceptor runs after the existing ones. Nothing else changes. |
| ApiClient.AddResponseInterceptor | src/services/spiritualAPIClient.js:126-128 | The new response interceptor runs after the existing ones. Nothing else changes. |
| ApiClient.NewClient | src/services/spiritualAPIClient.js:113-118 | A new client has no interceptors and an empty cache. |
| ApiClient.DefaultClient | src/services/spiritualAPIClient.js:390-411 | The shared client has one request and one response interceptor and an empty cache. |
| ApiClient.RequestId | src/services/spiritualAPIClient.js:396 | Request ids start with `req_`. |
| ApiClient.TrackingAddsHeaders | src/services/spiritualAPIClient.js:393-399 | The tracking interceptor adds the request-time and request-id headers and never throws. Every other header keeps its value, and method, timeout, service, endpoint and body are unchanged. |
| ApiClient.ModelsAreCacheable | src/services/spiritualAPIClient.js:246-248 | Any URL ending in /models is cache-eligible. |
| ApiClient.ShouldUseCache | src/services/spiritualAPIClient.js:246-252 | A URL is cache-eligible exactly when /models, /health or /spreads occurs in it. |
| ApiClient.SpreadsAreCacheable | src/services/spiritualAPIClient.js:246-248 | Any URL ending in /spreads is cache-eligible. |
| ApiClient.CardsAreNotCacheable | src/services/spiritualAPIClient.js:246-252 | Appending /cards never makes a URL cache-eligible: base + "/cards" is eligible exactly when the base is. |
| ApiClient.GetFromCache | src/services/spiritualAPIClient.js:254-261 | The lookup hits iff an entry exists and is younger than five minutes. A hit returns the stored response and leaves the cache unchanged; every miss deletes the key. |
| ApiClient.SetCache | src/services/spiritualAPIClient.js:263-268 | The entry is stored (overwriting any old one) with the current time, and other entries are kept. |
| ApiClient.CacheRoundTrip | src/services/spiritualAPIClient.js:254-268 | A stored response is served back iff less than five minutes have passed; after that the key is gone. |
| ApiClient.ClearCache | src/services/spiritualAPIClient.js:270-272 | Clearing empties the cache and keeps the interceptors. |
| ApiClient.ClearedCacheMisses | src/services/spiritualAPIClient.js:270-272 | After clearing, every lookup misses. |
| ApiClient.HttpError | src/services/spiritualAPIClient.js:219-221 | A non-2xx answer throws an Error whose message starts with "HTTP ". |
| ApiClient.Exchange | src/services/spiritualAPIClient.js:190-221 | A transport failure is rethrown. A JSON body that fails to parse throws before the status check. Otherwise the exchange succeeds iff the status is 2xx, with a response carrying the final config, status and time; a non-2xx status throws "HTTP status: text". |
| ApiClient.RequestContext | src/services/spiritualAPIClient.js:233-240 | The handler context names the request operation, service, endpoint and URL. |
| ApiClient.Classified | src/services/spiritualAPIClient.js:232-241 | The rethrown error is the handler's classification of the failure in the request context. |
| ApiClient.Perform | src/services/spiritualAPIClient.js:188-229 | A failed exchange leaves the cache and is rethrown. A successful one is stored iff eligible, and the response interceptors run only then. |
| ApiClient.Served | src/services/spiritualAPIClient.js:182-242 | A fresh cache hit on an eligible GET is returned without fetching. On a miss, the stale entry is dropped. A failed exchange is classified in the request context and stores nothing. A successful one is stored iff eligible, and the request surfaces what the response interceptors make of it. Only the requested URL's cache entry can change, and the interceptors are kept. |
| ApiClient.Surfaced | src/services/spiritualAPIClient.js:219-241 | A response passes through as is. A failure surfaces as the handler's error for that failure in the request context. |
| ApiClient.Request | src/services/spiritualAPIClient.js:166-243 | An unknown service and a throwing request interceptor fail unclassified before the guarded part. Classified failures name the request operation and service. Only the requested URL's cache entry can change. |
| ApiClient.FreshCacheHitIsServed | src/services/spiritualAPIClient.js:182-187 | An eligible GET (by the pre-interceptor method) with a fresh entry returns the cached response and leaves the client unchanged. |
| ApiClient.RepeatedGetIsServedFromCache | src/services/spiritualAPIClient.js:182-227 | A successful eligible GET repeated within five minutes is served from the cache, whatever the network does then. |
| ApiClient.FailedExchangeStoresNothing | src/services/spiritualAPIClient.js:219-241 | A failed exchange throws the classified error. The cache only loses the stale entry the lookup dropped. |
| ApiClient.SuccessfulMissIsIntercepted | src/services/spiritualAPIClient.js:188-229 | A request that misses the cache and gets a 2xx answer surfaces what the response interceptors make of it. An eligible GET stores the answer it received. The interceptors are modelled as returning new values, so the stored copy is the answer before them. |
| ApiClient.UncacheableRequestKeepsCache | src/services/spiritualAPIClient.js:182-225 | A non-GET request leaves the client, cache included, unchanged. |
| ApiClient.OutageMessage | src/services/spiritualAPIClient.js:219-221 | An "HTTP 502/503: text" message classifies as service unavailable exactly when the text mentions neither "timeout" nor 401, 403, 400, 422 or 429. |
| ApiClient.OutageStatusIsRetryable | src/services/spiritualAPIClient.js:219-221 | A 502 or 503 answer is service unavailable exactly when its status text passes the earlier rules, and then it is retryable. |
| ApiClient.DeniedMessage | src/services/spiritualAPIClient.js:219-221 | An "HTTP 401/403: text" message classifies as authentication exactly when the text does not mention "timeout", and as timeout otherwise. |
| ApiClient.DeniedStatusIsNotRetryable | src/services/spiritualAPIClient.js:219-221 | A 401 or 403 answer is an authentication failure exactly when its status text does not mention "timeout", and then it is not retried. |
| ApiClient.DeniedReasonPhrases | src/services/spiritualAPIClient.js:219-221 | 401 "Unauthorized" and 403 "Forbidden" are authentication failures. |
| ApiClient.BadGatewayIsOutage | src/services/spiritualAPIClient.js:219-221 | 502 "Bad Gateway" is a service outage. |
| ApiClient.ServiceUnavailableIsOutage | src/services/spiritualAPIClient.js:219-221 | 503 "Service Unavailable" is a service outage. |
| ApiClient.Report | src/services/spiritualAPIClient.js:368-381 | A service reports healthy with the response data iff its request succeeded; otherwise it reports unhealthy with the failure's message. |
| ApiClient.CheckEach | src/services/spiritualAPIClient.js:366-385 | There is one report per service, in order, each naming its service. Report i is the report of that service's own health request, made on the client the earlier checks left. |
| ApiClient.HealthyIffRequestSucceeded | src/services/spiritualAPIClient.js:368-381 | A service is reported healthy exactly when its own request succeeded. When every request succeeds, every service is healthy. |
| ApiClient.CheckServiceHealth | src/services/spiritualAPIClient.js:360-386 | A named service is its single health request. Without one, the answer is the reports of checking every service key in turn, one per key, in key order. |
| ApiClient.CheckOne | src/services/spiritualAPIClient.js:361-363 | A named service's check is its `health` request. |
| ApiClient.CheckAll | src/services/spiritualAPIClient.js:366-385 | Checking all services gives one report per service key, in key order. |
| ApiClient.HealthRequestIsRequest | src/services/spiritualAPIClient.js:369 | The per-service check is that service's `health` request. |
| ApiClient.EveryServiceReportsItsRequest | src/services/spiritualAPIClient.js:366-385 | Without a named service, report i is the report of service i's own `health` request, made on the client the earlier checks left. |
| ApiClient.Route | src/services/spiritualAPIClient.js:277-357 | Every convenience call names a known service. Chat, tarot reading, birth chart, compatibility and book query POST, and a call sends a body iff it POSTs. Each body carries the call's arguments, and omitted chat, tarot and book-query arguments take the source's defaults. |
| ApiClient.RoutesResolve | src/services/spiritualAPIClient.js:277-357 | No convenience call fails while building its URL. |
| ApiClient.Invoke | src/services/spiritualAPIClient.js:277-357 | A convenience call fails before the request only when a request interceptor throws. |
| Api.GetHostname | src/services/api.js:5-10 | The hostname is the page's hostname, or "localhost" without a window. |
| Api.CreateDynamicUrl | src/services/api.js:13-23 | On localhost or 127.0.0.1 the default is used. Otherwise the URL is http://host:port. |
| Api.ParseIntNatToString | src/services/api.js:34 | A rendered natural number parses back to itself. |
| Api.ConfiguredTimeout | src/services/api.js:34 | A missing setting, text that does not parse, or a parsed 0 gives 30000. Otherwise the timeout is the parsed number. |
| Api.ConfiguredTimeoutReadsNumber | src/services/api.js:34 | A positive number setting is used as is. |
| Api.ParseInt | src/services/api.js:34 | Leading white space is skipped. Text starting with a digit yields the value of its leading digits. After a sign, NaN exactly when no digit follows, and a minus negates. Empty text and any other first character yield NaN. |
| Api.ParseIntSkipsSpace | src/services/api.js:34 | White space of any length in front does not change the result. |
| Api.ParseIntNegative | src/services/api.js:34 | A rendered number behind a minus sign reads back as its negation. |
| Api.ServiceUrl | src/services/api.js:27-32 | One service URL: the variable when set and non-empty, otherwise http://localhost:port on a local page and http://host:port elsewhere. |
| Api.MakeApiConfig | src/services/api.js:26-35 | Each of the six service URLs is its variable when set and non-empty. Otherwise it is http://localhost:port on a local page, and http://host:port elsewhere. The WebSocket URL is its variable or ws://host:8000/ws. The timeout is the configured one. |
| Api.RemoteHostUrls | src/services/api.js:26-35 | Reached over the network, each of the six services that is not overridden, and the WebSocket, lives on the page's host. |
| Api.CreateApiClient | src/services/api.js:38-46 | A client gets the base URL, the JSON headers and the configured timeout unless one is given. |
| Api.AttachCredentials | src/services/api.js:49-61 | A non-empty token becomes a bearer Authorization header; without one, an existing Authorization header is kept. Every request gets the time stamp. Every other header keeps its value, and no other key is added. |
| Api.ItemText | src/services/api.js:113 | A validation item yields msg, else message, else itself. A null item throws. |
| Api.ItemsText | src/services/api.js:113 | The joined text is absent iff some item is null. |
| Api.ItemsTextIsJoin | src/services/api.js:113 | Without null items, the text is the items' texts joined with ", ". |
| Api.ValidationMessage | src/services/api.js:106-118 | A missing detail gives "Validation error occurred.". A string detail is used verbatim and an array detail is joined. Any other detail gives its message when that is truthy, else the default. |
| Api.GenericMessage | src/services/api.js:125-137 | A string detail wins. Any other truthy detail gives its message when that is truthy. The body's message is used only without a detail. Every other case gives "Request failed with status N". |
| Api.HandleResponseError | src/services/api.js:79-146 | A 401 alone resolves, clearing the token and moving to /login. 403, 404, 500 and 503 throw fixed messages. A 422 throws the validation message, or a TypeError when that cannot be formed. Any other status throws the generic message. No response gives the network message, and an unsent request gives its message or the generic one. |
| Api.ValidationErrorsAreJoined | src/services/api.js:106-118 | A 422 with a list of validation errors throws their texts joined by ", ", or a TypeError when one of them is null. |
| Api.FixedStatusesIgnoreBodyMessage | src/services/api.js:100-124 | For 403, 404, 500 and 503 the outcome does not depend on the body. |
| Api.HandleApiError | src/services/api.js:164-177 | A truthy detail is returned as is, else the message, else the generic text; the result is always truthy. |
| Api.CreateFormData | src/services/api.js:179-196 | The form keeps every field iff none is null or undefined. |
| Api.FormDataMatchesKeptFields | src/services/api.js:179-196 | The form has exactly one entry per kept field, in order, with the field's key. A file is appended as is, an object as its JSON text, anything else as its text. |
| Api.Fulfilled | src/services/api.js:201-212 | A health request counts as fulfilled iff it was answered, or failed with a 401. |
| Api.CheckServiceHealth | src/services/api.js:198-213 | Each flag is true iff that service's health request was fulfilled. If any request failed with 401 the session ends logged out at /login; otherwise it is unchanged. |
| Api.SessionAfter | src/services/api.js:95-99 | Only a 401 failure changes the session, to logged out at /login. |
| Api.UnauthorizedCountsAsUp | src/services/api.js:95-99 | A service answering its health check with 401 is reported up. |
| Notifications.AddNotification | src/components/SpiritualNotification.js:36-55 | The entry is appended and earlier entries are kept. Caller id and timestamp override the generated ones. The generated id is returned. Removal is scheduled iff the duration (default 5000) is positive, after that duration. |
| Notifications.RemoveNotification | src/components/SpiritualNotification.js:57-59 | An entry survives iff its id differs. |
| Notifications.RemoveDistributes | src/components/SpiritualNotification.js:57-59 | Removal distributes over concatenation, so the survivors keep their order. |
| Notifications.RemoveAbsentIsIdentity | src/components/SpiritualNotification.js:57-59 | Removing an id nobody has leaves the list as it was. |
| Notifications.AddThenRemove | src/components/SpiritualNotification.js:36-59 | Adding with a fresh id and running the scheduled removal gives back the original list. |
| Notifications.CallerIdDefeatsAutoRemoval | src/components/SpiritualNotification.js:37-54 | With a caller-supplied id, the scheduled removal names the generated id and leaves the entry in place. |
| Notifications.ClearAllNotifications | src/components/SpiritualNotification.js:61-63 | Clearing leaves an empty list, from which nothing is left to remove. |
| Notifications.HelperInput | src/components/SpiritualNotification.js:66-111 | Options override type, title, message and duration, a present but empty title included. The helper's defaults fill the rest. |
| Notifications.NotifySuccess | src/components/SpiritualNotification.js:66-73 | Appends a success entry with the default title unless the options override it. |
| Notifications.NotifyError | src/components/SpiritualNotification.js:75-83 | Appends an error entry whose message follows the error-message precedence. |
| Notifications.NotifyWarning | src/components/SpiritualNotification.js:85-92 | Appends a warning entry with the default title unless the options override it. |
| Notifications.NotifyInfo | src/components/SpiritualNotification.js:94-101 | Appends an info entry with the default title unless the options override it. |
| Notifications.NotifyLoading | src/components/SpiritualNotification.js:103-111 | Appends a loading entry with duration 0 unless the options give one. |
| Notifications.LoadingStaysUntilRemoved | src/components/SpiritualNotification.js:103-111 | Without a duration option, a loading entry is never auto-dismissed and has no progress bar. |
| Notifications.HelperDefaults | src/components/SpiritualNotification.js:66-73 | With no options, a success entry has its type, default title and message and is dismissed after 5000. |
| Notifications.ErrorMessage | src/components/SpiritualNotification.js:76 | The message is spiritualMessage, then message, then the error itself, then "An unknown error occurred". |
| Notifications.SpiritualErrorsShowTheirMessage | src/components/SpiritualNotification.js:75-83 | A handled spiritual error shows its spiritual message under the error title. |
| Notifications.Tick | src/components/SpiritualNotification.js:148-159 | A tick lowers the bar by one step or empties it, never below 0. There is no change while hovered or without a positive duration. |
| Notifications.TicksCountDown | src/components/SpiritualNotification.js:148-159 | n unhovered ticks take the bar to max(0, p − n·10000/duration). |
| Notifications.FullBarEmptiesOverLifetime | src/components/SpiritualNotification.js:148-159 | A full bar empties after duration/100 ticks, that is, over the notification's lifetime. |

## Left out

- I/O and timers:
  - `fetch`, axios, `AbortController` timeouts, `setTimeout` and `setInterval` are not modelled.
  - Their outcomes are parameters: an aborted fetch is a thrown failure, and a scheduled removal is returned as a delay.
  - Window listeners, `CustomEvent` dispatch, `localStorage`, redirects and console logging are not modelled either.
  - The broadcast events are recorded in the monitor, and the session's token and location are a value.
- Shared mutable objects: interceptors are modelled as functions that return a new config or response. In the source the cached response is the same object the response interceptors receive, so an interceptor that mutates its argument in place also changes the cached entry and what later cache hits return; the model does not promise that aliasing. The two default interceptors do not mutate a response.
- Concurrency: the `Promise.allSettled` fan-outs run one check after another, in the order of the service list. In the source each check broadcasts its own event when it settles, with its own `Date.now()`. The model fixes those events to the list order and gives them all one time. The axios health check likewise hands the four outcomes to the error interceptor in the order api, tarot, astrology, ebook; the end session does not depend on that order, since every 401 leaves the same one.
- Floating point: the jitter and delays are exact reals, with no rounding. Ids from `Date.now() + Math.random()` are opaque reals supplied by the caller.
- Timestamps: the `timestamp` of a `SpiritualError` is left out. The tracking interceptor's time and id are fixed for one call.
- `logSpiritualError`, the page components, layout, routing and the thin per-service wrappers in `tarotService.js`, `astrologyService.js` and `knowledgeService.js` are not part of this model. They are presentation or one-line plumbing.
- JSON: request bodies are a datatype, not their serialised text. `JSON.stringify` in `createFormData` and the percent-encoding of `URLSearchParams` are opaque function parameters.
- JavaScript object quirks are not modelled:
  - prototype-chain lookups (an operation named `toString` reaching a fallback, say) are left out;
  - `Object.entries` key order is modelled as the order of the given sequence;
  - spreading an option whose value is explicitly `undefined` is left out.
- `ErrorHandler.HandleSpiritualError`: a `TypeError` without a message would crash on `error.message.includes`. The model treats an absent message as empty instead.
- `ApiClient.MergeConfig`: options may also override `service` and `endpoint` in the source. The model keeps the arguments, so a config can never name another service than the URL.
- `Api.ParseInt`: only decimal digits after white space and a sign are read. Hexadecimal prefixes, fractions and Unicode white space are not modelled.
- `Api.HandleApiError`: the caught error is reduced to its response body and message.
- Emoji in messages: the spiritual messages use the intended emoji. The notification titles keep the characters the source file holds, which are emoji UTF-8 bytes read back as Windows-1252.
- The `catch` branch of the axios `checkServiceHealth` cannot be reached, because `Promise.allSettled` does not reject, so it has no model.
- Styling, icons and animation in `SpiritualNotification.js` are presentation and have no model.

## Findings

| source | as written | input that shows it | evidently intended | confidence | as-written member | corrected member |
|---|---|---|---|---|---|---|
| src/services/networkConfig.js:139-140 | `TTL_MAP[dataType] \|\| DEFAULT_TTL` treats the 0 marker for readings as missing | `getTTL('readings')` gives 300000 (five minutes) | readings get 0, meaning "do not cache", as the table's comment says | not executed | NetworkConfig.ReadingsGetDefaultTTL | NetworkConfig.GetTTLIntended |

=== FILE: api_client.dfy ===
/**
  The unified dashboard API client: the service table, URL building, the interceptor
  pipelines, the five-minute response cache, the core `request` flow with its error
  classification, the aggregate health check and the service-specific calls.

  The network is a parameter `fetch` from the URL and the final request to what came back;
  the clock (`now`), the handler's random draw and its module-load stamp are parameters too.
  A client is an immutable value; each operation returns the updated client.
 */
module ApiClient {
  import opened Wrappers
  import opened Strings
  import opened ErrorHandler
  import NetworkConfig
  import opened Platform

  type Headers = map<string, string>

  // ---------------------------------------------------------------------------
  // SPIRITUAL_SERVICES and REQUEST_CONFIG

  datatype ServiceConfig = ServiceConfig(key: string, name: string, baseUrl: string, endpoints: map<string, string>)

  /** The keys of SPIRITUAL_SERVICES, in declaration order. */
  const ClientServiceKeys: seq<string> := [
    "SPIRITUAL_API", "TAROT_SERVICE", "ASTROLOGY_SERVICE", "BOOK_CHAT_SERVICE", "GATEWAY_SERVICE"
  ]

  /** SPIRITUAL_SERVICES: base URLs and health paths come from the network configuration
      (the gateway from its SPIRITUAL_GATEWAY entry). */
  function SpiritualServices(env: Env): (ss: seq<ServiceConfig>)
    ensures |ss| == |ClientServiceKeys|
    ensures forall i :: 0 <= i < |ss| ==> ss[i].key == ClientServiceKeys[i]
    ensures forall i :: 0 <= i < |ss| ==> "health" in ss[i].endpoints
  {
    var eps := NetworkConfig.ServiceEndpoints(env);
    [
      ServiceConfig("SPIRITUAL_API", "spiritual-api", eps[0].url,
                    map["chat" := "/chat", "models" := "/models", "health" := eps[0].health]),
      ServiceConfig("TAROT_SERVICE", "tarot-reader", eps[1].url,
                    map["reading" := "/reading", "spreads" := "/spreads", "cards" := "/cards", "health" := eps[1].health]),
      ServiceConfig("ASTROLOGY_SERVICE", "astrology-calculator", eps[2].url,
                    map["birthChart" := "/birth_chart", "compatibility" := "/compatibility", "planets" := "/planets",
                        "health" := eps[2].health]),
      ServiceConfig("BOOK_CHAT_SERVICE", "book-chat-api", eps[3].url,
                    map["query" := "/query", "books" := "/books", "stats" := "/stats", "health" := eps[3].health]),
      ServiceConfig("GATEWAY_SERVICE", "spiritual-gateway", eps[4].url,
                    map["models" := "/api/models/available", "spiritual" := "/api/spiritual", "tarot" := "/api/tarot",
                        "astrology" := "/api/astrology", "bookChat" := "/api/book-chat", "health" := eps[4].health])
    ]
  }

  /** `SPIRITUAL_SERVICES[service]`. */
  function FindService(ss: seq<ServiceConfig>, key: string): (r: Option<ServiceConfig>)
    ensures r.Some? ==> r.value in ss && r.value.key == key
    ensures r.None? <==> forall i :: 0 <= i < |ss| ==> ss[i].key != key
  {
    FindByKey(ss, (s: ServiceConfig) => s.key, key)
  }

  /** REQUEST_CONFIG. */
  const RequestTimeout: nat := 30000
  const RequestHeaders: Headers := map[
    "Content-Type" := "application/json",
    "Accept" := "application/json",
    "X-Client" := "spiritual-dashboard",
    "X-Version" := "1.0.0"
  ]

  // ---------------------------------------------------------------------------
  // buildUrl

  /** `url.replace(/\/$/, '')`: at most one trailing slash is removed. */
  function StripTrailingSlash(url: string): (r: string)
    ensures |url| > 0 && url[|url| - 1] == '/' ==> r + "/" == url
    ensures !(|url| > 0 && url[|url| - 1] == '/') ==> r == url
  {
    if |url| > 0 && url[|url| - 1] == '/' then url[..|url| - 1] else url
  }

  /** `endpoints[endpoint] || endpoint`: a named endpoint maps to its path, anything else is
      used as a path itself. */
  function EndpointPath(endpoints: map<string, string>, endpoint: string): (p: string)
    ensures endpoint in endpoints && endpoints[endpoint] != "" ==> p == endpoints[endpoint]
    ensures !(endpoint in endpoints && endpoints[endpoint] != "") ==> p == endpoint
  {
    if endpoint in endpoints && endpoints[endpoint] != "" then endpoints[endpoint] else endpoint
  }

  /** `buildUrl(service, endpoint)`; an unknown service throws. */
  function BuildUrl(env: Env, service: string, endpoint: string): (r: Result<string, string>)
    ensures r.Failure? <==> service !in ClientServiceKeys
    ensures r.Failure? ==> r.error == "Unknown service: " + service
    ensures r.Success? ==>
      var sc := FindService(SpiritualServices(env), service).value;
      r.value == StripTrailingSlash(sc.baseUrl) + EndpointPath(sc.endpoints, endpoint)
  {
    var ss := SpiritualServices(env);
    var found := FindService(ss, service);
    assert found.None? <==> service !in ClientServiceKeys by {
      if service in ClientServiceKeys {
        var i :| 0 <= i < |ClientServiceKeys| && ClientServiceKeys[i] == service;
        assert ss[i].key == service;
      }
    }
    match found
    case None => Failure("Unknown service: " + service)
    case Some(sc) => Success(StripTrailingSlash(sc.baseUrl) + EndpointPath(sc.endpoints, endpoint))
  }

  /** With no environment overrides, the tarot reader's entry is the local one. */
  lemma DefaultTarotService()
    ensures FindService(SpiritualServices(map[]), "TAROT_SERVICE").Some?
    ensures var sc := FindService(SpiritualServices(map[]), "TAROT_SERVICE").value;
      sc.baseUrl == "http://localhost:7870" && "reading" in sc.endpoints && sc.endpoints["reading"] == "/reading"
  {
    var ss := SpiritualServices(map[]);
    assert ss[1].key == "TAROT_SERVICE";
    var sc := FindService(ss, "TAROT_SERVICE").value;
    assert sc == ss[1];
  }

  /** With no environment overrides, a tarot reading goes to the local tarot reader. */
  lemma DefaultTarotReadingUrl()
    ensures BuildUrl(map[], "TAROT_SERVICE", "reading") == Success("http://localhost:7870/reading")
  {
    DefaultTarotService();
    var sc := FindService(SpiritualServices(map[]), "TAROT_SERVICE").value;
    assert StripTrailingSlash(sc.baseUrl) == sc.baseUrl;
    assert EndpointPath(sc.endpoints, "reading") == "/reading";
    assert "TAROT_SERVICE" == ClientServiceKeys[1];
    assert BuildUrl(map[], "TAROT_SERVICE", "reading").Success?;
    assert BuildUrl(map[], "TAROT_SERVICE", "reading").value == "http://localhost:7870" + "/reading";
    assert "http://localhost:7870" + "/reading" == "http://localhost:7870/reading";
  }

  // ---------------------------------------------------------------------------
  // Requests, responses and interceptors

  /** The request body; its JSON text is not modelled. */
  datatype Payload =
    | ChatBody(message: string, context: string, model: string)
    | TarotBody(question: string, spreadType: string, deck: string, includeInterpretation: bool)
    | BirthChartBody(birthData: string)
    | CompatibilityBody(person1: string, person2: string)
    | BookQueryBody(query: string, category: string, model: string)

  /** The request configuration after merging defaults and options. */
  datatype RequestConfig = RequestConfig(
    httpMethod: string, headers: Headers, timeout: nat, service: string, endpoint: string, body: Option<Payload>)

  /** The caller's `options`: each field given overrides the default. */
  datatype Options = Options(httpMethod: Option<string>, headers: Option<Headers>, timeout: Option<nat>, body: Option<Payload>)

  const NoOptions: Options := Options(None, None, None, None)

  /** `{ httpMethod: 'GET', headers: {...}, timeout, service, endpoint, ...options }`. */
  function MergeConfig(service: string, endpoint: string, options: Options): (c: RequestConfig)
    ensures c.httpMethod == options.httpMethod.GetOr("GET")
    ensures c.headers == options.headers.GetOr(RequestHeaders)
    ensures c.timeout == options.timeout.GetOr(RequestTimeout)
    ensures c.service == service && c.endpoint == endpoint && c.body == options.body
  {
    RequestConfig(options.httpMethod.GetOr("GET"), options.headers.GetOr(RequestHeaders),
                  options.timeout.GetOr(RequestTimeout), service, endpoint, options.body)
  }

  /** What the response body was read as: parsed JSON or plain text. */
  datatype Data = JsonData(json: string) | TextData(text: string)

  /** A `SpiritualAPIResponse`. */
  datatype ApiResponse = ApiResponse(data: Data, status: nat, statusText: string, config: RequestConfig, timestamp: int)

  /** `isSuccess`: a 2xx status. */
  function IsSuccess(r: ApiResponse): (ok: bool)
    ensures ok <==> IsOk(r.status)
  {
    200 <= r.status < 300
  }

  /** `isError`: exactly the responses that are not a success. */
  function IsError(r: ApiResponse): (failed: bool)
    ensures failed <==> !IsOk(r.status)
  {
    !IsSuccess(r)
  }

  /** `service`: the configured service, or "unknown" when the configuration names none. */
  function ServiceName(r: ApiResponse): (s: string)
    ensures s != ""
    ensures r.config.service != "" ==> s == r.config.service
    ensures r.config.service == "" ==> s == "unknown"
  {
    if r.config.service != "" then r.config.service else "unknown"
  }

  /** An interceptor stage: it returns the next value, or throws. */
  type Stage<!T> = T -> Result<T, RawError>

  /** Runs the stages in order; the first one that throws ends the pipeline. */
  function Pipeline<T>(x: T, stages: seq<Stage<T>>): (r: Result<T, RawError>)
    ensures |stages| == 0 ==> r == Success(x)
    decreases |stages|
  {
    if |stages| == 0 then Success(x)
    else
      match stages[0](x)
      case Failure(e) => Failure(e)
      case Success(y) => Pipeline(y, stages[1..])
  }

  /** Running two lists of stages one after the other is running their concatenation: adding
      an interceptor extends the pipeline at its end. */
  lemma {:induction false} PipelineAppend<T>(x: T, a: seq<Stage<T>>, b: seq<Stage<T>>)
    ensures Pipeline(x, a + b) ==
      match Pipeline(x, a)
      case Failure(e) => Failure(e)
      case Success(y) => Pipeline(y, b)
    decreases |a|
  {
    if |a| == 0 {
      assert a + b == b;
    } else {
      assert (a + b)[0] == a[0];
      assert (a + b)[1..] == a[1..] + b;
      match a[0](x)
      case Failure(e) =>
      case Success(y) => PipelineAppend(y, a[1..], b);
    }
  }

  /** A one-stage pipeline is that stage. */
  lemma PipelineSingle<T>(x: T, s: Stage<T>)
    ensures Pipeline(x, [s]) == s(x)
  {
    assert [s][1..] == [];
  }

  /** The default request interceptor, for one call: it stamps the request time and id. */
  function TrackingInterceptor(isoTime: string, requestId: string): Stage<RequestConfig> {
    (c: RequestConfig) => Success(c.(headers := c.headers["X-Request-Time" := isoTime]["X-Request-ID" := requestId]))
  }

  /** `req_${Date.now()}_${suffix}`: the id the tracking interceptor assigns. */
  function RequestId(now: nat, suffix: string): (id: string)
    ensures StartsWith(id, "req_")
  {
    "req_" + NatToString(now) + "_" + suffix
  }

  /** The tracking interceptor adds its two headers and changes nothing else. */
  lemma TrackingAddsHeaders(c: RequestConfig, isoTime: string, requestId: string)
    ensures var r := TrackingInterceptor(isoTime, requestId)(c);
      r.Success? && r.value.headers.Keys == c.headers.Keys + {"X-Request-Time", "X-Request-ID"} &&
      r.value.headers["X-Request-Time"] == isoTime && r.value.headers["X-Request-ID"] == requestId &&
      r.value.httpMethod == c.httpMethod && r.value.service == c.service && r.value.body == c.body &&
      r.value.timeout == c.timeout && r.value.endpoint == c.endpoint &&
      forall k :: k in c.headers && k != "X-Request-Time" && k != "X-Request-ID" ==> r.value.headers[k] == c.headers[k]
  {
  }

  /** The default response interceptor only logs, so it passes the response through. */
  function LoggingInterceptor(): Stage<ApiResponse> {
    (r: ApiResponse) => Success(r)
  }

  // ---------------------------------------------------------------------------
  // The cache

  const CacheTimeout: int := 5 * 60 * 1000

  datatype CacheEntry = CacheEntry(response: ApiResponse, timestamp: int)

  type Cache = map<string, CacheEntry>

  /** `shouldUseCache(url)` (and `shouldCache`, which is the same test). */
  predicate ShouldUseCache(url: string)
    ensures ShouldUseCache(url) <==>
      exists i :: OccursAt(url, "/models", i) || OccursAt(url, "/health", i) || OccursAt(url, "/spreads", i)
  {
    ContainsIff(url, "/models");
    ContainsIff(url, "/health");
    ContainsIff(url, "/spreads");
    Contains(url, "/models") || Contains(url, "/health") || Contains(url, "/spreads")
  }

  /** Any URL ending in the model list path is cacheable. */
  lemma ModelsAreCacheable(base: string)
    ensures ShouldUseCache(base + "/models")
  {
    var url := base + "/models";
    assert url[|base|..|base| + 7] == "/models";
    ContainsAt(url, "/models", |base|);
  }

  /** Any URL ending in the spread list path is cacheable. */
  lemma SpreadsAreCacheable(base: string)
    ensures ShouldUseCache(base + "/spreads")
  {
    var url := base + "/spreads";
    assert url[|base|..|base| + 8] == "/spreads";
    ContainsAt(url, "/spreads", |base|);
  }

  /** Appending the card list path never makes a URL cacheable: `base + "/cards"` is
      cache-eligible exactly when `base` already is. */
  lemma CardsAreNotCacheable(base: string)
    ensures ShouldUseCache(base + "/cards") <==> ShouldUseCache(base)
  {
    ContainsBeforeSuffix(base, "/cards", "/models");
    ContainsBeforeSuffix(base, "/cards", "/health");
    ContainsBeforeSuffix(base, "/cards", "/spreads");
  }

  /** A fresh entry: younger than the cache timeout. */
  predicate Fresh(cache: Cache, url: string, now: int) {
    url in cache && now - cache[url].timestamp < CacheTimeout
  }

  /** `getFromCache(url)`: a fresh entry is returned; otherwise the entry, if any, is dropped. */
  function GetFromCache(cache: Cache, url: string, now: int): (r: (Option<ApiResponse>, Cache))
    ensures r.0.Some? <==> Fresh(cache, url, now)
    ensures r.0.Some? ==> r.0.value == cache[url].response && r.1 == cache
    ensures r.0.None? ==> r.1 == cache - {url}
  {
    if Fresh(cache, url, now) then (Some(cache[url].response), cache) else (None, cache - {url})
  }

  /** `setCache(url, response)`. */
  function SetCache(cache: Cache, url: string, response: ApiResponse, now: int): (c: Cache)
    ensures c.Keys == cache.Keys + {url}
    ensures c[url] == CacheEntry(response, now)
    ensures forall u :: u in cache && u != url ==> c[u] == cache[u]
  {
    cache[url := CacheEntry(response, now)]
  }

  /** A stored response is served back until the timeout has passed, and not after. */
  lemma CacheRoundTrip(cache: Cache, url: string, response: ApiResponse, stored: int, later: int)
    ensures var r := GetFromCache(SetCache(cache, url, response, stored), url, later);
      (r.0 == Some(response) <==> later - stored < CacheTimeout) &&
      (r.0.None? ==> url !in r.1)
  {
  }

  /** `clearCache()`: nothing is served afterwards. */
  lemma ClearedCacheMisses(url: string, now: int)
    ensures GetFromCache(map[], url, now).0.None?
  {
  }

  // ---------------------------------------------------------------------------
  // The client and `request`

  datatype Client = Client(
    requestInterceptors: seq<Stage<RequestConfig>>,
    responseInterceptors: seq<Stage<ApiResponse>>,
    cache: Cache)

  /** A fresh client: no interceptors, an empty cache. */
  function NewClient(): (c: Client)
    ensures c.requestInterceptors == [] && c.responseInterceptors == [] && c.cache == map[]
  {
    Client([], [], map[])
  }

  /** `addRequestInterceptor`: the new stage runs after the existing ones. */
  function AddRequestInterceptor(c: Client, i: Stage<RequestConfig>): (c': Client)
    ensures c'.requestInterceptors == c.requestInterceptors + [i]
    ensures c'.responseInterceptors == c.responseInterceptors && c'.cache == c.cache
  {
    c.(requestInterceptors := c.requestInterceptors + [i])
  }

  /** `addResponseInterceptor`: the new stage runs after the existing ones. */
  function AddResponseInterceptor(c: Client, i: Stage<ApiResponse>): (c': Client)
    ensures c'.responseInterceptors == c.responseInterceptors + [i]
    ensures c'.requestInterceptors == c.requestInterceptors && c'.cache == c.cache
  {
    c.(responseInterceptors := c.responseInterceptors + [i])
  }

  /** `clearCache()`. */
  function ClearCache(c: Client): (c': Client)
    ensures c'.cache == map[]
    ensures c'.requestInterceptors == c.requestInterceptors && c'.responseInterceptors == c.responseInterceptors
  {
    c.(cache := map[])
  }

  /** The shared client instance, with its two default interceptors for one call. */
  function DefaultClient(isoTime: string, requestId: string): (c: Client)
    ensures |c.requestInterceptors| == 1 && |c.responseInterceptors| == 1 && c.cache == map[]
  {
    AddResponseInterceptor(AddRequestInterceptor(NewClient(), TrackingInterceptor(isoTime, requestId)),
                           LoggingInterceptor())
  }

  /** What `fetch` produced: a thrown failure (network, abort), or an answer whose body is read
      as JSON when the content type says so (which may throw) and as text otherwise. */
  datatype FetchOutcome =
    | Transport(error: RawError)
    | Answered(status: nat, statusText: string, contentType: string, json: Result<string, RawError>, text: string)

  /** The failure a non-2xx answer throws: `HTTP <status>: <statusText>`. */
  function HttpError(status: nat, statusText: string): (e: RawError)
    ensures e.name == "Error" && StartsWith(e.message, "HTTP ")
  {
    RawError("Error", "HTTP " + NatToString(status) + ": " + statusText)
  }

  /** Reads the body and builds the response, then throws on a non-2xx status (after the
      body has been read, so a body failure wins). */
  function Exchange(outcome: FetchOutcome, config: RequestConfig, now: int): (r: Result<ApiResponse, RawError>)
    ensures outcome.Transport? ==> r == Failure(outcome.error)
    ensures r.Success? ==> outcome.Answered? && IsOk(outcome.status) && IsSuccess(r.value)
    ensures r.Success? ==> r.value.config == config && r.value.status == outcome.status && r.value.timestamp == now
    ensures outcome.Answered? && Contains(outcome.contentType, "application/json") && outcome.json.Failure? ==>
      r == Failure(outcome.json.error)
    ensures outcome.Answered? && (!Contains(outcome.contentType, "application/json") || outcome.json.Success?) ==>
      (r.Success? <==> IsOk(outcome.status))
    ensures outcome.Answered? && !IsOk(outcome.status) &&
            (!Contains(outcome.contentType, "application/json") || outcome.json.Success?) ==>
      r == Failure(HttpError(outcome.status, outcome.statusText))
  {
    match outcome
    case Transport(e) => Failure(e)
    case Answered(status, statusText, contentType, json, text) =>
      var data: Result<Data, RawError> :=
        if Contains(contentType, "application/json") then
          (match json case Success(j) => Success(JsonData(j)) case Failure(e) => Failure(e))
        else Success(TextData(text));
      match data
      case Failure(e) => Failure(e)
      case Success(d) =>
        if !IsOk(status) then
          Failure(HttpError(status, statusText))
        else Success(ApiResponse(d, status, statusText, config, now))
  }

  /** How `request` ends: a response, a failure thrown before the guarded part (unknown
      service, a request interceptor), or the classified error of the guarded part. */
  datatype RequestOutcome =
    | Ok(response: ApiResponse)
    | ConfigError(thrown: RawError)
    | Failed(failure: SpiritualError)

  /** The context `request` hands to the error handler. */
  function RequestContext(service: string, endpoint: string, url: string): (c: ErrorContext)
    ensures c.operation == Some("request") && c.attempt.None?
    ensures c.service == Some(service) && c.endpoint == Some(endpoint) && c.url == Some(url)
  {
    ErrorContext(Some("SpiritualDashboardAPIClient"), Some("request"), None, Some(service), Some(endpoint), Some(url))
  }

  /** The error `request` rethrows: the handler's `SpiritualError` for the request context. */
  function Classified(e: RawError, service: string, endpoint: string, url: string, draw: Draw, stamp: nat): (err: SpiritualError)
    ensures err.kind == Classify(e).kind && err.originalError == e
    ensures err.context == RequestContext(service, endpoint, url)
    ensures err.retryable <==> IsRetryable(err.kind)
    ensures err.message == (if e.message == "" then DefaultErrorMessage else e.message)
  {
    HandleSpiritualError(e, RequestContext(service, endpoint, url), draw, stamp).error
  }

  /** Whether a request is one the cache serves and stores: a GET (as configured before the
      interceptors ran) of a cacheable URL. */
  predicate Cacheable(config: RequestConfig, url: string) {
    config.httpMethod == "GET" && ShouldUseCache(url)
  }

  /** The guarded part of `request`, after the cache lookup missed: fetch, read, check the
      status, store an eligible response, run the response interceptors. */
  function Perform(client: Client, cacheable: bool, url: string, final: RequestConfig,
                   outcome: FetchOutcome, now: int): (r: (Cache, Result<ApiResponse, RawError>))
    ensures Exchange(outcome, final, now).Failure? ==> r == (client.cache, Failure(Exchange(outcome, final, now).error))
    ensures Exchange(outcome, final, now).Success? ==>
      var response := Exchange(outcome, final, now).value;
      r.0 == (if cacheable then SetCache(client.cache, url, response, now) else client.cache) &&
      r.1 == Pipeline(response, client.responseInterceptors)
  {
    match Exchange(outcome, final, now)
    case Failure(e) => (client.cache, Failure(e))
    case Success(response) =>
      var cache := if cacheable then SetCache(client.cache, url, response, now) else client.cache;
      (cache, Pipeline(response, client.responseInterceptors))
  }

  /** How the guarded part's result surfaces from `request`: a response as is, a failure as
      the error handler's `SpiritualError` for the request context. */
  function Surfaced(result: Result<ApiResponse, RawError>, service: string, endpoint: string, url: string,
                    draw: Draw, stamp: nat): (o: RequestOutcome)
    ensures result.Success? <==> o.Ok?
    ensures result.Success? ==> o.response == result.value
    ensures result.Failure? ==> o.Failed? && o.failure.originalError == result.error
    ensures result.Failure? ==> o.Failed? && o.failure.context == RequestContext(service, endpoint, url)
  {
    match result
    case Success(response) => Ok(response)
    case Failure(e) => Failed(Classified(e, service, endpoint, url, draw, stamp))
  }

  /** The part of `request` after the URL is built and the request interceptors have run:
      the cache lookup for an eligible GET, then the guarded exchange, whose failures are
      classified by the error handler. */
  function Served(client: Client, url: string, service: string, endpoint: string, config: RequestConfig,
                  final: RequestConfig, fetch: (string, RequestConfig) -> FetchOutcome,
                  now: int, draw: Draw, stamp: nat): (r: (Client, RequestOutcome))
    ensures r.0.requestInterceptors == client.requestInterceptors
    ensures r.0.responseInterceptors == client.responseInterceptors
    ensures !r.1.ConfigError?
    ensures r.1.Failed? ==> r.1.failure.context == RequestContext(service, endpoint, url)
    ensures !Cacheable(config, url) ==> r.0.cache == client.cache
    ensures Cacheable(config, url) && Fresh(client.cache, url, now) ==> r == (client, Ok(client.cache[url].response))
    ensures forall u :: u != url ==> (u in r.0.cache <==> u in client.cache)
    ensures forall u :: u != url && u in client.cache ==> r.0.cache[u] == client.cache[u]
    ensures !(Cacheable(config, url) && Fresh(client.cache, url, now)) ==>
      var pruned := if Cacheable(config, url) then client.cache - {url} else client.cache;
      var exchanged := Exchange(fetch(url, final), final, now);
      (exchanged.Failure? ==>
        r.0.cache == pruned && r.1 == Failed(Classified(exchanged.error, service, endpoint, url, draw, stamp))) &&
      (exchanged.Success? ==>
        r.0.cache == (if Cacheable(config, url) then SetCache(pruned, url, exchanged.value, now) else pruned) &&
        r.1 == Surfaced(Pipeline(exchanged.value, client.responseInterceptors), service, endpoint, url, draw, stamp))
  {
    var cacheable := Cacheable(config, url);
    var lookup := if cacheable then GetFromCache(client.cache, url, now) else (None, client.cache);
    if lookup.0.Some? then (client, Ok(lookup.0.value))
    else
      var client1 := client.(cache := lookup.1);
      var performed := Perform(client1, cacheable, url, final, fetch(url, final), now);
      var client2 := client1.(cache := performed.0);
      (client2, Surfaced(performed.1, service, endpoint, url, draw, stamp))
  }

  /** `request(service, endpoint, options)`: an unknown service and a throwing request
      interceptor fail before the guarded part, unclassified. */
  function Request(client: Client, env: Env, service: string, endpoint: string, options: Options,
                   fetch: (string, RequestConfig) -> FetchOutcome, now: int, draw: Draw, stamp: nat): (r: (Client, RequestOutcome))
    ensures r.0.requestInterceptors == client.requestInterceptors
    ensures r.0.responseInterceptors == client.responseInterceptors
    ensures BuildUrl(env, service, endpoint).Failure? ==>
      r == (client, ConfigError(RawError("Error", "Unknown service: " + service)))
    ensures BuildUrl(env, service, endpoint).Success? &&
            Pipeline(MergeConfig(service, endpoint, options), client.requestInterceptors).Failure? ==>
      r == (client, ConfigError(Pipeline(MergeConfig(service, endpoint, options), client.requestInterceptors).error))
    ensures r.1.Failed? ==> r.1.failure.context.operation == Some("request") && r.1.failure.context.service == Some(service)
    ensures BuildUrl(env, service, endpoint).Success? ==>
      var url := BuildUrl(env, service, endpoint).value;
      var config := MergeConfig(service, endpoint, options);
      (!Cacheable(config, url) ==> r.0.cache == client.cache) &&
      (forall u :: u != url ==> (u in r.0.cache <==> u in client.cache)) &&
      (forall u :: u != url && u in client.cache ==> r.0.cache[u] == client.cache[u])
  {
    match BuildUrl(env, service, endpoint)
    case Failure(msg) => (client, ConfigError(RawError("Error", msg)))
    case Success(url) =>
      var config := MergeConfig(service, endpoint, options);
      match Pipeline(config, client.requestInterceptors)
      case Failure(e) => (client, ConfigError(e))
      case Success(final) => Served(client, url, service, endpoint, config, final, fetch, now, draw, stamp)
  }

  /** A fresh cached response is served for a cacheable GET without touching the network. */
  lemma FreshCacheHitIsServed(client: Client, env: Env, service: string, endpoint: string,
                              options: Options, fetch: (string, RequestConfig) -> FetchOutcome,
                              now: int, draw: Draw, stamp: nat)
    ensures var built := BuildUrl(env, service, endpoint);
      var config := MergeConfig(service, endpoint, options);
      built.Success? && Pipeline(config, client.requestInterceptors).Success? &&
      Cacheable(config, built.value) && Fresh(client.cache, built.value, now) ==>
        Request(client, env, service, endpoint, options, fetch, now, draw, stamp) ==
          (client, Ok(client.cache[built.value].response))
  {
  }

  /** A cacheable GET answered with 2xx is served from the cache by the same request repeated
      within five minutes, whatever the network does then: the stored copy is the response
      as it was before the response interceptors ran. */
  lemma RepeatedGetIsServedFromCache(client: Client, env: Env, service: string, endpoint: string,
                                     options: Options, fetch: (string, RequestConfig) -> FetchOutcome,
                                     fetch2: (string, RequestConfig) -> FetchOutcome,
                                     now: int, later: int, draw: Draw, stamp: nat)
    ensures var built := BuildUrl(env, service, endpoint);
      var config := MergeConfig(service, endpoint, options);
      var staged := Pipeline(config, client.requestInterceptors);
      built.Success? && staged.Success? && Cacheable(config, built.value) && !Fresh(client.cache, built.value, now) &&
      Exchange(fetch(built.value, staged.value), staged.value, now).Success? &&
      now <= later < now + CacheTimeout ==>
        var first := Request(client, env, service, endpoint, options, fetch, now, draw, stamp);
        Request(first.0, env, service, endpoint, options, fetch2, later, draw, stamp).1 ==
          Ok(Exchange(fetch(built.value, staged.value), staged.value, now).value)
  {
    var built := BuildUrl(env, service, endpoint);
    var config := MergeConfig(service, endpoint, options);
    var staged := Pipeline(config, client.requestInterceptors);
    if built.Success? && staged.Success? && Cacheable(config, built.value) && !Fresh(client.cache, built.value, now) &&
       Exchange(fetch(built.value, staged.value), staged.value, now).Success? &&
       now <= later < now + CacheTimeout {
      var url := built.value;
      var final := staged.value;
      var first := Request(client, env, service, endpoint, options, fetch, now, draw, stamp);
      var response := Exchange(fetch(url, final), final, now).value;
      assert first.0.cache == SetCache(client.cache - {url}, url, response, now);
      assert Fresh(first.0.cache, url, later);
    }
  }

  /** A failed exchange stores nothing: the request fails with the classified error and the
      cache only loses the stale entry the lookup dropped. */
  lemma FailedExchangeStoresNothing(client: Client, env: Env, service: string, endpoint: string,
                                    options: Options, fetch: (string, RequestConfig) -> FetchOutcome,
                                    now: int, draw: Draw, stamp: nat)
    ensures var built := BuildUrl(env, service, endpoint);
      var config := MergeConfig(service, endpoint, options);
      var staged := Pipeline(config, client.requestInterceptors);
      built.Success? && staged.Success? && !(Cacheable(config, built.value) && Fresh(client.cache, built.value, now)) &&
      Exchange(fetch(built.value, staged.value), staged.value, now).Failure? ==>
        var r := Request(client, env, service, endpoint, options, fetch, now, draw, stamp);
        r.1 == Failed(Classified(Exchange(fetch(built.value, staged.value), staged.value, now).error,
                                 service, endpoint, built.value, draw, stamp)) &&
        r.0.cache == (if Cacheable(config, built.value) then client.cache - {built.value} else client.cache)
  {
    var built := BuildUrl(env, service, endpoint);
    var config := MergeConfig(service, endpoint, options);
    var staged := Pipeline(config, client.requestInterceptors);
    if built.Success? && staged.Success? {
      assert Request(client, env, service, endpoint, options, fetch, now, draw, stamp) ==
        Served(client, built.value, service, endpoint, config, staged.value, fetch, now, draw, stamp);
    }
  }

  /** A request that misses the cache and gets a 2xx answer surfaces what the response
      interceptors make of that answer; a cacheable GET stores the answer as it was before
      the interceptors ran. */
  lemma SuccessfulMissIsIntercepted(client: Client, env: Env, service: string, endpoint: string,
                                    options: Options, fetch: (string, RequestConfig) -> FetchOutcome,
                                    now: int, draw: Draw, stamp: nat)
    ensures var built := BuildUrl(env, service, endpoint);
      var config := MergeConfig(service, endpoint, options);
      var staged := Pipeline(config, client.requestInterceptors);
      built.Success? && staged.Success? && !(Cacheable(config, built.value) && Fresh(client.cache, built.value, now)) &&
      Exchange(fetch(built.value, staged.value), staged.value, now).Success? ==>
        var response := Exchange(fetch(built.value, staged.value), staged.value, now).value;
        var r := Request(client, env, service, endpoint, options, fetch, now, draw, stamp);
        r.1 == Surfaced(Pipeline(response, client.responseInterceptors), service, endpoint, built.value, draw, stamp) &&
        (Cacheable(config, built.value) ==> r.0.cache == SetCache(client.cache - {built.value}, built.value, response, now))
  {
    var built := BuildUrl(env, service, endpoint);
    var config := MergeConfig(service, endpoint, options);
    var staged := Pipeline(config, client.requestInterceptors);
    if built.Success? && staged.Success? {
      assert Request(client, env, service, endpoint, options, fetch, now, draw, stamp) ==
        Served(client, built.value, service, endpoint, config, staged.value, fetch, now, draw, stamp);
    }
  }

  /** A request that is not a cacheable GET leaves the cache exactly as it was. */
  lemma UncacheableRequestKeepsCache(client: Client, env: Env, service: string, endpoint: string,
                                     options: Options, fetch: (string, RequestConfig) -> FetchOutcome,
                                     now: int, draw: Draw, stamp: nat)
    requires options.httpMethod.Some? && options.httpMethod.value != "GET"
    ensures Request(client, env, service, endpoint, options, fetch, now, draw, stamp).0 == client
  {
  }

  /** The three-digit rendering of an HTTP status. */
  lemma StatusCodeText(status: nat)
    requires 100 <= status <= 999
    ensures NatToString(status) == [DigitChar(status / 100), DigitChar(status / 10 % 10), DigitChar(status % 10)]
  {
    assert NatToString(status / 10) == NatToString(status / 100) + [DigitChar(status / 10 % 10)];
  }

  /** A status text that none of the classifier's earlier rules picks up: no "timeout" and
      none of the authentication, validation or rate-limit codes. */
  predicate PassesEarlierRules(statusText: string) {
    !Contains(statusText, "timeout") &&
    !Contains(statusText, "401") && !Contains(statusText, "403") &&
    !Contains(statusText, "400") && !Contains(statusText, "422") && !Contains(statusText, "429")
  }

  /** A failed status is classified from its `HTTP <status>: <text>` message. The prefix holds
      neither 't' nor '4', so a rule's pattern is found in the message exactly when it is found
      in the status text; a 502 or 503 is therefore a service outage exactly when the status
      text passes the earlier rules. */
  lemma OutageMessage(code: string, statusText: string)
    requires code == "502" || code == "503"
    ensures Classify(RawError("Error", "HTTP " + code + ": " + statusText)).kind == ServiceUnavailable <==>
      PassesEarlierRules(statusText)
  {
    var prefix := "HTTP " + code + ": ";
    var m := prefix + statusText;
    assert prefix == "HTTP 502: " || prefix == "HTTP 503: ";
    assert 't' !in prefix && '4' !in prefix;
    ContainsAfterPrefix(prefix, statusText, "timeout");
    ContainsAfterPrefix(prefix, statusText, "401");
    ContainsAfterPrefix(prefix, statusText, "403");
    ContainsAfterPrefix(prefix, statusText, "400");
    ContainsAfterPrefix(prefix, statusText, "422");
    ContainsAfterPrefix(prefix, statusText, "429");
    assert m[5..8] == code;
    ContainsAt(m, code, 5);
    OutageByRules(RawError("Error", m));
  }

  /** An `Error` whose message mentions 502 or 503 is an outage exactly when no earlier rule
      picks its message up. */
  lemma OutageByRules(e: RawError)
    requires e.name == "Error" && (Contains(e.message, "502") || Contains(e.message, "503"))
    ensures Classify(e).kind == ServiceUnavailable <==> PassesEarlierRules(e.message)
  {
  }

  /** An `Error` whose message mentions 401 or 403 is an authentication failure unless the
      message mentions "timeout", in which case it is a timeout. */
  lemma DeniedByRules(e: RawError)
    requires e.name == "Error" && (Contains(e.message, "401") || Contains(e.message, "403"))
    ensures Classify(e).kind == Authentication <==> !Contains(e.message, "timeout")
    ensures Contains(e.message, "timeout") ==> Classify(e).kind == Timeout
  {
  }

  /** So a 502 or 503 answer whose status text passes the earlier rules, "Bad Gateway" and
      "Service Unavailable" among them, is a retryable failure. */
  lemma OutageStatusIsRetryable(status: nat, statusText: string)
    requires status == 502 || status == 503
    ensures Classify(HttpError(status, statusText)).kind == ServiceUnavailable <==> PassesEarlierRules(statusText)
    ensures PassesEarlierRules(statusText) ==> IsRetryable(Classify(HttpError(status, statusText)).kind)
  {
    StatusCodeText(status);
    OutageMessage(NatToString(status), statusText);
  }

  /** A 401 or 403 message is an authentication failure unless its status text mentions
      "timeout", which the classifier tests first. */
  lemma DeniedMessage(code: string, statusText: string)
    requires code == "401" || code == "403"
    ensures var kind := Classify(RawError("Error", "HTTP " + code + ": " + statusText)).kind;
      (kind == Authentication <==> !Contains(statusText, "timeout")) &&
      (Contains(statusText, "timeout") ==> kind == Timeout)
  {
    var prefix := "HTTP " + code + ": ";
    var m := prefix + statusText;
    assert prefix == "HTTP 401: " || prefix == "HTTP 403: ";
    assert 't' !in prefix;
    ContainsAfterPrefix(prefix, statusText, "timeout");
    assert m[5..8] == code;
    ContainsAt(m, code, 5);
    DeniedByRules(RawError("Error", m));
  }

  /** So a 401 or 403 answer, "Unauthorized" and "Forbidden" among them, is never retried
      unless its status text mentions "timeout". */
  lemma DeniedStatusIsNotRetryable(status: nat, statusText: string)
    requires status == 401 || status == 403
    ensures Classify(HttpError(status, statusText)).kind == Authentication <==> !Contains(statusText, "timeout")
    ensures !Contains(statusText, "timeout") ==> !IsRetryable(Classify(HttpError(status, statusText)).kind)
  {
    StatusCodeText(status);
    DeniedMessage(NatToString(status), statusText);
  }

  /** The standard reason phrases "Unauthorized" and "Forbidden" are authentication failures. */
  lemma DeniedReasonPhrases()
    ensures Classify(HttpError(401, "Unauthorized")).kind == Authentication
    ensures Classify(HttpError(403, "Forbidden")).kind == Authentication
  {
    NotContainsWithoutChar("Unauthorized", "timeout", 2);
    NotContainsWithoutChar("Forbidden", "timeout", 0);
    DeniedStatusIsNotRetryable(401, "Unauthorized");
    DeniedStatusIsNotRetryable(403, "Forbidden");
  }

  /** The standard reason phrase "Bad Gateway" is an outage. */
  lemma BadGatewayIsOutage()
    ensures Classify(HttpError(502, "Bad Gateway")).kind == ServiceUnavailable
  {
    var text := "Bad Gateway";
    assert 'i' !in text && '4' !in text;
    NotContainsWithoutChar(text, "timeout", 1);
    WithoutFourPassesCodes(text);
    OutageStatusIsRetryable(502, text);
  }

  /** The standard reason phrase "Service Unavailable" is an outage. */
  lemma ServiceUnavailableIsOutage()
    ensures Classify(HttpError(503, "Service Unavailable")).kind == ServiceUnavailable
  {
    var text := "Service Unavailable";
    assert 't' !in text && '4' !in text;
    NotContainsWithoutChar(text, "timeout", 0);
    WithoutFourPassesCodes(text);
    OutageStatusIsRetryable(503, text);
  }

  /** A status text without the digit 4 mentions none of the codes the earlier rules look for. */
  lemma WithoutFourPassesCodes(statusText: string)
    requires '4' !in statusText
    ensures !Contains(statusText, "401") && !Contains(statusText, "403") &&
      !Contains(statusText, "400") && !Contains(statusText, "422") && !Contains(statusText, "429")
  {
    NotContainsWithoutFirstChar(statusText, "401");
    NotContainsWithoutFirstChar(statusText, "403");
    NotContainsWithoutFirstChar(statusText, "400");
    NotContainsWithoutFirstChar(statusText, "422");
    NotContainsWithoutFirstChar(statusText, "429");
  }

  // ---------------------------------------------------------------------------
  // checkServiceHealth

  /** One entry of the aggregate health report. */
  datatype HealthReport = HealthReport(service: string, healthy: bool, data: Option<Data>, error: string)

  /** The message a failed request carries. */
  function FailureMessage(outcome: RequestOutcome): string {
    match outcome
    case Ok(_) => ""
    case ConfigError(e) => e.message
    case Failed(e) => e.message
  }

  /** The report for one service: healthy with the response data, or unhealthy with the
      failure's message. */
  function Report(service: string, outcome: RequestOutcome): (r: HealthReport)
    ensures r.service == service
    ensures r.healthy <==> outcome.Ok?
    ensures r.healthy ==> r.data == Some(outcome.response.data) && r.error == ""
    ensures !r.healthy ==> r.data.None? && r.error == FailureMessage(outcome)
  {
    match outcome
    case Ok(response) => HealthReport(service, true, Some(response.data), "")
    case _ => HealthReport(service, false, None, FailureMessage(outcome))
  }

  /** The client as the check of `services[i]` finds it: threaded through the checks of the
      services before it. */
  function ClientBefore(client: Client, services: seq<string>,
                        check: (Client, string) -> (Client, RequestOutcome), i: nat): Client
    requires i <= |services|
    decreases i
  {
    if i == 0 then client else ClientBefore(check(client, services[0]).0, services[1..], check, i - 1)
  }

  /** Runs `check` on each service in turn (`Promise.allSettled` starts them together),
      threading the client through, and reports each service as healthy, with its data, or
      unhealthy, with the failure's message; no failure stops the others. */
  function CheckEach(client: Client, services: seq<string>,
                     check: (Client, string) -> (Client, RequestOutcome)): (r: (Client, seq<HealthReport>))
    ensures |r.1| == |services|
    ensures forall i :: 0 <= i < |services| ==> r.1[i].service == services[i]
    ensures forall i :: 0 <= i < |services| ==>
      r.1[i] == Report(services[i], check(ClientBefore(client, services, check, i), services[i]).1)
    ensures r.0 == ClientBefore(client, services, check, |services|)
    decreases |services|
  {
    if |services| == 0 then (client, [])
    else
      var first := check(client, services[0]);
      var rest := CheckEach(first.0, services[1..], check);
      assert forall i :: 1 <= i < |services| ==>
        (services[i] == services[1..][i - 1] &&
         ClientBefore(client, services, check, i) == ClientBefore(first.0, services[1..], check, i - 1));
      (rest.0, [Report(services[0], first.1)] + rest.1)
  }

  /** A service is reported healthy exactly when its own request succeeded; when every request
      succeeds, every service is healthy. */
  lemma {:induction false} HealthyIffRequestSucceeded(client: Client, services: seq<string>,
                                                      check: (Client, string) -> (Client, RequestOutcome))
    ensures var reports := CheckEach(client, services, check).1;
      forall i :: 0 <= i < |services| ==>
        (reports[i].healthy <==> check(ClientBefore(client, services, check, i), services[i]).1.Ok?)
    ensures (forall c, s :: check(c, s).1.Ok?) ==>
      forall i :: 0 <= i < |services| ==> CheckEach(client, services, check).1[i].healthy
  {
    var reports := CheckEach(client, services, check).1;
    forall i | 0 <= i < |services|
      ensures reports[i].healthy <==> check(ClientBefore(client, services, check, i), services[i]).1.Ok?
    {
      assert reports[i] == Report(services[i], check(ClientBefore(client, services, check, i), services[i]).1);
    }
  }

  /** The health request `checkServiceHealth` makes for one service. */
  function HealthRequest(env: Env, fetch: (string, RequestConfig) -> FetchOutcome,
                         now: int, draw: Draw, stamp: nat): (Client, string) -> (Client, RequestOutcome)
  {
    (c: Client, s: string) => Request(c, env, s, "health", NoOptions, fetch, now, draw, stamp)
  }

  /** The health check of a service is its `GET health` request. */
  lemma HealthRequestIsRequest(env: Env, fetch: (string, RequestConfig) -> FetchOutcome, now: int, draw: Draw, stamp: nat,
                               client: Client, service: string)
    ensures HealthRequest(env, fetch, now, draw, stamp)(client, service) ==
      Request(client, env, service, "health", NoOptions, fetch, now, draw, stamp)
  {
  }

  /** What `checkServiceHealth(service)` returns. */
  datatype HealthAnswer = Single(outcome: RequestOutcome) | All(reports: seq<HealthReport>)

  /** `checkServiceHealth(service = null)`: a named service is requested directly; without one
      (or with an empty name) every service is checked and none makes the whole call fail. */
  function CheckServiceHealth(client: Client, env: Env, service: Option<string>,
                              fetch: (string, RequestConfig) -> FetchOutcome, now: int, draw: Draw, stamp: nat): (r: (Client, HealthAnswer))
    ensures service.Some? && service.value != "" ==>
      r.1.Single? && r == (CheckOne(client, env, service.value, fetch, now, draw, stamp).0,
                           Single(CheckOne(client, env, service.value, fetch, now, draw, stamp).1))
    ensures !(service.Some? && service.value != "") ==>
      r == (CheckAll(client, env, fetch, now, draw, stamp).0, All(CheckAll(client, env, fetch, now, draw, stamp).1))
    ensures !(service.Some? && service.value != "") ==>
      r.1.All? && |r.1.reports| == |ClientServiceKeys| &&
      forall i :: 0 <= i < |ClientServiceKeys| ==> r.1.reports[i].service == ClientServiceKeys[i]
  {
    if service.Some? && service.value != "" then
      var q := CheckOne(client, env, service.value, fetch, now, draw, stamp);
      (q.0, Single(q.1))
    else
      var each := CheckAll(client, env, fetch, now, draw, stamp);
      (each.0, All(each.1))
  }

  /** The health check of one named service: its `GET health` request. */
  function CheckOne(client: Client, env: Env, service: string, fetch: (string, RequestConfig) -> FetchOutcome,
                    now: int, draw: Draw, stamp: nat): (r: (Client, RequestOutcome))
    ensures r == Request(client, env, service, "health", NoOptions, fetch, now, draw, stamp)
  {
    Request(client, env, service, "health", NoOptions, fetch, now, draw, stamp)
  }

  /** The health check of every service in turn, each by its `GET health` request. */
  function CheckAll(client: Client, env: Env, fetch: (string, RequestConfig) -> FetchOutcome,
                    now: int, draw: Draw, stamp: nat): (r: (Client, seq<HealthReport>))
    ensures |r.1| == |ClientServiceKeys|
    ensures forall i :: 0 <= i < |ClientServiceKeys| ==> r.1[i].service == ClientServiceKeys[i]
    ensures r == CheckEach(client, ClientServiceKeys, HealthRequest(env, fetch, now, draw, stamp))
  {
    CheckEach(client, ClientServiceKeys, HealthRequest(env, fetch, now, draw, stamp))
  }

  /** Without a named service, each service's report is what its own `GET health` request
      came to, made with the client as the checks before it left it. */
  lemma {:induction false} EveryServiceReportsItsRequest(client: Client, env: Env, fetch: (string, RequestConfig) -> FetchOutcome,
                                                         now: int, draw: Draw, stamp: nat, i: nat)
    requires i < |ClientServiceKeys|
    ensures var check := HealthRequest(env, fetch, now, draw, stamp);
      var before := ClientBefore(client, ClientServiceKeys, check, i);
      CheckServiceHealth(client, env, None, fetch, now, draw, stamp).1.reports[i] ==
        Report(ClientServiceKeys[i], Request(before, env, ClientServiceKeys[i], "health", NoOptions, fetch, now, draw, stamp).1)
  {
    var check := HealthRequest(env, fetch, now, draw, stamp);
    var before := ClientBefore(client, ClientServiceKeys, check, i);
    HealthRequestIsRequest(env, fetch, now, draw, stamp, before, ClientServiceKeys[i]);
  }

  // ---------------------------------------------------------------------------
  // Service-specific calls

  /** The convenience methods, with their arguments; an omitted argument is `None` and takes
      the source's default. */
  datatype Call =
    | SpiritualChat(message: string, context: Option<string>, model: Option<string>)
    | AvailableModels
    | TarotReading(question: string, spreadType: Option<string>, deck: Option<string>)
    | TarotSpreads
    | TarotCards
    | BirthChart(birthData: string)
    | Compatibility(person1: string, person2: string)
    | PlanetaryPositions(date: string, time: string)
    | QueryBooks(question: string, category: Option<string>, model: Option<string>)
    | BookStats
    | AvailableBooks

  /** The `request` a convenience method makes: service, endpoint and options. */
  function Route(call: Call): (r: (string, string, Options))
    ensures r.0 in ClientServiceKeys
    ensures call.SpiritualChat? || call.TarotReading? || call.BirthChart? || call.Compatibility? || call.QueryBooks? <==>
      r.2.httpMethod == Some("POST")
    ensures r.2.httpMethod == Some("POST") <==> r.2.body.Some?
    ensures call.BirthChart? ==> r.2.body == Some(BirthChartBody(call.birthData))
    ensures call.Compatibility? ==> r.2.body == Some(CompatibilityBody(call.person1, call.person2))
    ensures call.SpiritualChat? ==> r.2.body == Some(ChatBody(call.message, call.context.GetOr("spiritual guidance"),
                                                              call.model.GetOr("dolphin-mistral")))
    ensures call.TarotReading? ==> r.2.body == Some(TarotBody(call.question, call.spreadType.GetOr("single_card"),
                                                              call.deck.GetOr("rider_waite"), true))
    ensures call.QueryBooks? ==> r.2.body == Some(BookQueryBody(call.question, call.category.GetOr("all"),
                                                                call.model.GetOr("dolphin-mistral")))
  {
    match call
    case SpiritualChat(message, context, model) =>
      ("SPIRITUAL_API", "chat", Options(Some("POST"), None, None,
        Some(ChatBody(message, context.GetOr("spiritual guidance"), model.GetOr("dolphin-mistral")))))
    case AvailableModels => ("SPIRITUAL_API", "models", NoOptions)
    case TarotReading(question, spreadType, deck) =>
      ("TAROT_SERVICE", "reading", Options(Some("POST"), None, None,
        Some(TarotBody(question, spreadType.GetOr("single_card"), deck.GetOr("rider_waite"), true))))
    case TarotSpreads => ("TAROT_SERVICE", "spreads", NoOptions)
    case TarotCards => ("TAROT_SERVICE", "cards", NoOptions)
    case BirthChart(birthData) =>
      ("ASTROLOGY_SERVICE", "birthChart", Options(Some("POST"), None, None, Some(BirthChartBody(birthData))))
    case Compatibility(person1, person2) =>
      ("ASTROLOGY_SERVICE", "compatibility", Options(Some("POST"), None, None, Some(CompatibilityBody(person1, person2))))
    case PlanetaryPositions(date, time) =>
      ("ASTROLOGY_SERVICE", "planets",
        Options(Some("GET"), Some(RequestHeaders["X-Date" := date]["X-Time" := time]), None, None))
    case QueryBooks(question, category, model) =>
      ("BOOK_CHAT_SERVICE", "query", Options(Some("POST"), None, None,
        Some(BookQueryBody(question, category.GetOr("all"), model.GetOr("dolphin-mistral")))))
    case BookStats => ("BOOK_CHAT_SERVICE", "stats", NoOptions)
    case AvailableBooks => ("BOOK_CHAT_SERVICE", "books", NoOptions)
  }

  /** Every convenience method names a known service, so none fails before the request. */
  lemma RoutesResolve(env: Env, call: Call)
    ensures BuildUrl(env, Route(call).0, Route(call).1).Success?
  {
  }

  /** Making a convenience call. */
  function Invoke(client: Client, env: Env, call: Call,
                  fetch: (string, RequestConfig) -> FetchOutcome, now: int, draw: Draw, stamp: nat): (r: (Client, RequestOutcome))
    ensures !r.1.ConfigError? || Pipeline(MergeConfig(Route(call).0, Route(call).1, Route(call).2), client.requestInterceptors).Failure?
  {
    var (service, endpoint, options) := Route(call);
    RoutesResolve(env, call);
    Request(client, env, service, endpoint, options, fetch, now, draw, stamp)
  }
}

=== FILE: axios_api.dfy ===
/**
  The axios-based service clients: dynamic base URLs, the configured timeout, the request
  interceptor that attaches the session token, the response-error interceptor that turns
  failures into user-facing messages, `handleApiError`, `createFormData` and the four-client
  health check.

  The page's hostname, the stored token, the environment and the clock are parameters. JSON
  values are the `Json` datatype below.
 */
module Api {
  import opened Wrappers
  import opened Strings
  import opened Platform

  // ---------------------------------------------------------------------------
  // JSON values and JavaScript's view of them

  datatype Json =
    | JNull
    | JBool(b: bool)
    | JNum(n: int)
    | JStr(s: string)
    | JArr(items: seq<Json>)
    | JObj(fields: map<string, Json>)

  /** JavaScript truthiness: `null`, `false`, `0` and `""` are falsy; arrays and objects,
      even empty ones, are truthy. */
  predicate Truthy(j: Json) {
    match j
    case JNull => false
    case JBool(b) => b
    case JNum(n) => n != 0
    case JStr(s) => s != ""
    case JArr(_) => true
    case JObj(_) => true
  }

  /** `j?.key`: a missing key, or any value that is not an object, gives `undefined`, which
      behaves as `null` here. */
  function Get(j: Json, key: string): (v: Json)
    ensures !j.JObj? ==> v == JNull
    ensures j.JObj? && key in j.fields ==> v == j.fields[key]
    ensures j.JObj? && key !in j.fields ==> v == JNull
  {
    if j.JObj? && key in j.fields then j.fields[key] else JNull
  }

  /** `String(n)` for an integer. */
  function IntToString(n: int): (s: string)
    ensures |s| > 0
    ensures n >= 0 ==> s == NatToString(n)
    ensures n < 0 ==> s == "-" + NatToString(-n)
  {
    if n >= 0 then NatToString(n) else "-" + NatToString(-n)
  }

  /** `String(v)`: how a value becomes the text of an `Error` or of a joined array. */
  function ToText(j: Json): (s: string)
    ensures j.JStr? ==> s == j.s
    ensures j.JObj? ==> s == "[object Object]"
    decreases j, 1
  {
    match j
    case JNull => "null"
    case JBool(b) => if b then "true" else "false"
    case JNum(n) => IntToString(n)
    case JStr(s) => s
    case JArr(items) => JoinTexts(j, items)
    case JObj(_) => "[object Object]"
  }

  /** `items.join(",")` inside `String(array)`: `null` elements become empty. */
  function JoinTexts(parent: Json, items: seq<Json>): string
    requires forall i :: 0 <= i < |items| ==> items[i] < parent
    decreases parent, 0, |items|
  {
    if |items| == 0 then ""
    else
      var first := if items[0].JNull? then "" else ToText(items[0]);
      if |items| == 1 then first else first + "," + JoinTexts(parent, items[1..])
  }

  // ---------------------------------------------------------------------------
  // API_CONFIG

  /** `getHostname()`: the page's hostname, or "localhost" outside a browser. */
  function GetHostname(window: Option<string>): (h: string)
    ensures window.Some? ==> h == window.value
    ensures window.None? ==> h == "localhost"
  {
    if window.Some? then window.value else "localhost"
  }

  /** `createDynamicUrl(defaultUrl, port)`: the default on the local machine, otherwise the
      page's host on the given port. */
  function CreateDynamicUrl(hostname: string, defaultUrl: string, port: string): (url: string)
    ensures hostname == "localhost" || hostname == "127.0.0.1" ==> url == defaultUrl
    ensures !(hostname == "localhost" || hostname == "127.0.0.1") ==>
      url == "http://" + hostname + ":" + port && StartsWith(url, "http://" + hostname)
  {
    if hostname == "localhost" || hostname == "127.0.0.1" then defaultUrl
    else "http://" + hostname + ":" + port
  }

  predicate IsSpace(c: char) {
    c == ' ' || c == '\t' || c == '\n' || c == '\r'
  }

  predicate IsDigit(c: char) {
    '0' <= c <= '9'
  }

  /** The length of the longest prefix of decimal digits. */
  function DigitPrefix(s: string): (n: nat)
    ensures n <= |s|
    ensures forall i :: 0 <= i < n ==> IsDigit(s[i])
    ensures n < |s| ==> !IsDigit(s[n])
  {
    if |s| == 0 || !IsDigit(s[0]) then 0 else 1 + DigitPrefix(s[1..])
  }

  /** `parseInt(s)` in base 10: leading white space, an optional sign, then the longest run of
      digits; no digits at all is `NaN` (`None`). */
  function ParseInt(s: string): (r: Option<int>)
    ensures |s| > 0 && IsDigit(s[0]) ==> r == Some(ParseDigits(s[..DigitPrefix(s)]) as int)
    ensures |s| == 0 ==> r.None?
    ensures |s| > 0 && IsSpace(s[0]) ==> r == ParseInt(s[1..])
    ensures |s| > 0 && !IsSpace(s[0]) && !IsDigit(s[0]) && s[0] != '-' && s[0] != '+' ==> r.None?
    ensures |s| > 0 && (s[0] == '-' || s[0] == '+') ==>
      (r.None? <==> DigitPrefix(s[1..]) == 0)
    ensures |s| > 1 && s[0] == '-' && IsDigit(s[1]) ==> r.Some? && r.value == -ParseInt(s[1..]).value
    ensures |s| > 1 && s[0] == '+' && IsDigit(s[1]) ==> r == ParseInt(s[1..])
    decreases |s|
  {
    if |s| > 0 && IsSpace(s[0]) then ParseInt(s[1..])
    else
      var sign := if |s| > 0 && (s[0] == '-' || s[0] == '+') then 1 else 0;
      var rest := s[sign..];
      var n := DigitPrefix(rest);
      if n == 0 then None
      else
        var value := ParseDigits(rest[..n]) as int;
        Some(if sign == 1 && s[0] == '-' then -value else value)
  }

  /** A rendered number is read back as itself. */
  lemma ParseIntNatToString(n: nat)
    ensures ParseInt(NatToString(n)) == Some(n)
  {
    var s := NatToString(n);
    assert !IsSpace(s[0]) && s[0] != '-' && s[0] != '+';
    assert s[0..] == s;
    DigitPrefixAll(s);
    assert s[..|s|] == s;
    ParseNatToString(n);
  }

  /** Leading white space of any length is skipped. */
  lemma {:induction false} ParseIntSkipsSpace(space: string, t: string)
    requires forall i :: 0 <= i < |space| ==> IsSpace(space[i])
    ensures ParseInt(space + t) == ParseInt(t)
  {
    if |space| > 0 {
      var u := space + t;
      assert u[0] == space[0] && u[1..] == space[1..] + t;
      assert ParseInt(u) == ParseInt(u[1..]);
      ParseIntSkipsSpace(space[1..], t);
    } else {
      assert space + t == t;
    }
  }

  /** A rendered number behind a minus sign is read back as its negation. */
  lemma ParseIntNegative(n: nat)
    ensures ParseInt("-" + NatToString(n)) == Some(-(n as int))
  {
    var s := NatToString(n);
    ParseIntNatToString(n);
    assert ("-" + s)[1..] == s;
  }

  /** A string of digits is all prefix. */
  lemma {:induction false} DigitPrefixAll(s: string)
    requires forall i :: 0 <= i < |s| ==> IsDigit(s[i])
    ensures DigitPrefix(s) == |s|
  {
    if |s| > 0 {
      DigitPrefixAll(s[1..]);
    }
  }

  /** `parseInt(process.env.REACT_APP_API_TIMEOUT) || 30000`: a missing, unreadable or zero
      setting gives 30 seconds. */
  function ConfiguredTimeout(env: Env): (t: int)
    ensures t != 0
    ensures "REACT_APP_API_TIMEOUT" !in env ==> t == 30000
    ensures "REACT_APP_API_TIMEOUT" in env && ParseInt(env["REACT_APP_API_TIMEOUT"]) !in {None, Some(0)} ==>
      t == ParseInt(env["REACT_APP_API_TIMEOUT"]).value
    ensures "REACT_APP_API_TIMEOUT" in env && ParseInt(env["REACT_APP_API_TIMEOUT"]) in {None, Some(0)} ==>
      t == 30000
  {
    if "REACT_APP_API_TIMEOUT" !in env then 30000
    else
      match ParseInt(env["REACT_APP_API_TIMEOUT"])
      case Some(n) => if n != 0 then n else 30000
      case None => 30000
  }

  /** A timeout given as a plain number is used as is. */
  lemma ConfiguredTimeoutReadsNumber(env: Env, n: nat)
    requires "REACT_APP_API_TIMEOUT" in env && env["REACT_APP_API_TIMEOUT"] == NatToString(n) && n > 0
    ensures ConfiguredTimeout(env) == n
  {
    ParseIntNatToString(n);
  }

  /** API_CONFIG. */
  datatype ApiConfig = ApiConfig(
    baseUrl: string, tarotUrl: string, astrologyUrl: string, ebookUrl: string,
    bookChatUrl: string, spiritualApiUrl: string, webSocketUrl: string, timeout: int)

  /** How one service URL of API_CONFIG is configured: the variable that overrides it and the
      port it defaults to; the default itself is `http://localhost:<port>`. */
  datatype UrlSetting = UrlSetting(variable: string, port: string)

  /** The settings of the six service URLs, in the order of `ServiceUrls`. */
  const UrlSettings: seq<UrlSetting> := [
    UrlSetting("REACT_APP_API_BASE_URL", "8000"),
    UrlSetting("REACT_APP_TAROT_SERVICE_URL", "7870"),
    UrlSetting("REACT_APP_ASTROLOGY_SERVICE_URL", "7871"),
    UrlSetting("REACT_APP_EBOOK_SERVICE_URL", "7872"),
    UrlSetting("REACT_APP_BOOK_CHAT_URL", "8002"),
    UrlSetting("REACT_APP_SPIRITUAL_API_URL", "8001")
  ]

  /** The six service URLs of a configuration, in the order of `UrlSettings`. */
  function ServiceUrls(c: ApiConfig): (urls: seq<string>)
    ensures |urls| == |UrlSettings|
  {
    [c.baseUrl, c.tarotUrl, c.astrologyUrl, c.ebookUrl, c.bookChatUrl, c.spiritualApiUrl]
  }

  /** A variable that is set and not empty. */
  predicate Overridden(env: Env, variable: string) {
    variable in env && env[variable] != ""
  }

  /** The hosts on which the defaults are used as they are. */
  predicate IsLocalHost(host: string) {
    host == "localhost" || host == "127.0.0.1"
  }

  /** One service URL: `process.env[variable] || createDynamicUrl('http://localhost:<port>', port)`. */
  function ServiceUrl(env: Env, host: string, setting: UrlSetting): (url: string)
    ensures Overridden(env, setting.variable) ==> url == env[setting.variable]
    ensures !Overridden(env, setting.variable) && IsLocalHost(host) ==> url == "http://localhost:" + setting.port
    ensures !Overridden(env, setting.variable) && !IsLocalHost(host) ==> url == "http://" + host + ":" + setting.port
  {
    EnvOr(env, setting.variable, CreateDynamicUrl(host, "http://localhost:" + setting.port, setting.port))
  }

  /** Each service URL is its variable when that is set and not empty; otherwise the local
      default on a local page (or outside a browser), and the page's host on the service's
      port elsewhere. The WebSocket URL follows its variable or the page's host. */
  function MakeApiConfig(env: Env, window: Option<string>): (c: ApiConfig)
    ensures c.timeout == ConfiguredTimeout(env)
    ensures forall i :: 0 <= i < |UrlSettings| && Overridden(env, UrlSettings[i].variable) ==>
      ServiceUrls(c)[i] == env[UrlSettings[i].variable]
    ensures IsLocalHost(GetHostname(window)) ==>
      forall i :: 0 <= i < |UrlSettings| && !Overridden(env, UrlSettings[i].variable) ==>
        ServiceUrls(c)[i] == "http://localhost:" + UrlSettings[i].port
    ensures !IsLocalHost(GetHostname(window)) ==>
      forall i :: 0 <= i < |UrlSettings| && !Overridden(env, UrlSettings[i].variable) ==>
        ServiceUrls(c)[i] == "http://" + GetHostname(window) + ":" + UrlSettings[i].port
    ensures Overridden(env, "REACT_APP_WEBSOCKET_URL") ==> c.webSocketUrl == env["REACT_APP_WEBSOCKET_URL"]
    ensures !Overridden(env, "REACT_APP_WEBSOCKET_URL") ==> c.webSocketUrl == "ws://" + GetHostname(window) + ":8000/ws"
  {
    var host := GetHostname(window);
    var c := ApiConfig(
      ServiceUrl(env, host, UrlSettings[0]),
      ServiceUrl(env, host, UrlSettings[1]),
      ServiceUrl(env, host, UrlSettings[2]),
      ServiceUrl(env, host, UrlSettings[3]),
      ServiceUrl(env, host, UrlSettings[4]),
      ServiceUrl(env, host, UrlSettings[5]),
      EnvOr(env, "REACT_APP_WEBSOCKET_URL", "ws://" + host + ":8000/ws"),
      ConfiguredTimeout(env));
    assert forall i :: 0 <= i < |UrlSettings| ==> ServiceUrls(c)[i] == ServiceUrl(env, host, UrlSettings[i]);
    c
  }

  /** Reached over the network, every one of the six services that is not overridden lives on
      the page's host, and the WebSocket too when it is not overridden. */
  lemma RemoteHostUrls(env: Env, host: string)
    requires !IsLocalHost(host)
    ensures forall i :: 0 <= i < |UrlSettings| && !Overridden(env, UrlSettings[i].variable) ==>
      StartsWith(ServiceUrls(MakeApiConfig(env, Some(host)))[i], "http://" + host + ":")
    ensures !Overridden(env, "REACT_APP_WEBSOCKET_URL") ==>
      StartsWith(MakeApiConfig(env, Some(host)).webSocketUrl, "ws://" + host + ":")
  {
    var c := MakeApiConfig(env, Some(host));
    forall i | 0 <= i < |UrlSettings| && !Overridden(env, UrlSettings[i].variable)
      ensures StartsWith(ServiceUrls(c)[i], "http://" + host + ":")
    {
      var p := "http://" + host + ":";
      assert ServiceUrls(c)[i] == p + UrlSettings[i].port;
      assert (p + UrlSettings[i].port)[..|p|] == p;
    }
    var w := "ws://" + host + ":";
    assert ("ws://" + host + ":8000/ws") == w + "8000/ws";
    assert (w + "8000/ws")[..|w|] == w;
  }

  // ---------------------------------------------------------------------------
  // createApiClient and its interceptors

  type Headers = map<string, string>

  /** The settings of one axios instance. */
  datatype ClientConfig = ClientConfig(baseUrl: string, timeout: int, headers: Headers)

  const ClientHeaders: Headers := map["Content-Type" := "application/json", "Accept" := "application/json"]

  /** `createApiClient(baseURL, timeout = API_CONFIG.TIMEOUT)`. */
  function CreateApiClient(config: ApiConfig, baseUrl: string, timeout: Option<int>): (c: ClientConfig)
    ensures c.baseUrl == baseUrl && c.headers == ClientHeaders
    ensures timeout.None? ==> c.timeout == config.timeout
    ensures timeout.Some? ==> c.timeout == timeout.value
  {
    ClientConfig(baseUrl, timeout.GetOr(config.timeout), ClientHeaders)
  }

  /** The request interceptor: a stored, non-empty token becomes a bearer `Authorization`
      header, and every request is stamped with its time. */
  function AttachCredentials(headers: Headers, token: Option<string>, isoTime: string): (h: Headers)
    ensures "Authorization" in h <==> "Authorization" in headers || (token.Some? && token.value != "")
    ensures token.Some? && token.value != "" ==> h["Authorization"] == "Bearer " + token.value
    ensures !(token.Some? && token.value != "") && "Authorization" in headers ==>
      h["Authorization"] == headers["Authorization"]
    ensures h.Keys == headers.Keys + {"X-Request-Time"} + (if token.Some? && token.value != "" then {"Authorization"} else {})
    ensures h["X-Request-Time"] == isoTime
    ensures forall k :: k in headers && k != "Authorization" && k != "X-Request-Time" ==> h[k] == headers[k]
  {
    var withToken := if token.Some? && token.value != "" then headers["Authorization" := "Bearer " + token.value] else headers;
    withToken["X-Request-Time" := isoTime]
  }

  /** The browser state the error interceptor touches: the stored token and the location. */
  datatype Session = Session(token: Option<string>, location: string)

  /** A failed axios request: answered with a status, sent without an answer, or never sent. */
  datatype AxiosError =
    | WithResponse(status: int, data: Json, message: string)
    | NoResponse(message: string)
    | NotSent(message: string)

  /** How the call ends after the response-error interceptor: rejected with an `Error` of the
      given message; rejected with the `TypeError` of reading a field of `null`; or resolved with
      `undefined` (the 401 case, which does not throw). */
  datatype Settled = RejectedWith(message: string) | RejectedTypeError | ResolvedUndefined

  const ForbiddenMessage := "Access denied. Please check your permissions."
  const NotFoundMessage := "The requested resource was not found."
  const ValidationDefault := "Validation error occurred."
  const ServerErrorMessage := "Server error. Please try again later."
  const UnavailableMessage := "Service temporarily unavailable. Please try again."
  const NetworkErrorMessage := "Network error. Please check your connection and try again."
  const UnexpectedMessage := "An unexpected error occurred."

  /** One element of a validation `detail` array: `err.msg || err.message || err`. Reading a
      field of a `null` element throws. */
  function ItemText(item: Json): (r: Option<string>)
    ensures r.None? <==> item.JNull?
    ensures !item.JNull? && Truthy(Get(item, "msg")) ==> r == Some(ToText(Get(item, "msg")))
    ensures !item.JNull? && !Truthy(Get(item, "msg")) && Truthy(Get(item, "message")) ==>
      r == Some(ToText(Get(item, "message")))
    ensures !item.JNull? && !Truthy(Get(item, "msg")) && !Truthy(Get(item, "message")) ==> r == Some(ToText(item))
  {
    if item.JNull? then None
    else if Truthy(Get(item, "msg")) then Some(ToText(Get(item, "msg")))
    else if Truthy(Get(item, "message")) then Some(ToText(Get(item, "message")))
    else Some(ToText(item))
  }

  /** `detail.map(...).join(', ')`, or `None` when an element is `null`. */
  function ItemsText(items: seq<Json>): (r: Option<string>)
    ensures r.None? <==> exists i :: 0 <= i < |items| && items[i].JNull?
    ensures |items| == 0 ==> r == Some("")
  {
    if |items| == 0 then Some("")
    else
      match ItemText(items[0])
      case None => None
      case Some(first) =>
        if |items| == 1 then Some(first)
        else
          match ItemsText(items[1..])
          case None => (assert items[1..][0] == items[1]; None)
          case Some(rest) =>
            assert forall i :: 1 <= i < |items| ==> items[i] == items[1..][i - 1];
            Some(first + ", " + rest)
  }

  /** The reference rendering of a validation array: the texts of its elements, joined. */
  lemma {:induction false} ItemsTextIsJoin(items: seq<Json>)
    requires forall i :: 0 <= i < |items| ==> !items[i].JNull?
    ensures ItemsText(items) == Some(Join(seq(|items|, i requires 0 <= i < |items| => ItemText(items[i]).value), ", "))
  {
    var texts := seq(|items|, i requires 0 <= i < |items| => ItemText(items[i]).value);
    if |items| > 1 {
      ItemsTextIsJoin(items[1..]);
      var tail := seq(|items[1..]|, i requires 0 <= i < |items[1..]| => ItemText(items[1..][i]).value);
      assert tail == texts[1..];
    }
  }

  /** The 422 message: a string `detail` as is, an array `detail` joined, an object `detail`'s
      `message`, else the default. */
  function ValidationMessage(data: Json): (r: Option<string>)
    ensures !Truthy(Get(data, "detail")) ==> r == Some(ValidationDefault)
    ensures Get(data, "detail").JStr? && Truthy(Get(data, "detail")) ==> r == Some(Get(data, "detail").s)
    ensures Get(data, "detail").JArr? ==> r == ItemsText(Get(data, "detail").items)
    ensures r.None? ==> Get(data, "detail").JArr?
    ensures Truthy(Get(data, "detail")) && !Get(data, "detail").JStr? && !Get(data, "detail").JArr? ==>
      r == Some(if Truthy(Get(Get(data, "detail"), "message")) then ToText(Get(Get(data, "detail"), "message"))
                else ValidationDefault)
  {
    var detail := Get(data, "detail");
    if !Truthy(detail) then Some(ValidationDefault)
    else if detail.JStr? then Some(detail.s)
    else if detail.JArr? then ItemsText(detail.items)
    else if Truthy(Get(detail, "message")) then Some(ToText(Get(detail, "message")))
    else Some(ValidationDefault)
  }

  /** The message for any other status: a string `detail`, else `detail.message`; only with no
      `detail` at all, the body's `message`; else `Request failed with status <status>`. */
  function GenericMessage(status: int, data: Json): (m: string)
    ensures Truthy(Get(data, "detail")) && Get(data, "detail").JStr? ==> m == Get(data, "detail").s
    ensures !Truthy(Get(data, "detail")) && Truthy(Get(data, "message")) ==> m == ToText(Get(data, "message"))
    ensures !Truthy(Get(data, "detail")) && !Truthy(Get(data, "message")) ==>
      m == "Request failed with status " + IntToString(status)
    ensures Truthy(Get(data, "detail")) && !Get(data, "detail").JStr? && !Truthy(Get(Get(data, "detail"), "message")) ==>
      m == "Request failed with status " + IntToString(status)
    ensures Truthy(Get(data, "detail")) && !Get(data, "detail").JStr? && Truthy(Get(Get(data, "detail"), "message")) ==>
      m == ToText(Get(Get(data, "detail"), "message"))
  {
    var detail := Get(data, "detail");
    var fallback := "Request failed with status " + IntToString(status);
    if Truthy(detail) then
      if detail.JStr? then detail.s
      else if Truthy(Get(detail, "message")) then ToText(Get(detail, "message"))
      else fallback
    else if Truthy(Get(data, "message")) then ToText(Get(data, "message"))
    else fallback
  }

  /** The response-error interceptor. */
  function HandleResponseError(error: AxiosError, session: Session): (r: (Session, Settled))
    ensures r.1 == ResolvedUndefined <==> error.WithResponse? && error.status == 401
    ensures error.WithResponse? && error.status == 401 ==> r.0 == Session(None, "/login")
    ensures !(error.WithResponse? && error.status == 401) ==> r.0 == session
    ensures r.1 == RejectedTypeError ==> error.WithResponse? && error.status == 422
    ensures error.WithResponse? && error.status == 403 ==> r.1 == RejectedWith(ForbiddenMessage)
    ensures error.WithResponse? && error.status == 404 ==> r.1 == RejectedWith(NotFoundMessage)
    ensures error.WithResponse? && error.status == 500 ==> r.1 == RejectedWith(ServerErrorMessage)
    ensures error.WithResponse? && error.status == 503 ==> r.1 == RejectedWith(UnavailableMessage)
    ensures error.WithResponse? && error.status == 422 ==>
      (r.1 == RejectedTypeError <==> ValidationMessage(error.data).None?) &&
      (ValidationMessage(error.data).Some? ==> r.1 == RejectedWith(ValidationMessage(error.data).value))
    ensures error.WithResponse? && error.status !in {401, 403, 404, 422, 500, 503} ==>
      r.1 == RejectedWith(GenericMessage(error.status, error.data))
    ensures error.NoResponse? ==> r.1 == RejectedWith(NetworkErrorMessage)
    ensures error.NotSent? ==> r.1 == RejectedWith(if error.message != "" then error.message else UnexpectedMessage)
  {
    match error
    case WithResponse(status, data, _) =>
      if status == 401 then (Session(None, "/login"), ResolvedUndefined)
      else if status == 403 then (session, RejectedWith(ForbiddenMessage))
      else if status == 404 then (session, RejectedWith(NotFoundMessage))
      else if status == 422 then
        (session, match ValidationMessage(data) case Some(m) => RejectedWith(m) case None => RejectedTypeError)
      else if status == 500 then (session, RejectedWith(ServerErrorMessage))
      else if status == 503 then (session, RejectedWith(UnavailableMessage))
      else (session, RejectedWith(GenericMessage(status, data)))
    case NoResponse(_) => (session, RejectedWith(NetworkErrorMessage))
    case NotSent(message) => (session, RejectedWith(if message != "" then message else UnexpectedMessage))
  }

  /** A 422 whose `detail` lists validation errors rejects with their texts joined by ", ",
      and with the `TypeError` of reading a field of `null` when one of them is `null`. */
  lemma ValidationErrorsAreJoined(items: seq<Json>, session: Session)
    ensures var r := HandleResponseError(WithResponse(422, JObj(map["detail" := JArr(items)]), ""), session).1;
      ((forall i :: 0 <= i < |items| ==> !items[i].JNull?) ==>
        r == RejectedWith(Join(seq(|items|, i requires 0 <= i < |items| => ItemText(items[i]).value), ", "))) &&
      ((exists i :: 0 <= i < |items| && items[i].JNull?) ==> r == RejectedTypeError)
  {
    var data := JObj(map["detail" := JArr(items)]);
    assert Get(data, "detail") == JArr(items);
    if forall i :: 0 <= i < |items| ==> !items[i].JNull? {
      ItemsTextIsJoin(items);
    }
  }

  /** The fixed-message statuses 403, 404, 500 and 503 never look at the response body. */
  lemma FixedStatusesIgnoreBodyMessage(status: int, data: Json, data': Json, session: Session)
    requires status in {403, 404, 500, 503}
    ensures HandleResponseError(WithResponse(status, data, ""), session) ==
            HandleResponseError(WithResponse(status, data', ""), session)
  {
  }

  // ---------------------------------------------------------------------------
  // handleApiError, createFormData, checkServiceHealth

  const UnexpectedRetryMessage := "An unexpected error occurred. Please try again."

  /** What `handleApiError` is given: the response body, if any, and the error's message. */
  datatype CaughtError = CaughtError(responseData: Option<Json>, message: string)

  /** `handleApiError(error)`: a truthy `detail` is returned as is (whatever its type), else the
      message, else a generic text. */
  function HandleApiError(error: CaughtError): (r: Json)
    ensures Truthy(r)
    ensures error.responseData.Some? && Truthy(Get(error.responseData.value, "detail")) ==>
      r == Get(error.responseData.value, "detail")
    ensures !(error.responseData.Some? && Truthy(Get(error.responseData.value, "detail"))) ==>
      r == JStr(if error.message != "" then error.message else UnexpectedRetryMessage)
  {
    if error.responseData.Some? && Truthy(Get(error.responseData.value, "detail")) then
      Get(error.responseData.value, "detail")
    else JStr(if error.message != "" then error.message else UnexpectedRetryMessage)
  }

  /** A form field's value. */
  datatype FormValue = FNull | FUndefined | FFile(fileName: string) | FObject(json: Json) | FText(text: string)

  /** What `FormData` holds for a field: the file itself or a string. */
  datatype FormEntry = FileEntry(fileName: string) | TextEntry(text: string)

  /** The entry one kept field becomes: a file as is, an object as its JSON text (`stringify`),
      anything else as its `toString()`. */
  function EntryFor(v: FormValue, stringify: Json -> string): FormEntry
    requires !v.FNull? && !v.FUndefined?
  {
    match v
    case FFile(name) => FileEntry(name)
    case FObject(j) => TextEntry(stringify(j))
    case FText(t) => TextEntry(t)
  }

  /** `createFormData(data)`: `null` and `undefined` fields are skipped, the rest appended in
      order. */
  function CreateFormData(data: seq<(string, FormValue)>, stringify: Json -> string): (form: seq<(string, FormEntry)>)
    ensures |form| <= |data|
    ensures |form| == |data| <==> forall i :: 0 <= i < |data| ==> !data[i].1.FNull? && !data[i].1.FUndefined?
  {
    if |data| == 0 then []
    else
      var rest := CreateFormData(data[1..], stringify);
      assert forall i :: 1 <= i < |data| ==> data[i] == data[1..][i - 1];
      if data[0].1.FNull? || data[0].1.FUndefined? then rest
      else [(data[0].0, EntryFor(data[0].1, stringify))] + rest
  }

  /** The reference view of the form: the kept fields, in order, each with its entry. */
  function KeptFields(data: seq<(string, FormValue)>): seq<(string, FormValue)> {
    if |data| == 0 then []
    else if data[0].1.FNull? || data[0].1.FUndefined? then KeptFields(data[1..])
    else [data[0]] + KeptFields(data[1..])
  }

  /** The form has exactly one entry per kept field, with the field's key and entry. */
  lemma {:induction false} FormDataMatchesKeptFields(data: seq<(string, FormValue)>, stringify: Json -> string)
    ensures var form := CreateFormData(data, stringify);
      var kept := KeptFields(data);
      |form| == |kept| &&
      forall i :: 0 <= i < |form| ==>
        form[i].0 == kept[i].0 && !kept[i].1.FNull? && !kept[i].1.FUndefined? &&
        form[i].1 == EntryFor(kept[i].1, stringify)
  {
    if |data| > 0 {
      FormDataMatchesKeptFields(data[1..], stringify);
      KeptFieldsAreKept(data[1..]);
    }
  }

  /** Kept fields are never `null` or `undefined`. */
  lemma {:induction false} KeptFieldsAreKept(data: seq<(string, FormValue)>)
    ensures forall i :: 0 <= i < |KeptFields(data)| ==> !KeptFields(data)[i].1.FNull? && !KeptFields(data)[i].1.FUndefined?
  {
    if |data| > 0 {
      KeptFieldsAreKept(data[1..]);
    }
  }

  /** What each health request came to: fulfilled (even with `undefined`) or rejected. */
  datatype HealthFlags = HealthFlags(api: bool, tarot: bool, astrology: bool, ebook: bool)

  /** Whether a GET settles as fulfilled: an answered request, or a failure the error
      interceptor resolves. */
  function Fulfilled(outcome: Result<Json, AxiosError>, session: Session): (f: bool)
    ensures outcome.Success? ==> f
    ensures outcome.Failure? ==> (f <==> outcome.error.WithResponse? && outcome.error.status == 401)
  {
    match outcome
    case Success(_) => true
    case Failure(e) => HandleResponseError(e, session).1.ResolvedUndefined?
  }

  /** The session after the error interceptor has seen a health request's outcome. */
  function SessionAfter(outcome: Result<Json, AxiosError>, session: Session): (s: Session)
    ensures outcome.Failure? && outcome.error.WithResponse? && outcome.error.status == 401 ==> s == Session(None, "/login")
    ensures !(outcome.Failure? && outcome.error.WithResponse? && outcome.error.status == 401) ==> s == session
  {
    match outcome
    case Success(_) => session
    case Failure(e) => HandleResponseError(e, session).0
  }

  /** Whether an outcome is a 401 the interceptor answers by logging out. */
  predicate LogsOut(outcome: Result<Json, AxiosError>) {
    outcome.Failure? && outcome.error.WithResponse? && outcome.error.status == 401
  }

  /** `checkServiceHealth()` over the four clients' `GET /health`, with the session the error
      interceptor leaves behind. The requests settle in any order; the model feeds them to the
      interceptor in the order api, tarot, astrology, ebook, which cannot change the end
      session since every 401 leaves the same one. */
  function CheckServiceHealth(api: Result<Json, AxiosError>, tarot: Result<Json, AxiosError>,
                              astrology: Result<Json, AxiosError>, ebook: Result<Json, AxiosError>,
                              session: Session): (r: (Session, HealthFlags))
    ensures r.1.api <==> Fulfilled(api, session)
    ensures r.1.tarot <==> Fulfilled(tarot, session)
    ensures r.1.astrology <==> Fulfilled(astrology, session)
    ensures r.1.ebook <==> Fulfilled(ebook, session)
    ensures LogsOut(api) || LogsOut(tarot) || LogsOut(astrology) || LogsOut(ebook) ==> r.0 == Session(None, "/login")
    ensures !(LogsOut(api) || LogsOut(tarot) || LogsOut(astrology) || LogsOut(ebook)) ==> r.0 == session
  {
    var after := SessionAfter(ebook, SessionAfter(astrology, SessionAfter(tarot, SessionAfter(api, session))));
    (after, HealthFlags(Fulfilled(api, session), Fulfilled(tarot, session), Fulfilled(astrology, session), Fulfilled(ebook, session)))
  }

  /** A service that answers its health check with 401 is reported up. */
  lemma UnauthorizedCountsAsUp(data: Json, message: string, session: Session, other: Result<Json, AxiosError>)
    ensures CheckServiceHealth(Failure(WithResponse(401, data, message)), other, other, other, session).1.api
  {
  }
}

=== FILE: error_handler.dfy ===
/**
  The spiritual error handler: classifies a caught failure into a typed error,
  derives whether it is worth retrying, looks up an offline fallback payload,
  computes a capped exponential backoff, and drives a bounded retry loop.

  Randomness (the jitter and the choice of message) is passed in as a `Draw`.
 */
module ErrorHandler {
  import opened Wrappers
  import opened Strings
  import opened Numeric

  /** ERROR_TYPES. */
  datatype ErrorType = Network | Authentication | Validation | ServiceUnavailable | Timeout | RateLimit | Unknown

  /** ERROR_SEVERITY. */
  datatype Severity = Low | Medium | High | Critical

  /** A caught failure as the handler sees it: its `name` and `message`
      (an absent message is the empty string). */
  datatype RawError = RawError(name: string, message: string)

  /** The context object handed to the handler. */
  datatype ErrorContext = ErrorContext(
    component: Option<string>,
    operation: Option<string>,
    attempt: Option<nat>,
    service: Option<string>,
    endpoint: Option<string>,
    url: Option<string>)
  {
    /** `{ ...context, attempt }`. */
    function WithAttempt(a: nat): ErrorContext {
      this.(attempt := Some(a))
    }
  }

  /** `SpiritualError.isRetryable`. */
  predicate IsRetryable(t: ErrorType)
    ensures IsRetryable(t) <==> !(t == Authentication || t == Validation || t == Unknown)
  {
    match t
    case Network | ServiceUnavailable | Timeout | RateLimit => true
    case Authentication | Validation | Unknown => false
  }

  /** A draw of `Math.floor(Math.random() * 3)`; every message list has three entries. */
  type MessagePick = i: nat | i < 3

  /** The random values one pass through the handler consumes. */
  datatype Draw = Draw(pick: MessagePick, jitter: Jitter)

  const UnknownMessages: seq<string> := [
    "An unexpected disturbance in the spiritual realm has occurred. \U{1F32A}\U{FE0F}",
    "Unknown energies are affecting the cosmic balance. \U{2696}\U{FE0F}",
    "The universe is experiencing mysterious fluctuations. \U{1F30A}"
  ]

  const NetworkMessages: seq<string> := [
    "The cosmic connection has been temporarily interrupted. \U{1F30C}",
    "The spiritual network needs a moment to realign. \U{2728}",
    "Divine signals are encountering interference. \U{1F52E}"
  ]

  const ServiceUnavailableMessages: seq<string> := [
    "The spiritual guides are temporarily unavailable. \U{1F56F}\U{FE0F}",
    "Sacred services are in meditation. Please wait. \U{1F9D8}",
    "The mystical realm is recharging its energy. \U{26A1}"
  ]

  const TimeoutMessages: seq<string> := [
    "The universe needs more time to process your request. \U{23F3}",
    "Cosmic wisdom is taking longer than usual to manifest. \U{1F319}",
    "The spiritual servers are contemplating deeply. \U{1F4AD}"
  ]

  const AuthenticationMessages: seq<string> := [
    "Your spiritual credentials need renewal. \U{1F511}",
    "The guardians require proper identification. \U{1F464}",
    "Access to the sacred realm has been restricted. \U{1F6AA}"
  ]

  const ValidationMessages: seq<string> := [
    "The cosmic forces detected an irregularity in your request. \U{26A0}\U{FE0F}",
    "Spiritual validation has revealed an inconsistency. \U{1F50D}",
    "The universe requires clarification of your intent. \U{2753}"
  ]

  const RateLimitMessages: seq<string> := [
    "You're channeling spiritual energy too quickly. Please pause. \U{1F6D1}",
    "The cosmos suggests a moment of meditation between requests. \U{1F9D8}\U{200D}\U{2640}\U{FE0F}",
    "Divine wisdom has limits - please slow your spiritual seeking. \U{23F8}\U{FE0F}"
  ]

  /** The message list for a type; the unknown type has no entry of its own and
      falls back to the generic list. */
  function MessagesFor(t: ErrorType): (ms: seq<string>)
    ensures |ms| == 3
    ensures t == Unknown ==> ms == UnknownMessages
  {
    match t
    case Network => NetworkMessages
    case ServiceUnavailable => ServiceUnavailableMessages
    case Timeout => TimeoutMessages
    case Authentication => AuthenticationMessages
    case Validation => ValidationMessages
    case RateLimit => RateLimitMessages
    case Unknown => UnknownMessages
  }

  /** `generateSpiritualMessage`, with the random index as a parameter. */
  function GenerateSpiritualMessage(t: ErrorType, pick: MessagePick): (m: string)
    ensures m in MessagesFor(t)
  {
    MessagesFor(t)[pick]
  }

  /** A `SpiritualError` (its timestamp is left out). */
  datatype SpiritualError = SpiritualError(
    message: string,
    kind: ErrorType,
    severity: Severity,
    context: ErrorContext,
    originalError: RawError,
    retryable: bool,
    spiritualMessage: string)

  /** The `SpiritualError` constructor: `retryable` and `spiritualMessage` are derived from the type. */
  function NewSpiritualError(message: string, kind: ErrorType, severity: Severity,
                             context: ErrorContext, original: RawError, pick: MessagePick): (e: SpiritualError)
    ensures e.message == message && e.kind == kind && e.severity == severity && e.context == context
    ensures e.retryable <==> kind in {Network, ServiceUnavailable, Timeout, RateLimit}
    ensures e.spiritualMessage in MessagesFor(kind)
  {
    SpiritualError(message, kind, severity, context, original, IsRetryable(kind),
                   GenerateSpiritualMessage(kind, pick))
  }

  // ---------------------------------------------------------------------------
  // Classification

  /** The structured outcome of classification. */
  datatype Classification = Classification(kind: ErrorType, severity: Severity, retryAfter: Option<nat>)

  /** The classification rules as an ordered table, independent of `Classify`'s if-chain. */
  datatype Pattern =
    | FetchTypeError               // name is TypeError and message mentions fetch
    | TimeoutOrAbort               // message mentions timeout, or name is AbortError
    | MessageMentions(codes: seq<string>)

  datatype Rule = Rule(pattern: Pattern, kind: ErrorType, severity: Severity)

  predicate Matches(p: Pattern, e: RawError) {
    match p
    case FetchTypeError => e.name == "TypeError" && Contains(e.message, "fetch")
    case TimeoutOrAbort => Contains(e.message, "timeout") || e.name == "AbortError"
    case MessageMentions(codes) => exists i :: 0 <= i < |codes| && Contains(e.message, codes[i])
  }

  const Rules: seq<Rule> := [
    Rule(FetchTypeError, Network, High),
    Rule(TimeoutOrAbort, Timeout, Medium),
    Rule(MessageMentions(["401", "403"]), Authentication, High),
    Rule(MessageMentions(["400", "422"]), Validation, Low),
    Rule(MessageMentions(["429"]), RateLimit, Medium),
    Rule(MessageMentions(["503", "502"]), ServiceUnavailable, High)
  ]

  /** The index of the first rule at or after `from` that matches `e`. */
  function FirstMatch(rules: seq<Rule>, e: RawError, from: nat): (r: Option<nat>)
    requires from <= |rules|
    ensures r.Some? ==> from <= r.value < |rules| && Matches(rules[r.value].pattern, e)
    ensures r.Some? ==> forall j :: from <= j < r.value ==> !Matches(rules[j].pattern, e)
    ensures r.None? ==> forall j :: from <= j < |rules| ==> !Matches(rules[j].pattern, e)
    decreases |rules| - from
  {
    if from == |rules| then None
    else if Matches(rules[from].pattern, e) then Some(from)
    else FirstMatch(rules, e, from + 1)
  }

  /** The severity each type is classified with. */
  function SeverityOf(t: ErrorType): Severity {
    match t
    case Network => High
    case Timeout => Medium
    case Authentication => High
    case Validation => Low
    case RateLimit => Medium
    case ServiceUnavailable => High
    case Unknown => Medium
  }

  /** The type analysis at the top of `handleSpiritualError`, in the source's order. */
  function Classify(e: RawError): (c: Classification)
    ensures c.severity == SeverityOf(c.kind)
    ensures c.retryAfter == (if c.kind == RateLimit then Some(60000) else None)
    ensures c.kind == Network <==> e.name == "TypeError" && Contains(e.message, "fetch")
  {
    if e.name == "TypeError" && Contains(e.message, "fetch") then
      Classification(Network, High, None)
    else if Contains(e.message, "timeout") || e.name == "AbortError" then
      Classification(Timeout, Medium, None)
    else if Contains(e.message, "401") || Contains(e.message, "403") then
      Classification(Authentication, High, None)
    else if Contains(e.message, "400") || Contains(e.message, "422") then
      Classification(Validation, Low, None)
    else if Contains(e.message, "429") then
      Classification(RateLimit, Medium, Some(60000))
    else if Contains(e.message, "503") || Contains(e.message, "502") then
      Classification(ServiceUnavailable, High, None)
    else
      Classification(Unknown, Medium, None)
  }

  /** The reference classification: the first matching rule of the table, else unknown/medium. */
  function ClassifyByRules(e: RawError): (c: Classification)
    ensures c.severity == SeverityOf(c.kind)
    ensures c.kind == Unknown <==> forall j :: 0 <= j < |Rules| ==> !Matches(Rules[j].pattern, e)
  {
    match FirstMatch(Rules, e, 0)
    case Some(i) => Classification(Rules[i].kind, Rules[i].severity,
                                   if Rules[i].kind == RateLimit then Some(60000) else None)
    case None => Classification(Unknown, Medium, None)
  }

  /** The source's if-chain is exactly first-match over the ordered rule table. */
  lemma ClassifyIsFirstMatch(e: RawError)
    ensures Classify(e) == ClassifyByRules(e)
  {
    var m := e.message;
    assert Rules[2].pattern.codes == ["401", "403"];
    assert Rules[3].pattern.codes == ["400", "422"];
    assert Rules[4].pattern.codes == ["429"];
    assert Rules[5].pattern.codes == ["503", "502"];
    MentionsEither(e, "401", "403");
    MentionsEither(e, "400", "422");
    MentionsEither(e, "503", "502");
    assert Matches(MessageMentions(["429"]), e) <==> Contains(m, "429") by {
      assert ["429"][0] == "429";
    }
  }

  /** A two-code rule matches exactly when the message mentions either code. */
  lemma MentionsEither(e: RawError, a: string, b: string)
    ensures Matches(MessageMentions([a, b]), e) <==> Contains(e.message, a) || Contains(e.message, b)
  {
    var codes := [a, b];
    assert codes[0] == a && codes[1] == b;
  }

  /** An error no rule matches is unknown/medium and suggests no retry-after. */
  lemma UnmatchedIsUnknown(e: RawError)
    requires forall j :: 0 <= j < |Rules| ==> !Matches(Rules[j].pattern, e)
    ensures Classify(e) == Classification(Unknown, Medium, None)
  {
    ClassifyIsFirstMatch(e);
  }

  // ---------------------------------------------------------------------------
  // Fallback catalog

  /** FALLBACK_DATA payloads; only the fields that identify them are kept.
      `stamp` is `Date.now()` at module load, rendered in decimal. */
  datatype FallbackData =
    | ModelsFallback(modelNames: seq<string>)
    | TarotReadingFallback(cardName: string, readingId: string)
    | AstrologyChartFallback(sunSign: string, moonSign: string, ascendantSign: string, chartId: string)
    | BookQueryFallback(sourceTitles: seq<string>, queryId: string)
    | SpiritualChatFallback(message: string)

  /** The offline identifier every fallback record carries. */
  function OfflineId(stamp: nat): string {
    "offline_" + NatToString(stamp)
  }

  const SpiritualChatFallbackMessage: string :=
    "I sense you're seeking guidance during this moment of disconnection. Remember that true wisdom comes from within. Take this quiet moment to connect with your inner self and trust that all answers you seek already reside in your heart. \U{1F64F}\U{2728}"

  /** The keys of FALLBACK_DATA. */
  const FallbackKeys: set<string> := {"models", "tarotReading", "astrologyChart", "bookQuery", "spiritualChat"}

  /** `FALLBACK_DATA[key]` for a key of the table. */
  function FallbackFor(key: string, stamp: nat): (d: FallbackData)
    requires key in FallbackKeys
    ensures d.ModelsFallback? <==> key == "models"
    ensures d.TarotReadingFallback? <==> key == "tarotReading"
    ensures d.AstrologyChartFallback? <==> key == "astrologyChart"
    ensures d.BookQueryFallback? <==> key == "bookQuery"
    ensures d.SpiritualChatFallback? <==> key == "spiritualChat"
  {
    if key == "models" then ModelsFallback(["dolphin-mistral:7b", "llama2:7b", "codellama:7b"])
    else if key == "tarotReading" then TarotReadingFallback("The Star", OfflineId(stamp))
    else if key == "astrologyChart" then AstrologyChartFallback("Leo", "Pisces", "Virgo", OfflineId(stamp))
    else if key == "bookQuery" then BookQueryFallback(["The Power of Now", "The Alchemist"], OfflineId(stamp))
    else SpiritualChatFallback(SpiritualChatFallbackMessage)
  }

  /** Operation names that reach a fallback only through the alias chain. */
  const FallbackAliases: set<string> := {"fetchModels", "fetchTarotReading", "generateChart", "queryBooks"}

  /** Every offline identifier in the catalog carries the `offline_` prefix. */
  lemma OfflineIdsArePrefixed(stamp: nat, key: string)
    requires key in FallbackKeys
    ensures match FallbackFor(key, stamp)
      case TarotReadingFallback(_, id) => StartsWith(id, "offline_")
      case AstrologyChartFallback(_, _, _, id) => StartsWith(id, "offline_")
      case BookQueryFallback(_, id) => StartsWith(id, "offline_")
      case _ => true
  {
    var id := OfflineId(stamp);
    assert id[..8] == "offline_";
  }

  /** The fallback lookup of `handleSpiritualError`: a direct key of FALLBACK_DATA,
      then the alias chain. */
  function LookupFallback(operation: Option<string>, stamp: nat): (r: Option<FallbackData>)
    ensures r.Some? <==> (operation.Some? && (operation.value in FallbackKeys || operation.value in FallbackAliases))
    ensures r.Some? && operation.value in FallbackKeys ==> r.value == FallbackFor(operation.value, stamp)
  {
    if operation.Some? && operation.value != "" && operation.value in FallbackKeys then
      Some(FallbackFor(operation.value, stamp))
    else if operation == Some("fetchModels") then Some(FallbackFor("models", stamp))
    else if operation == Some("fetchTarotReading") then Some(FallbackFor("tarotReading", stamp))
    else if operation == Some("generateChart") then Some(FallbackFor("astrologyChart", stamp))
    else if operation == Some("queryBooks") then Some(FallbackFor("bookQuery", stamp))
    else if operation == Some("spiritualChat") then Some(FallbackFor("spiritualChat", stamp))
    else None
  }

  /** Each alias reaches the payload its name suggests. */
  lemma AliasesReachTheirPayloads(stamp: nat)
    ensures LookupFallback(Some("fetchModels"), stamp).value.ModelsFallback?
    ensures LookupFallback(Some("fetchTarotReading"), stamp).value == TarotReadingFallback("The Star", OfflineId(stamp))
    ensures LookupFallback(Some("generateChart"), stamp).value.AstrologyChartFallback?
    ensures LookupFallback(Some("queryBooks"), stamp).value.BookQueryFallback?
  {
  }

  // ---------------------------------------------------------------------------
  // Backoff

  /** The cap on the handler's suggested delay. */
  const HandlerMaxDelay: real := 30000.0

  /** `context.attempt || 1`. */
  function AttemptOf(context: ErrorContext): (a: nat)
    ensures a >= 1
    ensures context.attempt.Some? && context.attempt.value >= 1 ==> a == context.attempt.value
    ensures context.attempt.None? || context.attempt.value == 0 ==> a == 1
  {
    if context.attempt.Some? && context.attempt.value != 0 then context.attempt.value else 1
  }

  /** `retryAfter || 1000`: the base of the handler's backoff. */
  function BaseDelay(retryAfter: Option<nat>): (b: nat)
    ensures b >= 1
    ensures retryAfter.Some? && retryAfter.value >= 1 ==> b == retryAfter.value
    ensures retryAfter.None? || retryAfter.value == 0 ==> b == 1000
  {
    if retryAfter.Some? && retryAfter.value != 0 then retryAfter.value else 1000
  }

  /** `base * 2^(attempt-1)`: the backoff before jitter and cap. */
  function Exponential(base: nat, attempt: nat): (x: real)
    requires attempt >= 1
    ensures x >= base as real
    ensures attempt == 1 ==> x == base as real
  {
    assert Pow2(attempt - 1) >= 1.0;
    ScaleUp(base as real, Pow2(attempt - 1));
    base as real * Pow2(attempt - 1)
  }

  /** The handler's delay: `min(base * 2^(attempt-1) * (1 + jitter), 30000)` with base
      `retryAfter || 1000`. */
  function HandlerDelay(retryAfter: Option<nat>, attempt: nat, jitter: Jitter): (d: real)
    requires attempt >= 1
    ensures d <= HandlerMaxDelay
    ensures d >= MinReal(Exponential(BaseDelay(retryAfter), attempt), HandlerMaxDelay)
    ensures d < 1.3 * Exponential(BaseDelay(retryAfter), attempt)
    ensures BaseDelay(retryAfter) >= 30000 ==> d == HandlerMaxDelay
  {
    CappedJitter(Exponential(BaseDelay(retryAfter), attempt), jitter, HandlerMaxDelay)
  }

  /** Each further attempt doubles the backoff before jitter and cap. */
  lemma ExponentialDoubles(base: nat, attempt: nat)
    requires attempt >= 1
    ensures Exponential(base, attempt + 1) == 2.0 * Exponential(base, attempt)
  {
    Pow2Step(attempt - 1);
  }

  /** For a fixed draw, a later attempt never gets a shorter delay. */
  lemma {:induction false} HandlerDelayMonotonic(retryAfter: Option<nat>, a1: nat, a2: nat, jitter: Jitter)
    requires 1 <= a1 <= a2
    ensures HandlerDelay(retryAfter, a1, jitter) <= HandlerDelay(retryAfter, a2, jitter)
  {
    Pow2Monotonic(a1 - 1, a2 - 1);
    var b := BaseDelay(retryAfter) as real;
    assert b * Pow2(a1 - 1) <= b * Pow2(a2 - 1);
    CappedJitterMonotonic(Exponential(BaseDelay(retryAfter), a1), Exponential(BaseDelay(retryAfter), a2), jitter, HandlerMaxDelay);
  }

  /** A first attempt without a server hint waits between one second and 1.3 seconds. */
  lemma FirstAttemptWaitsAboutASecond(jitter: Jitter)
    ensures 1000.0 <= HandlerDelay(None, 1, jitter) < 1300.0
  {
  }

  // ---------------------------------------------------------------------------
  // The handler

  /** The record `handleSpiritualError` resolves to. */
  datatype ErrorResponse = ErrorResponse(
    error: SpiritualError,
    retryable: bool,
    retryAfter: real,
    fallbackAvailable: bool,
    fallbackData: Option<FallbackData>,
    severity: Severity,
    spiritualMessage: string)

  const DefaultErrorMessage := "Unknown spiritual disturbance occurred"

  /** `handleSpiritualError(error, context)`, with the random draw and the module-load stamp
      as parameters. */
  function HandleSpiritualError(e: RawError, context: ErrorContext, draw: Draw, stamp: nat): (r: ErrorResponse)
    ensures r.error.kind == Classify(e).kind && r.error.severity == SeverityOf(r.error.kind)
    ensures r.retryable == r.error.retryable && r.severity == r.error.severity
    ensures r.retryable <==> IsRetryable(Classify(e).kind)
    ensures r.error.message == (if e.message == "" then DefaultErrorMessage else e.message)
    ensures r.error.context == context && r.error.originalError == e
    ensures r.spiritualMessage == r.error.spiritualMessage && r.spiritualMessage in MessagesFor(r.error.kind)
    ensures r.fallbackAvailable <==> r.fallbackData.Some?
    ensures r.fallbackAvailable <==>
      (context.operation.Some? && (context.operation.value in FallbackKeys || context.operation.value in FallbackAliases))
    ensures r.fallbackData == LookupFallback(context.operation, stamp)
    ensures r.retryAfter == HandlerDelay(Classify(e).retryAfter, AttemptOf(context), draw.jitter)
    ensures r.retryAfter <= HandlerMaxDelay
    ensures r.error.kind == RateLimit ==> r.retryAfter == HandlerMaxDelay
  {
    var c := Classify(e);
    var message := if e.message != "" then e.message else DefaultErrorMessage;
    var err := NewSpiritualError(message, c.kind, c.severity, context, e, draw.pick);
    var fallback := LookupFallback(context.operation, stamp);
    var delay := HandlerDelay(c.retryAfter, AttemptOf(context), draw.jitter);
    ErrorResponse(err, err.retryable, delay, fallback.Some?, fallback, err.severity, err.spiritualMessage)
  }

  /** Classification does not depend on the context or the random draw: only the chosen
      message and the delay can differ between two handlings of the same failure. */
  lemma ClassificationIsDeterministic(e: RawError, c1: ErrorContext, c2: ErrorContext,
                                      d1: Draw, d2: Draw, s1: nat, s2: nat)
    ensures var r1 := HandleSpiritualError(e, c1, d1, s1);
      var r2 := HandleSpiritualError(e, c2, d2, s2);
      r1.error.kind == r2.error.kind && r1.severity == r2.severity && r1.retryable == r2.retryable
  {
  }

  // ---------------------------------------------------------------------------
  // Retry wrapper

  /** The outcome of the k-th call of the wrapped operation. */
  datatype CallOutcome<T> = Returned(value: T) | Threw(error: RawError)

  /** How `withSpiritualRetry` settles: with the operation's value, with the classified
      error, or (when `maxRetries < 1`, so the loop never runs) by throwing `undefined`. */
  datatype RetryResult<T> = Resolved(value: T) | Rejected(error: SpiritualError) | RejectedUndefined

  /** A run of the retry loop: how it settled, the total number of operation calls made,
      and the sleeps taken between them. */
  datatype RetryRun<T> = RetryRun(result: RetryResult<T>, calls: nat, sleeps: seq<real>)

  /** How the loop handles the failure of attempt `a` (1-based): `handleSpiritualError`
      with `{ ...context, attempt: a }` and the random draw `draws(a)`. */
  function SpiritualHandler(context: ErrorContext, draws: nat -> Draw, stamp: nat): (RawError, nat) -> ErrorResponse
  {
    (e: RawError, a: nat) => HandleSpiritualError(e, context.WithAttempt(a), draws(a), stamp)
  }

  /** The failure of attempt `a` would be retried. */
  predicate RetryableAt<T>(op: nat -> CallOutcome<T>, handle: (RawError, nat) -> ErrorResponse, a: nat)
    requires a >= 1
  {
    op(a - 1).Threw? && handle(op(a - 1).error, a).retryable
  }

  /** Attempts `lo` to `hi - 1` all failed retryably. */
  predicate RetryableBetween<T>(op: nat -> CallOutcome<T>, handle: (RawError, nat) -> ErrorResponse, lo: nat, hi: nat)
    requires lo >= 1
    decreases hi - lo
  {
    lo < hi ==> RetryableAt(op, handle, lo) && RetryableBetween(op, handle, lo + 1, hi)
  }

  /** `d` is the delay the handler suggested after attempt `a` failed. */
  predicate SuggestedSleep<T>(op: nat -> CallOutcome<T>, handle: (RawError, nat) -> ErrorResponse, a: nat, d: real)
    requires a >= 1
  {
    op(a - 1).Threw? && d == handle(op(a - 1).error, a).retryAfter
  }

  /** The retry loop from `attempt` on, written tail-recursively. `op(k)` is the outcome of
      the (k+1)-th call; `handle` classifies a failure of a given attempt. */
  function RetryFrom<T>(op: nat -> CallOutcome<T>, maxRetries: int, handle: (RawError, nat) -> ErrorResponse,
                        attempt: nat): (r: RetryRun<T>)
    requires attempt >= 1
    ensures r.result == RejectedUndefined <==> attempt > maxRetries
    ensures r.result.Resolved? ==> r.calls >= 1 && op(r.calls - 1) == Returned(r.result.value)
    ensures r.result.Rejected? ==> r.calls >= 1 && op(r.calls - 1).Threw?
    decreases if attempt <= maxRetries then maxRetries - attempt + 1 else 0
  {
    if attempt > maxRetries then RetryRun(RejectedUndefined, attempt - 1, [])
    else match op(attempt - 1)
      case Returned(v) => RetryRun(Resolved(v), attempt, [])
      case Threw(err) =>
        var response := handle(err, attempt);
        if !response.retryable || attempt == maxRetries then RetryRun(Rejected(response.error), attempt, [])
        else
          var rest := RetryFrom(op, maxRetries, handle, attempt + 1);
          RetryRun(rest.result, rest.calls, [response.retryAfter] + rest.sleeps)
  }

  /** The loop never calls the operation more than `maxRetries` times, makes at least one
      call when it starts, and sleeps once between consecutive calls, each sleep being a
      delay the handler suggested. */
  lemma {:induction false} RetryCallsBounded<T>(op: nat -> CallOutcome<T>, maxRetries: int,
                                                handle: (RawError, nat) -> ErrorResponse, attempt: nat)
    requires attempt >= 1
    ensures var run := RetryFrom(op, maxRetries, handle, attempt);
      && (attempt <= maxRetries ==> attempt <= run.calls <= maxRetries)
      && (attempt > maxRetries ==> run.calls == attempt - 1 && run.result == RejectedUndefined)
      && (attempt <= maxRetries ==> |run.sleeps| == run.calls - attempt)
      && (forall i :: 0 <= i < |run.sleeps| ==> SuggestedSleep(op, handle, attempt + i, run.sleeps[i]))
    decreases if attempt <= maxRetries then maxRetries - attempt + 1 else 0
  {
    if attempt <= maxRetries && op(attempt - 1).Threw? {
      var response := handle(op(attempt - 1).error, attempt);
      if response.retryable && attempt != maxRetries {
        RetryCallsBounded(op, maxRetries, handle, attempt + 1);
        var run := RetryFrom(op, maxRetries, handle, attempt);
        var rest := RetryFrom(op, maxRetries, handle, attempt + 1);
        assert run.sleeps == [response.retryAfter] + rest.sleeps;
        forall i | 0 <= i < |run.sleeps|
          ensures SuggestedSleep(op, handle, attempt + i, run.sleeps[i])
        {
          if i > 0 {
            assert run.sleeps[i] == rest.sleeps[i - 1];
            assert SuggestedSleep(op, handle, attempt + 1 + (i - 1), rest.sleeps[i - 1]);
          }
        }
      }
    }
  }

  /** The loop only throws a classified error on the last attempt or for a failure the
      handler says not to retry. */
  lemma {:induction false} RejectionReason<T>(op: nat -> CallOutcome<T>, maxRetries: int,
                                              handle: (RawError, nat) -> ErrorResponse, attempt: nat)
    requires attempt >= 1
    ensures var run := RetryFrom(op, maxRetries, handle, attempt);
      run.result.Rejected? ==>
        run.calls >= 1 && op(run.calls - 1).Threw? &&
        run.result.error == handle(op(run.calls - 1).error, run.calls).error &&
        (run.calls == maxRetries || !handle(op(run.calls - 1).error, run.calls).retryable)
    decreases if attempt <= maxRetries then maxRetries - attempt + 1 else 0
  {
    if attempt <= maxRetries && op(attempt - 1).Threw? {
      var response := handle(op(attempt - 1).error, attempt);
      if response.retryable && attempt != maxRetries {
        RejectionReason(op, maxRetries, handle, attempt + 1);
      }
    }
  }

  /** If the first success comes on call `k <= maxRetries` and every call before it failed
      retryably, the loop resolves with that value after exactly `k` calls. */
  lemma {:induction false} RetrySucceedsOnFirstSuccess<T>(op: nat -> CallOutcome<T>, maxRetries: int,
                                                          handle: (RawError, nat) -> ErrorResponse,
                                                          attempt: nat, k: nat)
    requires 1 <= attempt <= k <= maxRetries
    requires op(k - 1).Returned?
    requires RetryableBetween(op, handle, attempt, k)
    ensures var run := RetryFrom(op, maxRetries, handle, attempt);
      run.result == Resolved(op(k - 1).value) && run.calls == k && |run.sleeps| == k - attempt
    decreases k - attempt
  {
    if attempt < k {
      RetrySucceedsOnFirstSuccess(op, maxRetries, handle, attempt + 1, k);
    }
  }

  /** A non-retryable failure on call `k`, after retryable failures only, ends the loop at
      once with that failure's classified error: `k` calls in all. */
  lemma {:induction false} RetryStopsOnNonRetryable<T>(op: nat -> CallOutcome<T>, maxRetries: int,
                                                       handle: (RawError, nat) -> ErrorResponse,
                                                       attempt: nat, k: nat)
    requires 1 <= attempt <= k <= maxRetries
    requires op(k - 1).Threw? && !RetryableAt(op, handle, k)
    requires RetryableBetween(op, handle, attempt, k)
    ensures var run := RetryFrom(op, maxRetries, handle, attempt);
      run.calls == k && run.result == Rejected(handle(op(k - 1).error, k).error)
    decreases k - attempt
  {
    if attempt < k {
      RetryStopsOnNonRetryable(op, maxRetries, handle, attempt + 1, k);
    }
  }

  /** When every call fails retryably, the loop gives up after exactly `maxRetries` calls
      and throws the last classified error. */
  lemma {:induction false} RetryExhausts<T>(op: nat -> CallOutcome<T>, maxRetries: int,
                                            handle: (RawError, nat) -> ErrorResponse, attempt: nat)
    requires 1 <= attempt <= maxRetries
    requires RetryableBetween(op, handle, attempt, maxRetries + 1)
    ensures var run := RetryFrom(op, maxRetries, handle, attempt);
      && run.calls == maxRetries
      && op(maxRetries - 1).Threw?
      && run.result == Rejected(handle(op(maxRetries - 1).error, maxRetries).error)
      && |run.sleeps| == maxRetries - attempt
    decreases maxRetries - attempt
  {
    if attempt < maxRetries {
      RetryExhausts(op, maxRetries, handle, attempt + 1);
    }
  }

  /** With the spiritual handler, a first call failing with a non-retryable type (for example
      a validation error) throws after exactly one call. */
  lemma NonRetryableFirstFailureThrowsOnce<T>(op: nat -> CallOutcome<T>, maxRetries: int,
                                              context: ErrorContext, draws: nat -> Draw, stamp: nat)
    requires maxRetries >= 1
    requires op(0).Threw? && !IsRetryable(Classify(op(0).error).kind)
    ensures var run := RetryFrom(op, maxRetries, SpiritualHandler(context, draws, stamp), 1);
      run.calls == 1 && run.result.Rejected? && run.result.error.kind == Classify(op(0).error).kind
  {
    var h := SpiritualHandler(context, draws, stamp);
    assert !h(op(0).error, 1).retryable;
    RetryStopsOnNonRetryable(op, maxRetries, h, 1, 1);
  }

  /** The loop of `withSpiritualRetry`, for any way of handling a failed attempt;
      sleeping is recorded, not performed. */
  method RetryLoop<T>(op: nat -> CallOutcome<T>, maxRetries: int, handle: (RawError, nat) -> ErrorResponse)
    returns (result: RetryResult<T>, calls: nat, sleeps: seq<real>)
    ensures RetryRun(result, calls, sleeps) == RetryFrom(op, maxRetries, handle, 1)
    ensures maxRetries < 1 ==> result == RejectedUndefined && calls == 0
    ensures result.Resolved? ==> calls >= 1 && op(calls - 1) == Returned(result.value)
    ensures result.Rejected? ==>
      (calls >= 1 && op(calls - 1).Threw? && result.error == handle(op(calls - 1).error, calls).error)
  {
    sleeps := [];
    var attempt: nat := 1;
    while attempt <= maxRetries
      invariant 1 <= attempt
      invariant attempt <= maxRetries + 1 || attempt == 1
      invariant var rest := RetryFrom(op, maxRetries, handle, attempt);
        RetryFrom(op, maxRetries, handle, 1) == RetryRun(rest.result, rest.calls, sleeps + rest.sleeps)
      decreases maxRetries - attempt
    {
      match op(attempt - 1)
      case Returned(v) =>
        assert sleeps + [] == sleeps;
        return Resolved(v), attempt, sleeps;
      case Threw(err) =>
        var response := handle(err, attempt);
        if !response.retryable || attempt == maxRetries {
          assert sleeps + [] == sleeps;
          return Rejected(response.error), attempt, sleeps;
        }
        ghost var rest := RetryFrom(op, maxRetries, handle, attempt + 1);
        assert sleeps + ([response.retryAfter] + rest.sleeps) == (sleeps + [response.retryAfter]) + rest.sleeps;
        sleeps := sleeps + [response.retryAfter];
        attempt := attempt + 1;
    }
    assert sleeps + [] == sleeps;
    return RejectedUndefined, attempt - 1, sleeps;
  }

  /** With the spiritual handler every sleep stays under the handler's cap. */
  lemma SpiritualSleepsCapped<T>(op: nat -> CallOutcome<T>, maxRetries: int, context: ErrorContext,
                                 draws: nat -> Draw, stamp: nat)
    ensures var run := RetryFrom(op, maxRetries, SpiritualHandler(context, draws, stamp), 1);
      && run.calls <= (if maxRetries > 0 then maxRetries else 0)
      && |run.sleeps| == (if run.calls > 0 then run.calls - 1 else 0)
      && (forall i :: 0 <= i < |run.sleeps| ==> run.sleeps[i] <= HandlerMaxDelay)
  {
    var handle := SpiritualHandler(context, draws, stamp);
    var run := RetryFrom(op, maxRetries, handle, 1);
    RetryCallsBounded(op, maxRetries, handle, 1);
    forall i | 0 <= i < |run.sleeps|
      ensures run.sleeps[i] <= HandlerMaxDelay
    {
      assert SuggestedSleep(op, handle, 1 + i, run.sleeps[i]);
      var response := HandleSpiritualError(op(i).error, context.WithAttempt(1 + i), draws(1 + i), stamp);
      assert handle(op(i).error, 1 + i) == response;
      assert run.sleeps[i] == response.retryAfter;
    }
  }

  /** With the spiritual handler a rejection carries the classification of the last failure,
      and happens on the last attempt or for a failure that is not retryable. */
  lemma SpiritualRejection<T>(op: nat -> CallOutcome<T>, maxRetries: int, context: ErrorContext,
                              draws: nat -> Draw, stamp: nat)
    ensures var run := RetryFrom(op, maxRetries, SpiritualHandler(context, draws, stamp), 1);
      run.result.Rejected? ==>
        && run.calls >= 1 && op(run.calls - 1).Threw?
        && run.result.error.kind == Classify(op(run.calls - 1).error).kind
        && (run.calls == maxRetries || !run.result.error.retryable)
  {
    var handle := SpiritualHandler(context, draws, stamp);
    var run := RetryFrom(op, maxRetries, handle, 1);
    RejectionReason(op, maxRetries, handle, 1);
    if run.result.Rejected? {
      var e := op(run.calls - 1).error;
      var response := HandleSpiritualError(e, context.WithAttempt(run.calls), draws(run.calls), stamp);
      assert handle(e, run.calls) == response;
    }
  }

  /** The `maxRetries` default of `withSpiritualRetry`. */
  const DefaultMaxRetries: int := 3

  /** `withSpiritualRetry(operation, maxRetries = 3, context)`: an omitted `maxRetries` is 3.
      `draws(a)` is the random draw consumed when attempt `a` fails. */
  method WithSpiritualRetry<T>(op: nat -> CallOutcome<T>, maxRetries: Option<int>, context: ErrorContext,
                               draws: nat -> Draw, stamp: nat)
    returns (result: RetryResult<T>, calls: nat, sleeps: seq<real>)
    ensures var limit := maxRetries.GetOr(DefaultMaxRetries);
      RetryRun(result, calls, sleeps) == RetryFrom(op, limit, SpiritualHandler(context, draws, stamp), 1)
    ensures maxRetries.None? ==> calls <= 3
    ensures maxRetries.Some? ==> calls <= (if maxRetries.value > 0 then maxRetries.value else 0)
    ensures |sleeps| == (if calls > 0 then calls - 1 else 0)
    ensures forall i :: 0 <= i < |sleeps| ==> sleeps[i] <= HandlerMaxDelay
    ensures result.Rejected? ==>
      (&& calls >= 1 && op(calls - 1).Threw?
       && result.error.kind == Classify(op(calls - 1).error).kind
       && (calls == maxRetries.GetOr(DefaultMaxRetries) || !result.error.retryable))
  {
    var limit := maxRetries.GetOr(DefaultMaxRetries);
    SpiritualSleepsCapped(op, limit, context, draws, stamp);
    SpiritualRejection(op, limit, context, draws, stamp);
    result, calls, sleeps := RetryLoop(op, limit, SpiritualHandler(context, draws, stamp));
  }
}

=== FILE: network_config.dfy ===
/**
  Network configuration: the service table, the retry backoff, operation timeouts, cache
  lifetimes, request headers, the per-service health monitor and the URL builder.

  Environment variables are a map `env`; an unset or empty variable falls back to the
  default URL. The clock and the outcome of each health probe are parameters.
 */
module NetworkConfig {
  import opened Wrappers
  import opened Strings
  import opened Numeric
  import opened Platform

  // ---------------------------------------------------------------------------
  // SERVICE_ENDPOINTS

  datatype Endpoint = Endpoint(key: string, name: string, url: string, health: string, timeout: nat)

  /** The keys of SERVICE_ENDPOINTS, in declaration order. */
  const ServiceKeys: seq<string> := [
    "SPIRITUAL_API", "TAROT_SERVICE", "ASTROLOGY_SERVICE", "BOOK_CHAT_SERVICE",
    "SPIRITUAL_GATEWAY", "DASHBOARD_API", "ANALYTICS_SERVICE", "METRICS_SERVICE"
  ]

  /** SERVICE_ENDPOINTS, in declaration order. */
  function ServiceEndpoints(env: Env): (eps: seq<Endpoint>)
    ensures |eps| == |ServiceKeys|
    ensures forall i :: 0 <= i < |eps| ==> eps[i].key == ServiceKeys[i]
  {
    [
      Endpoint("SPIRITUAL_API", "Spiritual API",
               EnvOr(env, "REACT_APP_SPIRITUAL_API_URL", "http://localhost:8001"), "/health", 30000),
      Endpoint("TAROT_SERVICE", "Tarot Reader",
               EnvOr(env, "REACT_APP_TAROT_SERVICE_URL", "http://localhost:7870"), "/health", 45000),
      Endpoint("ASTROLOGY_SERVICE", "Astrology Calculator",
               EnvOr(env, "REACT_APP_ASTROLOGY_SERVICE_URL", "http://localhost:7871"), "/health", 60000),
      Endpoint("BOOK_CHAT_SERVICE", "Book Chat API",
               EnvOr(env, "REACT_APP_BOOK_CHAT_URL", "http://localhost:8002"), "/health", 30000),
      Endpoint("SPIRITUAL_GATEWAY", "Spiritual Gateway",
               EnvOr(env, "REACT_APP_API_BASE_URL", "http://localhost:8091"), "/api/health", 25000),
      Endpoint("DASHBOARD_API", "Dashboard API",
               EnvOr(env, "REACT_APP_DASHBOARD_API_URL", "http://localhost:3003"), "/health", 15000),
      Endpoint("ANALYTICS_SERVICE", "Analytics Service",
               EnvOr(env, "REACT_APP_ANALYTICS_URL", "http://localhost:3001"), "/health", 15000),
      Endpoint("METRICS_SERVICE", "Metrics Service",
               EnvOr(env, "REACT_APP_METRICS_URL", "http://localhost:9090"), "/api/v1/status/config", 10000)
    ]
  }

  /** `SERVICE_ENDPOINTS[service]`. */
  function LookupEndpoint(env: Env, service: string): (r: Option<Endpoint>)
    ensures r.Some? <==> service in ServiceKeys
    ensures r.Some? ==> r.value.key == service && r.value in ServiceEndpoints(env)
  {
    var eps := ServiceEndpoints(env);
    var r := FindByKey(eps, (e: Endpoint) => e.key, service);
    assert r.None? <==> service !in ServiceKeys by {
      if service in ServiceKeys {
        var i :| 0 <= i < |ServiceKeys| && ServiceKeys[i] == service;
        assert eps[i].key == service;
      }
    }
    r
  }

  // ---------------------------------------------------------------------------
  // RETRY_CONFIG

  const MaxRetries: nat := 3
  const InitialDelay: real := 1000.0
  const MaxDelay: real := 10000.0

  /** `RETRY_CONFIG.calculateDelay(attempt)` with the jitter draw as a parameter:
      `min(1000 * 2^(attempt-1) * (1 + jitter), 10000)`. */
  function CalculateDelay(attempt: int, jitter: Jitter): (d: real)
    ensures 0.0 < d <= MaxDelay
    ensures d >= MinReal(InitialDelay * Pow2(attempt - 1), MaxDelay)
    ensures d < 1.3 * (InitialDelay * Pow2(attempt - 1))
  {
    CappedJitter(InitialDelay * Pow2(attempt - 1), jitter, MaxDelay)
  }

  /** From the fifth attempt on, the delay is always the cap. */
  lemma CalculateDelayCapped(attempt: int, jitter: Jitter)
    requires attempt >= 5
    ensures CalculateDelay(attempt, jitter) == MaxDelay
  {
    Pow2Monotonic(4, attempt - 1);
    assert Pow2(4) == 16.0 by {
      Pow2Step(0); Pow2Step(1); Pow2Step(2); Pow2Step(3);
    }
  }

  /** For a fixed jitter draw, a later attempt never waits less. */
  lemma CalculateDelayMonotonic(a: int, b: int, jitter: Jitter)
    requires a <= b
    ensures CalculateDelay(a, jitter) <= CalculateDelay(b, jitter)
  {
    Pow2Monotonic(a - 1, b - 1);
    CappedJitterMonotonic(InitialDelay * Pow2(a - 1), InitialDelay * Pow2(b - 1), jitter, MaxDelay);
  }

  // ---------------------------------------------------------------------------
  // TIMEOUT_CONFIG

  const Quick: nat := 5000
  const Normal: nat := 15000
  const Long: nat := 30000
  const Extended: nat := 60000

  /** The operation table of `getTimeout`. */
  const TimeoutMap: map<string, nat> := map[
    "health" := Quick,
    "models" := Normal,
    "chat" := Long,
    "reading" := Long,
    "birthChart" := Extended,
    "query" := Normal,
    "generateChart" := Extended,
    "fetchTarotReading" := Long
  ]

  /** `TIMEOUT_CONFIG.getTimeout(operation)`. */
  function GetTimeout(operation: string): (t: nat)
    ensures t in {Quick, Normal, Long, Extended}
    ensures operation !in TimeoutMap ==> t == Normal
    ensures operation in TimeoutMap ==> t == TimeoutMap[operation]
  {
    if operation in TimeoutMap && TimeoutMap[operation] != 0 then TimeoutMap[operation] else Normal
  }

  // ---------------------------------------------------------------------------
  // CACHE_CONFIG

  const DefaultTTL: nat := 5 * 60 * 1000
  const LongTTL: nat := 30 * 60 * 1000
  const ShortTTL: nat := 1 * 60 * 1000

  /** TTL_MAP: lifetimes by data type; readings are marked 0, meaning "do not cache". */
  const TTLMap: map<string, nat> := map[
    "models" := 30 * 60 * 1000,
    "health" := 1 * 60 * 1000,
    "spreads" := 60 * 60 * 1000,
    "books" := 15 * 60 * 1000,
    "user" := 5 * 60 * 1000,
    "charts" := 10 * 60 * 1000,
    "readings" := 0
  ]

  /** `CACHE_CONFIG.getTTL(dataType)` as written: `TTL_MAP[dataType] || DEFAULT_TTL`.
      Because 0 is falsy, the "do not cache" marker is replaced by the default. */
  function GetTTL(dataType: string): (t: nat)
    ensures t > 0
    ensures dataType in TTLMap && TTLMap[dataType] != 0 ==> t == TTLMap[dataType]
    ensures dataType !in TTLMap ==> t == DefaultTTL
  {
    if dataType in TTLMap && TTLMap[dataType] != 0 then TTLMap[dataType] else DefaultTTL
  }

  /** The readings marker is lost: readings get the five-minute default lifetime. */
  lemma ReadingsGetDefaultTTL()
    ensures TTLMap["readings"] == 0
    ensures GetTTL("readings") == DefaultTTL
  {
  }

  /** The lookup the TTL table evidently intends: a listed type gets its own lifetime,
      including 0 for readings; only unlisted types get the default. */
  function GetTTLIntended(dataType: string): (t: nat)
    ensures dataType in TTLMap ==> t == TTLMap[dataType]
    ensures dataType !in TTLMap ==> t == DefaultTTL
    ensures t == 0 <==> dataType == "readings"
  {
    if dataType in TTLMap then TTLMap[dataType] else DefaultTTL
  }

  /** The two lookups differ only on the readings marker. */
  lemma GetTTLDiffersOnlyOnReadings(dataType: string)
    ensures GetTTL(dataType) != GetTTLIntended(dataType) <==> dataType == "readings"
  {
  }

  // ---------------------------------------------------------------------------
  // HEADERS_CONFIG

  type Headers = map<string, string>

  const DefaultHeaders: Headers := map[
    "Content-Type" := "application/json",
    "Accept" := "application/json",
    "X-Client" := "spiritual-dashboard",
    "X-Version" := "1.0.0"
  ]

  /** `HEADERS_CONFIG[service] || {}`: the service-specific headers. The key `DEFAULT` names
      the default headers themselves; the `buildHeaders` entry is a function, which spreads to
      no headers. */
  function ServiceHeaders(service: string): (h: Headers)
    ensures "X-Service" in h <==>
      service in {"SPIRITUAL_API", "TAROT_SERVICE", "ASTROLOGY_SERVICE", "BOOK_CHAT_SERVICE", "DASHBOARD_API"}
    ensures "X-Service" in h ==> h.Keys == {"X-Service", "X-Context"}
    ensures service == "DEFAULT" ==> h == DefaultHeaders
    ensures "X-Service" !in h && service != "DEFAULT" ==> h == map[]
  {
    if service == "SPIRITUAL_API" then map["X-Service" := "spiritual-api", "X-Context" := "spiritual-guidance"]
    else if service == "TAROT_SERVICE" then map["X-Service" := "tarot-reader", "X-Context" := "divination"]
    else if service == "ASTROLOGY_SERVICE" then map["X-Service" := "astrology-calculator", "X-Context" := "celestial-wisdom"]
    else if service == "BOOK_CHAT_SERVICE" then map["X-Service" := "book-chat", "X-Context" := "ancient-knowledge"]
    else if service == "DASHBOARD_API" then map["X-Service" := "dashboard-api", "X-Context" := "spiritual-dashboard"]
    else if service == "DEFAULT" then DefaultHeaders
    else map[]
  }

  /** `HEADERS_CONFIG.buildHeaders(service, additional)`: a merge where additional headers
      win over service headers, which win over the defaults. */
  function BuildHeaders(service: string, additional: Headers): (h: Headers)
    ensures h.Keys == DefaultHeaders.Keys + ServiceHeaders(service).Keys + additional.Keys
    ensures forall k :: k in additional ==> h[k] == additional[k]
    ensures forall k :: k in ServiceHeaders(service) && k !in additional ==> h[k] == ServiceHeaders(service)[k]
    ensures forall k :: k in DefaultHeaders && k !in ServiceHeaders(service) && k !in additional ==>
      h[k] == DefaultHeaders[k]
  {
    DefaultHeaders + ServiceHeaders(service) + additional
  }

  /** A service without its own headers gets the defaults merged with the additional ones. */
  lemma UnknownServiceHeaders(service: string, additional: Headers)
    requires service !in {"SPIRITUAL_API", "TAROT_SERVICE", "ASTROLOGY_SERVICE", "BOOK_CHAT_SERVICE", "DASHBOARD_API"}
    ensures BuildHeaders(service, additional) == DefaultHeaders + additional
  {
  }

  // ---------------------------------------------------------------------------
  // NetworkStatus

  datatype ServiceStatus = StatusUnknown | Healthy | Unhealthy | Offline | StatusError

  /** A health-check summary. */
  datatype Summary = Summary(total: nat, healthy: nat, unhealthy: nat, errors: nat)

  /** The events `broadcastStatusChange` dispatches. */
  datatype StatusEvent =
    | WentOnline(at: int)
    | WentOffline(at: int)
    | ServiceChanged(service: string, status: ServiceStatus, at: int)
    | HealthChecked(summary: Summary, at: int)

  /** The state of a `NetworkStatus` instance; `events` records what it broadcast. */
  datatype Monitor = Monitor(
    online: bool,
    status: map<string, ServiceStatus>,
    lastChecked: map<string, int>,
    events: seq<StatusEvent>)

  /** `broadcastStatusChange(event)`: the event is appended to what was broadcast so far. */
  function Broadcast(m: Monitor, event: StatusEvent): (m': Monitor)
    ensures m'.online == m.online && m'.status == m.status && m'.lastChecked == m.lastChecked
    ensures |m'.events| == |m.events| + 1 && m'.events[|m.events|] == event
    ensures m'.events[..|m.events|] == m.events
  {
    m.(events := m.events + [event])
  }

  /** A fresh monitor, seeded with the browser's connectivity flag. */
  function NewMonitor(online: bool): (m: Monitor)
    ensures m.online == online && m.status == map[] && m.lastChecked == map[] && m.events == []
  {
    Monitor(online, map[], map[], [])
  }

  /** The browser's `online` event. */
  function GoOnline(m: Monitor, now: int): (m': Monitor)
    ensures m'.online && m'.status == m.status && m'.lastChecked == m.lastChecked
    ensures m'.events == m.events + [WentOnline(now)]
  {
    m.(online := true, events := m.events + [WentOnline(now)])
  }

  /** The browser's `offline` event. */
  function GoOffline(m: Monitor, now: int): (m': Monitor)
    ensures !m'.online && m'.status == m.status && m'.lastChecked == m.lastChecked
    ensures m'.events == m.events + [WentOffline(now)]
  {
    m.(online := false, events := m.events + [WentOffline(now)])
  }

  /** `getServiceStatus(service)`. */
  function GetServiceStatus(m: Monitor, service: string): (s: ServiceStatus)
    ensures service !in m.status ==> s == StatusUnknown
    ensures service in m.status ==> s == m.status[service]
  {
    if service in m.status then m.status[service] else StatusUnknown
  }

  /** `setServiceStatus(service, status)` at time `now`. */
  function SetServiceStatus(m: Monitor, service: string, s: ServiceStatus, now: int): (m': Monitor)
    ensures GetServiceStatus(m', service) == s
    ensures m'.lastChecked.Keys == m.lastChecked.Keys + {service} && m'.lastChecked[service] == now
    ensures forall other :: other != service ==> GetServiceStatus(m', other) == GetServiceStatus(m, other)
    ensures forall other :: other in m.lastChecked && other != service ==> m'.lastChecked[other] == m.lastChecked[other]
    ensures m'.online == m.online && m'.events == m.events + [ServiceChanged(service, s, now)]
  {
    Monitor(m.online, m.status[service := s], m.lastChecked[service := now],
            m.events + [ServiceChanged(service, s, now)])
  }

  /** Every service with a status has a check time, and the other way round. */
  ghost predicate Consistent(m: Monitor) {
    m.status.Keys == m.lastChecked.Keys
  }

  /** Setting a status keeps the two maps in step. */
  lemma SetServiceStatusConsistent(m: Monitor, service: string, s: ServiceStatus, now: int)
    requires Consistent(m)
    ensures Consistent(SetServiceStatus(m, service, s, now))
  {
  }

  /** One entry of `getAllServiceStatuses()`. */
  datatype StatusEntry = StatusEntry(status: ServiceStatus, lastChecked: Option<int>)

  /** `getAllServiceStatuses()`: every service with a status, with its last check time
      (`undefined`, here `None`, when there is none). */
  function AllServiceStatuses(m: Monitor): (r: map<string, StatusEntry>)
    ensures r.Keys == m.status.Keys
    ensures forall s :: s in r ==> r[s].status == GetServiceStatus(m, s)
    ensures forall s :: s in r ==> (r[s].lastChecked.Some? <==> s in m.lastChecked)
    ensures forall s :: s in r && s in m.lastChecked ==> r[s].lastChecked == Some(m.lastChecked[s])
  {
    map s | s in m.status :: StatusEntry(m.status[s], if s in m.lastChecked then Some(m.lastChecked[s]) else None)
  }

  /** In a consistent monitor every listed service carries its check time. */
  lemma AllStatusesHaveTimes(m: Monitor)
    requires Consistent(m)
    ensures forall s :: s in AllServiceStatuses(m) ==> AllServiceStatuses(m)[s].lastChecked.Some?
  {
  }

  /** Every recorded check time is at most `now`. */
  ghost predicate CheckedBy(m: Monitor, now: int) {
    forall s :: s in m.lastChecked ==> m.lastChecked[s] <= now
  }

  /** With a clock that does not run backwards, check times never decrease. */
  lemma LastCheckedMonotonic(m: Monitor, service: string, s: ServiceStatus, now: int)
    requires CheckedBy(m, now)
    ensures var m' := SetServiceStatus(m, service, s, now);
      CheckedBy(m', now) &&
      forall x :: x in m.lastChecked ==> m.lastChecked[x] <= m'.lastChecked[x]
  {
  }

  /** What a health probe's `fetch` did: answered with an HTTP status, or threw (including
      the abort after five seconds). */
  datatype Probe = Answered(status: int) | ProbeFailed

  /** The `fetch` a health check issues. */
  datatype HealthRequest = HealthRequest(url: string, headers: Headers, timeout: nat)

  datatype HealthCheck = HealthCheck(monitor: Monitor, healthy: bool, request: Option<HealthRequest>)

  /** `checkServiceHealth(service)`, with the probe's outcome as a parameter. */
  function CheckServiceHealth(m: Monitor, env: Env, service: string, probe: Probe, now: int): (r: HealthCheck)
    ensures !m.online ==> r.request.None? && !r.healthy && GetServiceStatus(r.monitor, service) == Offline
    ensures m.online && service !in ServiceKeys ==>
      r.request.None? && !r.healthy && GetServiceStatus(r.monitor, service) == StatusUnknown
    ensures m.online && service in ServiceKeys ==> r.request.Some? && r.request.value.timeout == 5000
    ensures r.healthy <==> Reachable(m.online, service, probe)
    ensures m.online && service in ServiceKeys && probe.Answered? && !IsOk(probe.status) ==>
      GetServiceStatus(r.monitor, service) == Unhealthy
    ensures m.online && service in ServiceKeys && probe.ProbeFailed? ==>
      GetServiceStatus(r.monitor, service) == StatusError
    ensures r.healthy ==> GetServiceStatus(r.monitor, service) == Healthy
    ensures r.monitor == SetServiceStatus(m, service, GetServiceStatus(r.monitor, service), now)
    ensures GetServiceStatus(r.monitor, service) == CheckedStatus(m.online, service, probe)
  {
    if !m.online then
      HealthCheck(SetServiceStatus(m, service, Offline, now), false, None)
    else
      match LookupEndpoint(env, service)
      case None => HealthCheck(SetServiceStatus(m, service, StatusUnknown, now), false, None)
      case Some(ep) =>
        var request := HealthRequest(ep.url + ep.health, BuildHeaders(service, map[]), 5000);
        match probe
        case Answered(status) =>
          var healthy := IsOk(status);
          HealthCheck(SetServiceStatus(m, service, if healthy then Healthy else Unhealthy, now), healthy, Some(request))
        case ProbeFailed =>
          HealthCheck(SetServiceStatus(m, service, StatusError, now), false, Some(request))
  }

  /** The status a check of `service` against `probe` records. */
  function CheckedStatus(online: bool, service: string, probe: Probe): (s: ServiceStatus)
    ensures s == Healthy <==> Reachable(online, service, probe)
  {
    if !online then Offline
    else if service !in ServiceKeys then StatusUnknown
    else if probe.ProbeFailed? then StatusError
    else if IsOk(probe.status) then Healthy
    else Unhealthy
  }

  /** Whether a check of `service` against `probe` reports it healthy. */
  predicate Reachable(online: bool, service: string, probe: Probe) {
    online && service in ServiceKeys && probe.Answered? && IsOk(probe.status)
  }

  /** What each check of `services` reports, service by service: reachable or not. */
  function Verdicts(online: bool, services: seq<string>, probes: string -> Probe): (v: seq<bool>)
    ensures |v| == |services|
  {
    seq(|services|, i requires 0 <= i < |services| => Reachable(online, services[i], probes(services[i])))
  }

  /** Runs the checks of `services` one after another and collects their results.
      `Promise.allSettled` starts them together and each broadcasts its own event when it
      settles; the model fixes the order of those events to the order of `services` and gives
      them all the one time `now`. */
  function CheckEach(m: Monitor, env: Env, services: seq<string>, probes: string -> Probe, now: int): (r: (Monitor, seq<bool>))
    ensures |r.1| == |services|
    ensures forall i :: 0 <= i < |services| ==>
      (r.1[i] <==> Reachable(m.online, services[i], probes(services[i])))
    ensures r.0.online == m.online
    decreases |services|
  {
    if |services| == 0 then (m, [])
    else
      var first := CheckServiceHealth(m, env, services[0], probes(services[0]), now);
      var rest := CheckEach(first.monitor, env, services[1..], probes, now);
      (rest.0, [first.healthy] + rest.1)
  }

  /** After the checks, every checked service holds the status its probe gives (a service
      listed twice gets the same status both times) and every other service keeps its own. */
  lemma {:induction false} CheckEachStatuses(m: Monitor, env: Env, services: seq<string>, probes: string -> Probe, now: int)
    ensures var m' := CheckEach(m, env, services, probes, now).0;
      (forall s :: s in services ==> GetServiceStatus(m', s) == CheckedStatus(m.online, s, probes(s))) &&
      (forall s :: s !in services ==> GetServiceStatus(m', s) == GetServiceStatus(m, s))
    decreases |services|
  {
    if |services| > 0 {
      var first := CheckServiceHealth(m, env, services[0], probes(services[0]), now);
      CheckEachStatuses(first.monitor, env, services[1..], probes, now);
      assert forall s :: s in services ==> s == services[0] || s in services[1..];
    }
  }

  /** After the checks, every checked service was checked at `now`, and every other service
      keeps its check time. */
  lemma {:induction false} CheckEachTimes(m: Monitor, env: Env, services: seq<string>, probes: string -> Probe, now: int)
    ensures var m' := CheckEach(m, env, services, probes, now).0;
      (forall s :: s in m'.lastChecked <==> s in m.lastChecked || s in services) &&
      (forall s :: s in services ==> m'.lastChecked[s] == now) &&
      (forall s :: s in m.lastChecked && s !in services ==> m'.lastChecked[s] == m.lastChecked[s])
    decreases |services|
  {
    if |services| > 0 {
      var first := CheckServiceHealth(m, env, services[0], probes(services[0]), now);
      var m1 := first.monitor;
      assert m1.lastChecked == m.lastChecked[services[0] := now];
      CheckEachTimes(m1, env, services[1..], probes, now);
      assert forall s :: s in services ==> s == services[0] || s in services[1..];
    }
  }

  /** The `ServiceChanged` events checks of `services` broadcast, one per check, in order. */
  function Changes(online: bool, services: seq<string>, probes: string -> Probe, now: int): (es: seq<StatusEvent>)
    ensures |es| == |services|
    ensures forall i :: 0 <= i < |services| ==>
      es[i] == ServiceChanged(services[i], CheckedStatus(online, services[i], probes(services[i])), now)
    decreases |services|
  {
    if |services| == 0 then []
    else [ServiceChanged(services[0], CheckedStatus(online, services[0], probes(services[0])), now)]
         + Changes(online, services[1..], probes, now)
  }

  /** A single check broadcasts exactly its own `ServiceChanged` event. */
  lemma CheckRecordsEvent(m: Monitor, env: Env, service: string, probe: Probe, now: int)
    ensures var m' := CheckServiceHealth(m, env, service, probe, now).monitor;
      m'.online == m.online && m'.events == m.events + [ServiceChanged(service, CheckedStatus(m.online, service, probe), now)]
  {
  }

  /** The checks broadcast one `ServiceChanged` event each, in the order of `services`, after
      the events already sent. */
  lemma {:induction false} CheckEachEvents(m: Monitor, env: Env, services: seq<string>, probes: string -> Probe, now: int)
    ensures CheckEach(m, env, services, probes, now).0.events == m.events + Changes(m.online, services, probes, now)
    decreases |services|
  {
    if |services| > 0 {
      var first := CheckServiceHealth(m, env, services[0], probes(services[0]), now);
      CheckRecordsEvent(m, env, services[0], probes(services[0]), now);
      CheckEachEvents(first.monitor, env, services[1..], probes, now);
    }
  }

  /** Any list of per-service results that agrees with reachability is the list of verdicts. */
  lemma VerdictsAreUnique(bs: seq<bool>, online: bool, services: seq<string>, probes: string -> Probe)
    requires |bs| == |services|
    requires forall i :: 0 <= i < |services| ==> (bs[i] <==> Reachable(online, services[i], probes(services[i])))
    ensures bs == Verdicts(online, services, probes)
  {
    var v := Verdicts(online, services, probes);
    forall i | 0 <= i < |bs|
      ensures bs[i] == v[i]
    {
    }
  }

  /** The number of `true` entries. */
  function CountTrue(bs: seq<bool>): (n: nat)
    ensures n <= |bs|
  {
    if |bs| == 0 then 0 else (if bs[0] then 1 else 0) + CountTrue(bs[1..])
  }

  /** `checkAllServices()`: every check settles (none rejects), so `errors` is always 0,
      `healthy` counts the services whose probe answered with a 2xx status, and every other
      check counts as unhealthy. */
  function CheckAllServices(m: Monitor, env: Env, probes: string -> Probe, now: int): (r: (Monitor, Summary))
    ensures r.1.total == |ServiceKeys|
    ensures r.1.healthy == CountTrue(Verdicts(m.online, ServiceKeys, probes))
    ensures r.1.unhealthy == r.1.total - r.1.healthy
    ensures r.1.errors == 0
    ensures r.0 == Broadcast(CheckEach(m, env, ServiceKeys, probes, now).0, HealthChecked(r.1, now))
  {
    var checked := CheckEach(m, env, ServiceKeys, probes, now);
    VerdictsAreUnique(checked.1, m.online, ServiceKeys, probes);
    var healthy := CountTrue(checked.1);
    var summary := Summary(|checked.1|, healthy, |checked.1| - healthy, 0);
    (Broadcast(checked.0, HealthChecked(summary, now)), summary)
  }

  /** A sequence of `true` entries counts them all. */
  lemma {:induction false} CountTrueAll(bs: seq<bool>)
    requires forall i :: 0 <= i < |bs| ==> bs[i]
    ensures CountTrue(bs) == |bs|
  {
    if |bs| > 0 {
      CountTrueAll(bs[1..]);
    }
  }

  /** Online, with every service answering its probe with a 2xx status, a full health check
      finds every service healthy and none unhealthy. */
  lemma AllAnsweringFindsAllHealthy(m: Monitor, env: Env, probes: string -> Probe, now: int)
    requires m.online
    requires forall s :: s in ServiceKeys ==> probes(s).Answered? && IsOk(probes(s).status)
    ensures CheckAllServices(m, env, probes, now).1.healthy == |ServiceKeys|
    ensures CheckAllServices(m, env, probes, now).1.unhealthy == 0
  {
    var v := Verdicts(m.online, ServiceKeys, probes);
    assert forall i :: 0 <= i < |v| ==> v[i] by {
      forall i | 0 <= i < |v|
        ensures v[i]
      {
        assert ServiceKeys[i] in ServiceKeys;
      }
    }
    CountTrueAll(v);
  }

  /** A sequence with no `true` entry counts zero. */
  lemma {:induction false} CountTrueNone(bs: seq<bool>)
    requires forall i :: 0 <= i < |bs| ==> !bs[i]
    ensures CountTrue(bs) == 0
  {
    if |bs| > 0 {
      CountTrueNone(bs[1..]);
    }
  }

  /** While offline, a full health check finds no healthy service. */
  lemma OfflineFindsNothingHealthy(m: Monitor, env: Env, probes: string -> Probe, now: int)
    requires !m.online
    ensures CheckAllServices(m, env, probes, now).1.healthy == 0
  {
    OfflineChecksFail(m, env, ServiceKeys, probes, now);
  }

  /** While offline, no check of any list of services succeeds. */
  lemma OfflineChecksFail(m: Monitor, env: Env, services: seq<string>, probes: string -> Probe, now: int)
    requires !m.online
    ensures CountTrue(CheckEach(m, env, services, probes, now).1) == 0
  {
    var results := CheckEach(m, env, services, probes, now).1;
    assert forall i :: 0 <= i < |results| ==> !Reachable(m.online, services[i], probes(services[i]));
    CountTrueNone(results);
  }

  /** While offline, checking a service issues no request and marks it offline, whatever
      the service. */
  lemma OfflineShortCircuit(m: Monitor, env: Env, probe: Probe, now: int)
    requires !m.online
    ensures forall service :: service in ServiceKeys ==>
      var r := CheckServiceHealth(m, env, service, probe, now);
      r.request.None? && GetServiceStatus(r.monitor, service) == Offline
  {
  }

  // ---------------------------------------------------------------------------
  // URLBuilder

  /** A query parameter's value: `null`, `undefined`, or a value rendered by `toString()`. */
  datatype ParamValue = Null | Undefined | Present(text: string)

  /** The parameters `URLBuilder.build` keeps: those whose value is neither null nor undefined,
      in order, each as its key and text. */
  function KeptParams(params: seq<(string, ParamValue)>): (kept: seq<(string, string)>)
    ensures |kept| <= |params|
    ensures |kept| == 0 <==> forall i :: 0 <= i < |params| ==> !params[i].1.Present?
    ensures forall i :: 0 <= i < |params| && params[i].1.Present? ==> (params[i].0, params[i].1.text) in kept
    ensures forall j :: 0 <= j < |kept| ==> (kept[j].0, Present(kept[j].1)) in params
  {
    if |params| == 0 then []
    else
      var rest := KeptParams(params[1..]);
      assert forall i :: 1 <= i < |params| ==> params[i] == params[1..][i - 1];
      assert forall j :: 0 <= j < |rest| ==> (rest[j].0, Present(rest[j].1)) in params[1..];
      match params[0].1
      case Present(v) => [(params[0].0, v)] + rest
      case _ => rest
  }

  /** Keeping distributes over concatenation, and a single parameter is kept, as its key and
      text, exactly when it is present: together these pin the kept list down to the present
      parameters in their original order. */
  lemma {:induction false} KeptParamsAppend(a: seq<(string, ParamValue)>, b: seq<(string, ParamValue)>)
    ensures KeptParams(a + b) == KeptParams(a) + KeptParams(b)
    ensures |a| == 1 && a[0].1.Present? ==> KeptParams(a) == [(a[0].0, a[0].1.text)]
    ensures |a| == 1 && !a[0].1.Present? ==> KeptParams(a) == []
    decreases |a|
  {
    if |a| > 0 {
      assert (a + b)[0] == a[0];
      assert (a + b)[1..] == a[1..] + b;
      KeptParamsAppend(a[1..], b);
      if |a| == 1 {
        assert a[1..] == [];
      }
    } else {
      assert a + b == b;
    }
  }

  /** `searchParams.toString()`: `key=value` pairs joined by `&`; `encode` stands for the
      form-urlencoding of one component. */
  function QueryString(kept: seq<(string, string)>, encode: string -> string): (q: string)
    ensures q == "" <==> |kept| == 0
  {
    if |kept| == 0 then ""
    else
      var pair := encode(kept[0].0) + "=" + encode(kept[0].1);
      assert pair[|encode(kept[0].0)|] == '=';
      if |kept| == 1 then pair else pair + "&" + QueryString(kept[1..], encode)
  }

  /** `URLBuilder.build(service, path, params)`. */
  function Build(env: Env, service: string, path: string, params: seq<(string, ParamValue)>,
                 encode: string -> string): (r: Result<string, string>)
    ensures r.Failure? <==> service !in ServiceKeys
    ensures r.Failure? ==> r.error == "Unknown service: " + service
    ensures r.Success? ==> StartsWith(r.value, LookupEndpoint(env, service).value.url + path)
    ensures r.Success? && (forall i :: 0 <= i < |params| ==> !params[i].1.Present?) ==>
      r.value == LookupEndpoint(env, service).value.url + path
    ensures r.Success? && (exists i :: 0 <= i < |params| && params[i].1.Present?) ==>
      r.value == LookupEndpoint(env, service).value.url + path + "?" + QueryString(KeptParams(params), encode)
  {
    match LookupEndpoint(env, service)
    case None => Failure("Unknown service: " + service)
    case Some(ep) =>
      var url := ep.url + path;
      var query := QueryString(KeptParams(params), encode);
      if query != "" then Success(url + "?" + query) else Success(url)
  }

  /** The WebSocket form of a base URL: a leading `http` becomes `ws`. */
  function WebSocketBase(url: string): (ws: string)
    ensures StartsWith(url, "http") ==> ws == "ws" + url[4..]
    ensures !StartsWith(url, "http") ==> ws == url
  {
    if StartsWith(url, "http") then "ws" + url[4..] else url
  }

  /** A secure base keeps its security: `https://` becomes `wss://`, rest of the URL kept. */
  lemma SecureWebSocketScheme(url: string)
    requires StartsWith(url, "https://")
    ensures WebSocketBase(url) == "wss://" + url[8..]
  {
    var rest := url[8..];
    assert url == "https://" + rest by { assert url == url[..8] + rest; }
    assert url[..4] == "http";
    assert url[4..] == "s://" + rest;
  }

  /** A plain base stays plain: `http://` becomes `ws://`, rest of the URL kept. */
  lemma PlainWebSocketScheme(url: string)
    requires StartsWith(url, "http://")
    ensures WebSocketBase(url) == "ws://" + url[7..]
  {
    var rest := url[7..];
    assert url == "http://" + rest by { assert url == url[..7] + rest; }
    assert url[..4] == "http";
    assert url[4..] == "://" + rest;
  }

  /** `URLBuilder.buildWebSocket(service, path)`: the path defaults to `/ws` when not given. */
  function BuildWebSocket(env: Env, service: string, path: Option<string>): (r: Result<string, string>)
    ensures r.Failure? <==> service !in ServiceKeys
    ensures r.Failure? ==> r.error == "Unknown service for WebSocket: " + service
    ensures r.Success? ==> r.value == WebSocketBase(LookupEndpoint(env, service).value.url) + path.GetOr("/ws")
  {
    match LookupEndpoint(env, service)
    case None => Failure("Unknown service for WebSocket: " + service)
    case Some(ep) =>
      var p := if path.Some? then path.value else "/ws";
      Success(WebSocketBase(ep.url) + p)
  }
}

=== FILE: notifications.dfy ===
/**
  The notification list behind the dashboard's toast messages: adding with a generated id
  and an auto-dismiss timer, removing, clearing, the typed `notify*` helpers, and the
  progress bar that counts down an auto-dismissed notification.

  The generated id (`Date.now() + Math.random()`) and the clock are parameters; the timer a
  notification schedules is returned instead of being started.
 */
module Notifications {
  import opened Wrappers

  const Success := "success"
  const Error := "error"
  const Warning := "warning"
  const Info := "info"
  const Loading := "loading"

  const DefaultDuration: int := 5000

  /** What a notification shows as its message: text, or (from `notifyError`) the error value
      itself when it carries no message. */
  datatype Message = Text(text: string) | ErrorObject(spiritualMessage: string, message: string)

  datatype Notification = Notification(
    id: real, timestamp: int, kind: Option<string>, title: Option<string>, message: Option<Message>,
    duration: Option<int>)

  /** The object passed to `addNotification`; a field that is `None` is not present. */
  datatype NotificationInput = NotificationInput(
    id: Option<real>, timestamp: Option<int>, kind: Option<string>, title: Option<string>,
    message: Option<Message>, duration: Option<int>)

  /** What `addNotification` did: the new list, the id it returned, and the delay of the
      removal it scheduled, if any. */
  datatype Added = Added(list: seq<Notification>, id: real, removeAfter: Option<int>)

  /** `addNotification(notification)`: the new entry is appended; the caller's fields come
      last in the spread, so a caller's id or timestamp wins over the generated one. The
      generated id is returned, and removal of that id is scheduled after the duration
      (5000 by default) when it is positive. */
  function AddNotification(list: seq<Notification>, input: NotificationInput, generatedId: real, now: int): (r: Added)
    ensures |r.list| == |list| + 1 && r.list[..|list|] == list
    ensures r.list[|list|].id == input.id.GetOr(generatedId)
    ensures r.list[|list|].timestamp == input.timestamp.GetOr(now)
    ensures r.list[|list|].kind == input.kind && r.list[|list|].title == input.title
    ensures r.list[|list|].message == input.message && r.list[|list|].duration == input.duration
    ensures r.id == generatedId
    ensures r.removeAfter.Some? <==> input.duration.GetOr(DefaultDuration) > 0
    ensures r.removeAfter.Some? ==> r.removeAfter.value == input.duration.GetOr(DefaultDuration)
  {
    var entry := Notification(input.id.GetOr(generatedId), input.timestamp.GetOr(now), input.kind, input.title,
                              input.message, input.duration);
    var duration := input.duration.GetOr(DefaultDuration);
    Added(list + [entry], generatedId, if duration > 0 then Some(duration) else None)
  }

  /** `removeNotification(id)`: every entry with that id goes, the rest keep their order. */
  function RemoveNotification(list: seq<Notification>, id: real): (r: seq<Notification>)
    ensures |r| <= |list|
    ensures forall n :: n in r <==> n in list && n.id != id
  {
    if |list| == 0 then []
    else
      var rest := RemoveNotification(list[1..], id);
      assert forall n :: n in list[1..] ==> n in list;
      assert forall n :: n in list ==> n == list[0] || n in list[1..];
      if list[0].id == id then rest else [list[0]] + rest
  }

  /** Removal distributes over concatenation, so the survivors keep their relative order. */
  lemma {:induction false} RemoveDistributes(a: seq<Notification>, b: seq<Notification>, id: real)
    ensures RemoveNotification(a + b, id) == RemoveNotification(a, id) + RemoveNotification(b, id)
  {
    if |a| == 0 {
      assert a + b == b;
    } else {
      assert (a + b)[0] == a[0];
      assert (a + b)[1..] == a[1..] + b;
      RemoveDistributes(a[1..], b, id);
    }
  }

  /** A list without that id is left exactly as it was. */
  lemma {:induction false} RemoveAbsentIsIdentity(list: seq<Notification>, id: real)
    requires forall i :: 0 <= i < |list| ==> list[i].id != id
    ensures RemoveNotification(list, id) == list
  {
    if |list| > 0 {
      RemoveAbsentIsIdentity(list[1..], id);
    }
  }

  /** Adding with a fresh generated id and then running the scheduled removal gives back the
      original list, when the caller did not supply an id of its own. */
  lemma AddThenRemove(list: seq<Notification>, input: NotificationInput, generatedId: real, now: int)
    requires input.id.None?
    requires forall i :: 0 <= i < |list| ==> list[i].id != generatedId
    ensures var added := AddNotification(list, input, generatedId, now);
      RemoveNotification(added.list, added.id) == list
  {
    var added := AddNotification(list, input, generatedId, now);
    RemoveDistributes(list, [added.list[|list|]], generatedId);
    RemoveAbsentIsIdentity(list, generatedId);
    assert added.list == list + [added.list[|list|]];
  }

  /** With a caller-supplied id, the returned id and the scheduled removal name the generated
      id, which the stored entry does not carry: the removal leaves the entry in place. */
  lemma CallerIdDefeatsAutoRemoval(list: seq<Notification>, input: NotificationInput, generatedId: real, now: int)
    requires input.id.Some? && input.id.value != generatedId
    requires forall i :: 0 <= i < |list| ==> list[i].id != generatedId
    ensures var added := AddNotification(list, input, generatedId, now);
      RemoveNotification(added.list, added.id) == added.list
  {
    var added := AddNotification(list, input, generatedId, now);
    RemoveAbsentIsIdentity(added.list, generatedId);
  }

  /** `clearAllNotifications()`. */
  function ClearAllNotifications(list: seq<Notification>): (r: seq<Notification>)
    ensures r == []
    ensures forall id :: RemoveNotification(r, id) == r
  {
    []
  }

  // ---------------------------------------------------------------------------
  // The notify helpers

  /** A helper's `options`; a field that is `None` is not present. */
  datatype NotifyOptions = NotifyOptions(
    id: Option<real>, timestamp: Option<int>, kind: Option<string>, title: Option<string>,
    message: Option<Message>, duration: Option<int>)

  const NoNotifyOptions := NotifyOptions(None, None, None, None, None, None)

  /** `addNotification({ type, title: options.title || defaultTitle, message, [duration,] ...options })`:
      every field the options carry wins, including a title that is present but empty. */
  function HelperInput(kind: string, defaultTitle: string, message: Message, duration: Option<int>,
                       options: NotifyOptions): (input: NotificationInput)
    ensures input.kind == Some(options.kind.GetOr(kind))
    ensures input.title == Some(options.title.GetOr(defaultTitle))
    ensures input.message == Some(options.message.GetOr(message))
    ensures options.duration.Some? ==> input.duration == options.duration
    ensures options.duration.None? ==> input.duration == duration
    ensures input.id == options.id && input.timestamp == options.timestamp
  {
    var title := if options.title.Some? && options.title.value != "" then options.title.value else defaultTitle;
    NotificationInput(
      options.id,
      options.timestamp,
      Some(options.kind.GetOr(kind)),
      Some(options.title.GetOr(title)),
      Some(options.message.GetOr(message)),
      if options.duration.Some? then options.duration else duration)
  }

  // The default titles are kept exactly as the source spells them: its emoji were saved as
  // UTF-8 bytes read back as Windows-1252, so "✨ Spiritual Success" reads "âœ¨ Spiritual Success".
  const SuccessTitle := "\U{E2}\U{153}\U{A8} Spiritual Success"
  const ErrorTitle := "\U{F0}\U{178}\U{152}\U{2122} Spiritual Challenge"
  const WarningTitle := "\U{E2}\U{161}\U{A0}\U{EF}\U{B8} Cosmic Caution"
  const InfoTitle := "\U{F0}\U{178}\U{201D}\U{AE} Spiritual Insight"
  const LoadingTitle := "\U{F0}\U{178}\U{152}\U{178} Channeling Energy"

  /** What a helper leaves behind: one entry appended whose type, title, message and duration
      come from the options when present and from the helper's defaults otherwise, and a
      removal scheduled for the generated id exactly when the resulting duration is positive. */
  ghost predicate Posted(list: seq<Notification>, r: Added, kind: string, defaultTitle: string, message: Message,
                         duration: Option<int>, options: NotifyOptions, generatedId: real, now: int)
  {
    var effective := if options.duration.Some? then options.duration else duration;
    && |r.list| == |list| + 1 && r.list[..|list|] == list
    && r.list[|list|].id == options.id.GetOr(generatedId)
    && r.list[|list|].timestamp == options.timestamp.GetOr(now)
    && r.list[|list|].kind == Some(options.kind.GetOr(kind))
    && r.list[|list|].title == Some(options.title.GetOr(defaultTitle))
    && r.list[|list|].message == Some(options.message.GetOr(message))
    && r.list[|list|].duration == effective
    && r.id == generatedId
    && (r.removeAfter.Some? <==> effective.GetOr(DefaultDuration) > 0)
    && (r.removeAfter.Some? ==> r.removeAfter.value == effective.GetOr(DefaultDuration))
  }

  /** `notifySuccess(message, options)`. */
  function NotifySuccess(list: seq<Notification>, message: string, options: NotifyOptions,
                         generatedId: real, now: int): (r: Added)
    ensures Posted(list, r, Success, SuccessTitle, Text(message), None, options, generatedId, now)
  {
    AddNotification(list, HelperInput(Success, SuccessTitle, Text(message), None, options), generatedId, now)
  }

  /** `notifyWarning(message, options)`. */
  function NotifyWarning(list: seq<Notification>, message: string, options: NotifyOptions,
                         generatedId: real, now: int): (r: Added)
    ensures Posted(list, r, Warning, WarningTitle, Text(message), None, options, generatedId, now)
  {
    AddNotification(list, HelperInput(Warning, WarningTitle, Text(message), None, options), generatedId, now)
  }

  /** `notifyInfo(message, options)`. */
  function NotifyInfo(list: seq<Notification>, message: string, options: NotifyOptions,
                      generatedId: real, now: int): (r: Added)
    ensures Posted(list, r, Info, InfoTitle, Text(message), None, options, generatedId, now)
  {
    AddNotification(list, HelperInput(Info, InfoTitle, Text(message), None, options), generatedId, now)
  }

  /** `notifyLoading(message, options)`: duration 0 unless the options say otherwise. */
  function NotifyLoading(list: seq<Notification>, message: string, options: NotifyOptions,
                         generatedId: real, now: int): (r: Added)
    ensures Posted(list, r, Loading, LoadingTitle, Text(message), Some(0), options, generatedId, now)
  {
    AddNotification(list, HelperInput(Loading, LoadingTitle, Text(message), Some(0), options), generatedId, now)
  }

  /** A loading notification without an explicit duration is never dismissed automatically and
      shows no progress bar. */
  lemma LoadingStaysUntilRemoved(list: seq<Notification>, message: string, options: NotifyOptions,
                                 generatedId: real, now: int)
    requires options.duration.None?
    ensures var r := NotifyLoading(list, message, options, generatedId, now);
      r.removeAfter.None? && !Counts(r.list[|list|].duration)
  {
  }

  /** Helpers without options yield their own type and default title, and are dismissed after
      five seconds. */
  lemma HelperDefaults(list: seq<Notification>, message: string, generatedId: real, now: int)
    ensures var r := NotifySuccess(list, message, NoNotifyOptions, generatedId, now);
      r.list[|list|].kind == Some(Success) && r.list[|list|].title == Some(SuccessTitle) &&
      r.list[|list|].message == Some(Text(message)) && r.removeAfter == Some(DefaultDuration)
  {
  }

  /** The value `notifyError` is given. */
  datatype ErrorValue = NoError | ErrorText(text: string) | ErrorRecord(spiritualMessage: string, message: string)

  const UnknownErrorMessage := "An unknown error occurred"

  /** `error?.spiritualMessage || error?.message || error || 'An unknown error occurred'`. */
  function ErrorMessage(error: ErrorValue): (m: Message)
    ensures error.ErrorRecord? && error.spiritualMessage != "" ==> m == Text(error.spiritualMessage)
    ensures error.ErrorRecord? && error.spiritualMessage == "" && error.message != "" ==> m == Text(error.message)
    ensures error.ErrorRecord? && error.spiritualMessage == "" && error.message == "" ==> m == ErrorObject("", "")
    ensures error.ErrorText? && error.text != "" ==> m == Text(error.text)
    ensures error.NoError? || (error.ErrorText? && error.text == "") ==> m == Text(UnknownErrorMessage)
  {
    match error
    case ErrorRecord(spiritual, message) =>
      if spiritual != "" then Text(spiritual)
      else if message != "" then Text(message)
      else ErrorObject(spiritual, message)
    case ErrorText(text) => if text != "" then Text(text) else Text(UnknownErrorMessage)
    case NoError => Text(UnknownErrorMessage)
  }

  /** `notifyError(error, options)`. */
  function NotifyError(list: seq<Notification>, error: ErrorValue, options: NotifyOptions,
                       generatedId: real, now: int): (r: Added)
    ensures Posted(list, r, Error, ErrorTitle, ErrorMessage(error), None, options, generatedId, now)
  {
    AddNotification(list, HelperInput(Error, ErrorTitle, ErrorMessage(error), None, options), generatedId, now)
  }

  /** A handled spiritual error is shown with its spiritual message, titled as a challenge. */
  lemma SpiritualErrorsShowTheirMessage(list: seq<Notification>, spiritual: string, message: string,
                                        generatedId: real, now: int)
    requires spiritual != ""
    ensures var r := NotifyError(list, ErrorRecord(spiritual, message), NoNotifyOptions, generatedId, now);
      r.list[|list|].message == Some(Text(spiritual)) && r.list[|list|].title == Some(ErrorTitle) &&
      r.list[|list|].kind == Some(Error)
  {
  }

  // ---------------------------------------------------------------------------
  // The progress bar

  /** `notification.duration > 0`: only then is there a progress bar; an absent duration
      (auto-dismissed after the default five seconds) has none. */
  predicate Counts(duration: Option<int>) {
    duration.Some? && duration.value > 0
  }

  /** One 100 ms interval tick: `max(0, p - 100 / (duration / 100))`, and nothing while the
      mouse hovers over the notification or without a positive duration. */
  function Tick(progress: real, duration: Option<int>, hovered: bool): (p: real)
    ensures !Counts(duration) || hovered ==> p == progress
    ensures Counts(duration) && !hovered ==> p >= 0.0 && (p == 0.0 || p == progress - Step(duration.value))
    ensures Counts(duration) && !hovered && progress > 0.0 ==> p < progress
  {
    if Counts(duration) && !hovered then
      var step := Step(duration.value);
      if progress - step > 0.0 then progress - step else 0.0
    else progress
  }

  /** The amount one tick removes: `10000 / duration` percent. */
  function Step(duration: int): (s: real)
    requires duration > 0
    ensures s > 0.0
  {
    100.0 / (duration as real / 100.0)
  }

  /** `n` ticks. */
  function Ticks(progress: real, duration: Option<int>, n: nat): real
    decreases n
  {
    if n == 0 then progress else Ticks(Tick(progress, duration, false), duration, n - 1)
  }

  /** Zero for a negative amount, the amount otherwise. */
  function Clamp(x: real): real {
    if x > 0.0 then x else 0.0
  }

  lemma TickClamps(progress: real, duration: int)
    requires duration > 0
    ensures Tick(progress, Some(duration), false) == Clamp(progress - Step(duration))
  {
  }

  lemma Distribute(n: nat, step: real)
    requires n > 0 && step > 0.0
    ensures n as real * step == step + (n - 1) as real * step && (n - 1) as real * step >= 0.0
  {
  }

  /** Without hovering, `n` ticks take the bar from `progress` to
      `max(0, progress - n * 10000 / duration)`. */
  lemma {:induction false} TicksCountDown(duration: int, progress: real, n: nat)
    requires duration > 0 && progress >= 0.0
    ensures Ticks(progress, Some(duration), n) == Clamp(progress - n as real * Step(duration))
    decreases n
  {
    if n > 0 {
      var step := Step(duration);
      var next := Tick(progress, Some(duration), false);
      TickClamps(progress, duration);
      TicksCountDown(duration, next, n - 1);
      Distribute(n, step);
    }
  }

  /** After `duration / 100` ticks (the notification's lifetime in 100 ms steps) a full bar is
      empty. */
  lemma FullBarEmptiesOverLifetime(duration: int)
    requires duration > 0 && duration % 100 == 0
    ensures Ticks(100.0, Some(duration), duration / 100) == 0.0
  {
    var n := duration / 100;
    TicksCountDown(duration, 100.0, n);
    assert n as real * Step(duration) == 100.0 by {
      assert duration as real == 100.0 * n as real;
    }
  }
}

=== FILE: numeric.dfy ===
/** Numeric helpers shared by the backoff formulas. */
module Numeric {

  /** A draw of `Math.random() * 0.3`: the jitter added to a backoff delay. */
  type Jitter = j: real | 0.0 <= j < 0.3 witness 0.0

  function MinReal(a: real, b: real): (r: real)
    ensures r <= a && r <= b && (r == a || r == b)
  {
    if a <= b then a else b
  }

  /** Raising one argument of the minimum never lowers it. */
  lemma MinRealMonotonic(a: real, a': real, b: real)
    requires a <= a'
    ensures MinReal(a, b) <= MinReal(a', b)
  {
  }

  /** Scaling a non-negative amount by a factor of at least one never shrinks it. */
  lemma ScaleUp(x: real, f: real)
    requires x >= 0.0 && f >= 1.0
    ensures x * f >= x
  {
    assert x * f == x + x * (f - 1.0);
  }

  /** `Math.pow(2, e)` for an integer exponent. */
  function Pow2(e: int): (r: real)
    ensures r > 0.0
    ensures e >= 0 ==> r >= 1.0
    decreases if e >= 0 then e else -e
  {
    if e == 0 then 1.0
    else if e > 0 then 2.0 * Pow2(e - 1)
    else Pow2(e + 1) / 2.0
  }

  /** Each step up in the exponent doubles the power. */
  lemma {:induction false} Pow2Step(e: int)
    ensures Pow2(e + 1) == 2.0 * Pow2(e)
    decreases if e >= 0 then e else -e
  {
    if e < 0 && e + 1 < 0 {
      Pow2Step(e + 1);
    }
  }

  /** The power of two grows with the exponent. */
  lemma {:induction false} Pow2Monotonic(a: int, b: int)
    requires a <= b
    ensures Pow2(a) <= Pow2(b)
    decreases b - a
  {
    if a < b {
      Pow2Step(a);
      Pow2Monotonic(a + 1, b);
    }
  }

  /** A delay stretched by a jitter draw: `x * (1 + j)`. It is never shorter than `x` and
      adds less than 30% to a positive delay. */
  function Jittered(x: real, j: Jitter): (r: real)
    requires x >= 0.0
    ensures x <= r
    ensures x > 0.0 ==> r < 1.3 * x
  {
    assert x * (1.0 + j) == x + x * j;
    assert x > 0.0 ==> x * j < x * 0.3;
    x * (1.0 + j)
  }

  /** Stretching two delays by the same draw keeps their order. */
  lemma JitteredMonotonic(x: real, y: real, j: Jitter)
    requires 0.0 <= x <= y
    ensures Jittered(x, j) <= Jittered(y, j)
  {
    var gap := Jittered(y - x, j);
    assert Jittered(y, j) - Jittered(x, j) == gap;
  }

  /** A jittered delay under a cap: `min(x * (1 + j), cap)`, the shape of both backoff
      formulas. */
  function CappedJitter(x: real, j: Jitter, cap: real): (r: real)
    requires x >= 0.0
    ensures r <= cap
    ensures r >= MinReal(x, cap)
    ensures x >= cap ==> r == cap
    ensures x > 0.0 ==> r < 1.3 * x
  {
    MinRealMonotonic(x, Jittered(x, j), cap);
    MinReal(Jittered(x, j), cap)
  }

  /** For a fixed draw and cap, a longer base delay never gives a shorter result. */
  lemma CappedJitterMonotonic(x: real, y: real, j: Jitter, cap: real)
    requires 0.0 <= x <= y
    ensures CappedJitter(x, j, cap) <= CappedJitter(y, j, cap)
  {
    JitteredMonotonic(x, y, j);
    MinRealMonotonic(Jittered(x, j), Jittered(y, j), cap);
  }
}

=== FILE: platform.dfy ===
/** What the JavaScript runtime hands every module: `process.env` and `response.ok`. */
module Platform {

  /** `process.env`. */
  type Env = map<string, string>

  /** `process.env[key] || fallback`: an unset or empty variable gives the fallback. */
  function EnvOr(env: Env, key: string, fallback: string): (v: string)
    ensures key in env && env[key] != "" ==> v == env[key]
    ensures (key !in env || env[key] == "") ==> v == fallback
  {
    if key in env && env[key] != "" then env[key] else fallback
  }

  /** `response.ok`: a status in the 2xx range. */
  predicate IsOk(status: int) {
    200 <= status <= 299
  }
}

=== FILE: strings.dfy ===
/** String helpers mirroring the JavaScript string operations the dashboard relies on. */
module Strings {

  /** `t` occurs in `s` starting at index `i`. */
  ghost predicate OccursAt(s: string, t: string, i: int) {
    0 <= i && i + |t| <= |s| && s[i..i + |t|] == t
  }

  /** `s.includes(t)`: a left-to-right scan for `t` in `s`. */
  function Contains(s: string, t: string): bool
    decreases |s|
  {
    if |t| > |s| then false
    else if s[..|t|] == t then true
    else Contains(s[1..], t)
  }

  /** The scan finds `t` exactly when `t` occurs at some index of `s`. */
  lemma {:induction false} ContainsIff(s: string, t: string)
    ensures Contains(s, t) <==> exists i :: OccursAt(s, t, i)
    decreases |s|
  {
    if |t| > |s| {
    } else if s[..|t|] == t {
      assert OccursAt(s, t, 0);
    } else {
      ContainsIff(s[1..], t);
      if Contains(s[1..], t) {
        var i :| OccursAt(s[1..], t, i);
        assert s[i + 1..i + 1 + |t|] == s[1..][i..i + |t|];
        assert OccursAt(s, t, i + 1);
      } else {
        forall i | OccursAt(s, t, i)
          ensures false
        {
          assert i != 0;
          assert s[1..][i - 1..i - 1 + |t|] == s[i..i + |t|];
          assert OccursAt(s[1..], t, i - 1);
        }
      }
    }
  }

  /** A witness occurrence is enough for the scan to succeed. */
  lemma ContainsAt(s: string, t: string, i: int)
    requires OccursAt(s, t, i)
    ensures Contains(s, t)
  {
    ContainsIff(s, t);
  }

  /** A non-empty `t` whose first character does not appear in `s` is not found. */
  lemma {:induction false} NotContainsWithoutFirstChar(s: string, t: string)
    requires |t| > 0 && t[0] !in s
    ensures !Contains(s, t)
    decreases |s|
  {
    if |t| <= |s| {
      assert s[..|t|][0] == s[0] != t[0];
      NotContainsWithoutFirstChar(s[1..], t);
    }
  }

  /** A `t` with some character that does not appear in `s` is not found. */
  lemma NotContainsWithoutChar(s: string, t: string, k: nat)
    requires k < |t| && t[k] !in s
    ensures !Contains(s, t)
  {
    ContainsIff(s, t);
  }

  /** Behind a prefix that lacks `t`'s first character, `t` is found exactly when it occurs
      in the rest: no occurrence can start inside the prefix. */
  lemma ContainsAfterPrefix(p: string, s: string, t: string)
    requires |t| > 0 && t[0] !in p
    ensures Contains(p + s, t) <==> Contains(s, t)
  {
    var ps := p + s;
    ContainsIff(ps, t);
    ContainsIff(s, t);
    if Contains(s, t) {
      var i :| OccursAt(s, t, i);
      assert ps[|p| + i..|p| + i + |t|] == s[i..i + |t|];
      assert OccursAt(ps, t, |p| + i);
    }
    if Contains(ps, t) {
      var i :| OccursAt(ps, t, i);
      assert s[i - |p|..i - |p| + |t|] == ps[i..i + |t|];
      assert OccursAt(s, t, i - |p|);
    }
  }

  /** Before a suffix shorter than `t` whose first character occurs in `t` only at its start,
      `t` is found exactly when it occurs in the front part: no occurrence can reach into the
      suffix. */
  lemma ContainsBeforeSuffix(s: string, q: string, t: string)
    requires 0 < |q| < |t| && q[0] !in t[1..]
    ensures Contains(s + q, t) <==> Contains(s, t)
  {
    var sq := s + q;
    ContainsIff(sq, t);
    ContainsIff(s, t);
    if Contains(s, t) {
      var i :| OccursAt(s, t, i);
      assert sq[i..i + |t|] == s[i..i + |t|];
      assert OccursAt(sq, t, i);
    }
    if Contains(sq, t) {
      var i :| OccursAt(sq, t, i);
      NoStraddle(s, q, t, i);
      assert s[i..i + |t|] == sq[i..i + |t|];
      assert OccursAt(s, t, i);
    }
  }

  /** Under the conditions of `ContainsBeforeSuffix`, an occurrence ends before the suffix. */
  lemma NoStraddle(s: string, q: string, t: string, i: int)
    requires 0 < |q| < |t| && q[0] !in t[1..] && OccursAt(s + q, t, i)
    ensures i + |t| <= |s|
  {
    var sq := s + q;
    assert sq[|s|] == q[0];
    assert forall k :: 1 <= k < |t| ==> t[k] != q[0] by {
      forall k | 1 <= k < |t|
        ensures t[k] != q[0]
      {
        assert t[k] == t[1..][k - 1];
      }
    }
    assert forall k :: 0 <= k < |t| ==> sq[i + k] == t[k] by {
      forall k | 0 <= k < |t|
        ensures sq[i + k] == t[k]
      {
        assert sq[i..i + |t|][k] == t[k];
      }
    }
  }

  /** Every string contains itself, in particular at the start of any extension. */
  lemma ContainsPrefix(s: string, t: string)
    requires |t| <= |s| && s[..|t|] == t
    ensures Contains(s, t)
  {
  }

  /** `s.startsWith(p)`. */
  predicate StartsWith(s: string, p: string) {
    |p| <= |s| && s[..|p|] == p
  }

  /** The decimal digit character for `d`. */
  function DigitChar(d: nat): (c: char)
    requires d < 10
    ensures '0' <= c <= '9'
  {
    ['0', '1', '2', '3', '4', '5', '6', '7', '8', '9'][d]
  }

  /** The numeric value of a decimal digit character. */
  function DigitValue(c: char): nat
    requires '0' <= c <= '9'
  {
    (c as int - '0' as int) as nat
  }

  /** `String(n)` for a non-negative integer: its decimal rendering. */
  function NatToString(n: nat): (s: string)
    ensures |s| > 0
    ensures forall i :: 0 <= i < |s| ==> '0' <= s[i] <= '9'
  {
    if n < 10 then [DigitChar(n)] else NatToString(n / 10) + [DigitChar(n % 10)]
  }

  /** Reads a non-empty string of decimal digits back as a number. */
  function ParseDigits(s: string): nat
    requires forall i :: 0 <= i < |s| ==> '0' <= s[i] <= '9'
  {
    if |s| == 0 then 0 else 10 * ParseDigits(s[..|s| - 1]) + DigitValue(s[|s| - 1])
  }

  /** Rendering a number and reading it back gives the number: the rendering loses nothing. */
  lemma {:induction false} ParseNatToString(n: nat)
    ensures ParseDigits(NatToString(n)) == n
  {
    var s := NatToString(n);
    if n >= 10 {
      ParseNatToString(n / 10);
      assert s[..|s| - 1] == NatToString(n / 10);
    }
  }

  /** Distinct numbers render differently. */
  lemma NatToStringInjective(m: nat, n: nat)
    requires NatToString(m) == NatToString(n)
    ensures m == n
  {
    ParseNatToString(m);
    ParseNatToString(n);
  }

  /** `items.join(sep)`. */
  function Join(items: seq<string>, sep: string): (r: string)
    ensures |items| == 0 ==> r == ""
    ensures |items| == 1 ==> r == items[0]
  {
    if |items| == 0 then ""
    else if |items| == 1 then items[0]
    else items[0] + sep + Join(items[1..], sep)
  }
}

=== FILE: wrappers.dfy ===
/** Option and Result types used for JavaScript's `undefined`/`null` values and thrown errors. */
module Wrappers {

  /** A value that may be absent (`undefined` or `null` in the source). */
  datatype Option<+T> = None | Some(value: T) {
    /** The value, or `default` when absent. */
    function GetOr(default: T): T {
      match this
      case Some(v) => v
      case None => default
    }
  }

  /** The outcome of an operation that may throw. */
  datatype Result<+R, +E> = Success(value: R) | Failure(error: E)

  /** The first element of `xs` whose key is `key`: a lookup in a table written as an
      ordered list of records. */
  function FindByKey<T>(xs: seq<T>, keyOf: T -> string, key: string): (r: Option<T>)
    ensures r.Some? ==> r.value in xs && keyOf(r.value) == key
    ensures r.None? <==> forall i :: 0 <= i < |xs| ==> keyOf(xs[i]) != key
  {
    if |xs| == 0 then None
    else if keyOf(xs[0]) == key then Some(xs[0])
    else FindByKey(xs[1..], keyOf, key)
  }
}
